=== FILE: README.md ===
# pycon-2025-demo core, modelled in Dafny

This project models the logic at the heart of the demo site. It has four parts.

- **Roleplay chat.** This covers the framework-independent chat core in `roleplay/core.py`: usage info, difficulty, the two chat configurations and their system prompts, messages, the in-memory history store, and `ChatService.send`. It also covers the database-backed history store in `roleplay/django_stores.py`, over the tables of `roleplay/models.py`. The streaming HTMX extension `streaming-html.js` is included as well.
- **Prompt library.** This covers the prompt validators, the `Prompt` model (tag cleaning, usage counter, listing order) and the reusable HTMX validation mixin in `prompts/forms_base.py`. It also covers the `PromptForm` that uses that mixin.
- **Chart fixtures.** This is the loop of `convert_to_fixture.py`. It turns scraped chart records into de-duplicated artist, album and song fixtures.
- **Todo.** This is the `Todo` model with `toggle` and its ordering.

One Dafny module models each source file:

| module | file | models |
|---|---|---|
| `Wrappers` | `wrappers.dfy` | `Option` / `Result` |
| `Text` | `text.dfy` | Python's `strip`, `split`, `join` and `in` on strings |
| `Decimal` | `decimal.dfy` | `str(int)` and `int(str)` |
| `ChatCore` | `chat_core.dfy` | `roleplay/core.py` value types and `InMemoryStore` |
| `RoleplayModels` | `roleplay_models.dfy` | `roleplay/models.py` |
| `DjangoStores` | `django_stores.dfy` | `roleplay/django_stores.py` |
| `Service` | `chat_service.dfy` | `ChatService` |
| `PromptValidators` | `prompt_validators.dfy` | `prompts/validators.py` |
| `PromptModels` | `prompt_models.dfy` | `prompts/models.py` |
| `FormsBase` | `forms_base.dfy` | `prompts/forms_base.py` |
| `PromptForms` | `prompt_forms.dfy` | `prompts/forms.py` |
| `FixtureConverter` | `fixture_converter.dfy` | `convert_to_fixture.py` |
| `TodoModels` | `todo_models.dfy` | `todo/models.py` |
| `StreamingHtml` | `streaming_html.dfy` | `roleplay/static/htmx-ext/streaming-html.js` |

Parts the model cannot see become parameters.

- **Completion API.** The OpenAI call is a function from request to reply.
- **URL router.** Django's `reverse` is a pair of partial maps, one for each calling form.
- **Form validation.** The form's full validation is a function from field name and form data to an optional error message.
- **Environment.** The `OPENAI_API_KEY` environment value is an argument.
- **Clocks.** `date.today()` and `datetime.now` are integers.
- **Database.** The database is a value holding both tables in insertion order, the auto-increment keys and a clock that is strictly increasing, so every new row gets a later `created_at` than all earlier ones.

`send` is stated for both versions of the database store's `add_message`: the program's, which fails after storing a message that carries usage, and the intended one, which keeps the session's token total (see "## Findings").

The edit form's tags box is likewise stated twice: as the program shows it, `str` of the stored list, and as `__init__` means it to, the tags joined with ", " (see "## Findings"). The model fields' error lists follow Django's `clean_fields`: an empty title or content gets only the blank error, and empty tags are skipped.

A Python exception that leaves earlier writes in place becomes a step result: the store and database as they are afterwards, plus the value returned or the error raised.

## Model

| member | source | states |
|---|---|---|
| ChatCore.UsageTextRoundTrip | roleplay/core.py:33-40 | The text `str(usage)` reads back as the input count, the output count and their sum, so the total shown is always input plus output. |
| ChatCore.DifficultyDescription | roleplay/core.py:102-110 | Intermediate and advanced map to their phrases; every other value, including a value that is not a `Difficulty`, reads "a beginner", both directions. |
| ChatCore.SystemPromptQuotesConfig | roleplay/core.py:88-131 | A roleplay prompt contains the language, both roles, the role template and the difficulty phrase verbatim; a simple configuration's prompt is its instruction. |
| ChatCore.RolePlayPromptOpening | roleplay/core.py:88-100 | A roleplay prompt opens with the fixed sentence naming the language, so it is never empty. |
| ChatCore.ParseUsageFields | roleplay/core.py:33-35 | Reading the usage text gives the three numbers exactly when each comma-free field parses as an integer, and nothing otherwise. |
| ChatCore.FormatContainsSlot | roleplay/core.py:112-120 | Formatting a template puts the value of every slot it uses into the result. |
| ChatCore.Last | roleplay/core.py:286-289 | The last `min(k, n)` elements of a list, as a suffix of it. |
| ChatCore.NewInMemoryStore | roleplay/core.py:280-281 | A new in-memory store holds no messages. |
| ChatCore.SliceStart | roleplay/core.py:289 | Where Python's `xs[start:]` begins, clamped into the list. |
| ChatCore.MemoryGet | roleplay/core.py:286-289 | `get_messages` returns a suffix of the stored messages: all of them without a limit, the last `limit` for a positive limit, all of them for limit 0 (since `[-0:]` is the whole list), and the list minus its first `-limit` elements for a negative limit. |
| ChatCore.MemoryClear | roleplay/core.py:291-292 | After `clear_history` the store returns no messages. |
| ChatCore.MemoryKeepsInsertionOrder | roleplay/core.py:283-289 | Messages added one by one come back in insertion order after the earlier ones. |
| ChatCore.AddAllAppends | roleplay/core.py:283-284 | Adding messages appends them, in order. |
| RoleplayModels.NewSessionRow | roleplay/models.py:9-21 | A created session gets an empty title, is active, and uses model "gpt-4o", temperature 1.0 and 1000 tokens unless told otherwise. |
| RoleplayModels.SessionTextNamesSession | roleplay/models.py:28-29 | A titled session renders as its title; an untitled one renders as "Session #" followed by text that parses back to its id. |
| RoleplayModels.RoleFromValue | roleplay/models.py:35-38 | A stored role text denotes a role only if that role's value is exactly that text. |
| RoleplayModels.RoleChoicesExact | roleplay/models.py:35-38 | The role choices are exactly "user", "assistant" and "system", and each role's value maps back to it. |
| RoleplayModels.MessageText | roleplay/models.py:53-55 | A message renders as its role and ": ", then its content when it has at most 50 characters, else its first 50 characters and "...". |
| RoleplayModels.SessionListing | roleplay/models.py:26 | Sessions are listed by descending key, and the listing is a permutation of the table. |
| RoleplayModels.Reverse | roleplay/models.py:26 | Reversal puts element `n-1-i` at `i`. |
| RoleplayModels.ReverseMultiset | roleplay/models.py:26 | Reversal keeps every element with its multiplicity. |
| DjangoStores.EmptyDb | roleplay/models.py:5-55 | The empty database satisfies the key, clock and foreign-key invariant. |
| DjangoStores.FindSession | roleplay/django_stores.py:34 | `objects.get(pk=id)` finds a stored session with that key, or reports that none has it. |
| DjangoStores.SessionRows | roleplay/django_stores.py:84 | `filter(session=pk)` keeps exactly the rows of that session. |
| DjangoStores.SessionRowsAscending | roleplay/django_stores.py:84 | Filtering keeps the creation order, so `order_by("created_at")` equals table order. |
| DjangoStores.NewDjangoStore | roleplay/django_stores.py:12-24 | A new store has no cached session. |
| DjangoStores.SessionInstruction | roleplay/django_stores.py:40-45 | The instruction a new session records equals the configuration's system prompt, for simple and roleplay configurations alike. |
| DjangoStores.Session | roleplay/django_stores.py:26-55 | Session access that fails changes nothing; one that succeeds caches the key it returns. |
| DjangoStores.SessionAccess | roleplay/django_stores.py:26-55 | `ValueError` is raised exactly when there is no cached session, no truthy `session_id` and no configuration. A new session records the system prompt and the fixed model settings and has no messages. Once obtained, the session is returned again without touching the database. |
| DjangoStores.NewSessionAccess | roleplay/django_stores.py:36-53 | Without a cached session or truthy id, a configured store creates exactly one session row with the next key and leaves the messages table alone. |
| DjangoStores.InsertMessageValid | roleplay/django_stores.py:62-66 | Inserting a message row for an existing session key keeps the database invariant. |
| DjangoStores.AddMessageWithUsageFails | roleplay/django_stores.py:57-78 | As written, adding a message that carries usage always raises after inserting its row; the intended version succeeds from the same state. |
| DjangoStores.AddMessageAsWrittenEffect | roleplay/django_stores.py:57-78 | As written, once the session is obtained, `add_message` inserts one row for it with the message's role and content and touches no token total; it then fails exactly when the message carries usage. |
| DjangoStores.AddMessageShape | roleplay/django_stores.py:57-78 | A successful add inserts one row for the session, and raises the session's token total by the usage total exactly when the message carries usage. |
| DjangoStores.AddMessageEffect | roleplay/django_stores.py:57-78 | A successful add appends one row with the message's role and content, and the session's rows grow by exactly that row. The session's token total rises by input plus output tokens; no other session's total changes. |
| DjangoStores.RowsToMessages | roleplay/django_stores.py:90-93 | Rows become messages with the same role, content and time and no usage. |
| DjangoStores.Window | roleplay/django_stores.py:86-88 | The `[max(0, count - limit):]` slice: all rows without a limit, the last `limit` for a positive one, none for a limit of 0 or below. |
| DjangoStores.GetMessages | roleplay/django_stores.py:80-93 | Reading messages changes the store and database only through session access. |
| DjangoStores.GetMessagesWindow | roleplay/django_stores.py:80-93 | `get_messages` returns the window of the session's rows as messages, ordered by creation time, none carrying usage. |
| DjangoStores.WindowAscending | roleplay/django_stores.py:84-93 | The window of creation-ordered rows is creation-ordered. |
| DjangoStores.OtherRows | roleplay/django_stores.py:99 | Deletion keeps exactly the rows of other sessions. |
| DjangoStores.GetMessageCount | roleplay/django_stores.py:101-105 | Counting changes the store and database only through session access. |
| DjangoStores.ClearHistoryEmpties | roleplay/django_stores.py:95-105 | After `clear_history` the count is 0 and `get_messages()` is empty, while every other session keeps its rows. |
| DjangoStores.OtherRowsKeep | roleplay/django_stores.py:99 | Deleting one session's rows leaves every other session's rows unchanged. |
| DjangoStores.CreateDjangoChatStore | roleplay/django_stores.py:108-120 | The factory's store belongs to the request's user exactly when that user is authenticated, and carries the configuration and session id. |
| DjangoStores.FactoryStoreNeedsNoConfig | roleplay/django_stores.py:108-120 | A factory-made store never raises the missing-configuration error. Without a session id it creates the next session, owned by the store's user. |
| Service.Turns | roleplay/core.py:189-197 | One API turn per message. |
| Service.RowTurns | roleplay/django_stores.py:90-93 | One API turn per stored row. |
| Service.TurnsOfLast | roleplay/core.py:191 | Taking the last `k` messages commutes with turning them into API turns. |
| Service.RowTurnsOfLast | roleplay/django_stores.py:86-88 | Taking the last `k` rows commutes with turning them into turns. |
| Service.StoreAddAppends | roleplay/core.py:178-181 | Adding a message grows the conversation by exactly that turn and leaves the store resolved. The program's database store fails after storing it exactly when the message carries usage and the session could be obtained. Any other failure changes nothing and comes from the database store. |
| Service.DatabaseAddAppends | roleplay/django_stores.py:57-78 | Once the session is obtained, both versions of `add_message` extend the conversation by exactly the message's turn. Only the program's version then fails, with the missing-counter error, and only for a message carrying usage. |
| Service.DatabaseAddLog | roleplay/django_stores.py:57-78 | Both versions of `add_message` insert the row before anything can fail, so the session's conversation grows by exactly the message's turn. |
| Service.StoreGetRecent | roleplay/core.py:189-191 | With a resolved session, both stores return the last `k` turns of the conversation and change nothing. |
| Service.StoreWindowsDiverge | roleplay/core.py:286-289 | The two stores agree without a limit and for positive limits. For limit 0 the in-memory store returns every message while the database store returns none. |
| Service.NewChatService | roleplay/core.py:137-162 | The API key falls back to the environment value. The system prompt is built from the configuration once, at construction. |
| Service.DefaultChatService | roleplay/core.py:137-162 | The constructor's defaults: "gpt-4o", temperature 1.0, 1000 tokens, quiet. |
| Service.UsageOf | roleplay/core.py:242-248 | Usage is attached exactly when the API reports it, with the prompt and completion token counts. |
| Service.Complete | roleplay/core.py:230-255 | The API call and assistant turn. An API failure is reported and stores nothing. A returned response carries the parsed text and phrases, with a usage total equal to the sum of the reported counts. |
| Service.Send | roleplay/core.py:169-255 | `send` only changes the history store. The request carries the service's model settings and starts with the system message when the prompt is non-empty. Without a store it sends just the system message and the user message. A returned response matches the completed reply. |
| Service.CompleteRecords | roleplay/core.py:250-255 | A completed reply is recorded as one assistant turn, and a failed call records nothing. The response is returned unless the program's database store is used and usage was reported; then `send` raises the missing-counter error after the turn is stored. |
| Service.SendRequest | roleplay/core.py:178-200 | With a store, `send` records the user turn first, then asks for the system message plus the last 10 turns including the new one. |
| Service.SendHistoryFails | roleplay/core.py:178-181 | When recording the user turn fails, no request is made and the service is unchanged; the user turn carries no usage, so either version of the store behaves alike here. |
| Service.SendWithHistory | roleplay/core.py:169-255 | The request ends with the user's message and carries at most 10 turns of history. A completed call grows the conversation by the user turn and the assistant reply, and returns the response unless the program's database store meets reported usage, which raises after both turns are stored. A failed call adds the user turn alone. |
| Service.SendLosesReportedReply | roleplay/core.py:241-255 | With the program's database store, a completed reply that reports usage is stored with the user turn, yet `send` raises instead of returning it; with the intended store the same call returns the response. |
| Service.SendInMemory | roleplay/core.py:169-255 | With an in-memory store, either version: a completed call appends the user message and an assistant message with the reply's text and usage; a failed call appends only the user message. |
| PromptValidators.FirstOccurring | prompts/validators.py:14-19 | The first character, in list order, that occurs in the value, or none exactly when no listed character occurs. |
| PromptValidators.ValidateNoSpecialChars | prompts/validators.py:12-19 | A title passes exactly when it holds none of `< > / \ \| * ?`; otherwise the reported character is one of them and occurs in it. |
| PromptValidators.SpecialCharReportedInListOrder | prompts/validators.py:14-19 | The reported character is the first in list order, not by position: "Why? <b>" is reported for '<'. |
| PromptValidators.IndexFrom | prompts/validators.py:25-26 | The first position at or after `i` holding the character, or none. |
| PromptValidators.VariablesFrom | prompts/validators.py:25-26 | Every match of `\[[^\]]*\]` has the bracket shape and occurs in the text. |
| PromptValidators.NoVariablesWithoutClosingBracket | prompts/validators.py:25-26 | A text without ']' has no variables. |
| PromptValidators.SingleVariableFound | prompts/validators.py:25-26 | A text with one closed bracket pair and no other brackets has exactly that variable. |
| PromptValidators.VariableAt | prompts/validators.py:25-26 | A '[' with a later ']' yields the text up to the first such ']', and the scan resumes after it. |
| PromptValidators.ScanReachesClosedPair | prompts/validators.py:25-26 | A scan that starts at or before a "[" whose first later "]" closes it finds a variable ending with that bracket pair. |
| PromptValidators.VariablesComplete | prompts/validators.py:25-26 | The scan misses no closed pair: wherever "[x]" occurs with no "]" in `x`, some variable found ends with "[x]". |
| PromptValidators.CheckVariable | prompts/validators.py:28-39 | A variable passes exactly when it has 3 to 50 characters, and the error names it as too short or too long. |
| PromptValidators.CheckVariables | prompts/validators.py:28-39 | All variables pass exactly when each does; otherwise the first failing one is reported. |
| PromptValidators.ValidatePromptVariables | prompts/validators.py:23-39 | Content passes exactly when every variable has 3 to 50 characters. A too-short variable is always "[]", and a too-long one has more than 50 characters; both are found in the content. |
| PromptValidators.CheckVariablesErrorShape | prompts/validators.py:28-39 | The reported variable is one of the list, and a too-short one is "[]". |
| PromptValidators.NoClosedBracketPasses | prompts/validators.py:23-39 | Content without ']' always passes the variable check. |
| PromptValidators.LongVariableRefused | prompts/validators.py:23-39 | Content holding "[x]" with a name of more than 48 characters is refused, whichever "[" its match begins at. |
| PromptValidators.EmptyVariableRefused | prompts/validators.py:23-39 | Content whose first "[" opens "[]" is refused as too short, naming "[]". |
| PromptValidators.CheckTag | prompts/validators.py:59-74 | A tag passes exactly when it is a string whose stripped length is 2 to 20. A non-string reports its 1-based index and Python type name; otherwise the stripped text is reported as too short or too long. |
| PromptValidators.CheckTagsFrom | prompts/validators.py:59-74 | The tags pass exactly when each does; otherwise the first bad tag's error is reported. |
| PromptValidators.ValidateTagsList | prompts/validators.py:43-74 | Null passes. A non-list is the wrong type. More than 10 tags is refused before any tag is looked at. A list passes exactly when it has at most 10 tags and each is a string of stripped length 2 to 20. |
| PromptValidators.TagCountBoundary | prompts/validators.py:53-56 | Ten good tags pass, and an eleventh is refused whatever it is. |
| PromptValidators.ValidateUniqueTitle | prompts/validators.py:77-86 | A title is refused exactly when a stored prompt has it. |
| PromptValidators.UniqueTitleRefusesOwnTitle | prompts/validators.py:77-86 | As a field validator, the check refuses a saved prompt's own title, but passes that title once the prompt's own row is left out. |
| PromptValidators.TitleErrors | prompts/models.py:22-28 | A title has no errors exactly when it has 5 to 200 characters and no special character. The empty title gets the blank error and nothing else, since the field is not `blank=True` and validators never run on an empty value. Otherwise the minimum-length error appears exactly for 1 to 4 characters. The maximum-length error appears exactly above 200 characters, both first and last: the list's own check, then the one `max_length=200` adds. |
| PromptValidators.ContentErrors | prompts/models.py:29-33 | Content has no errors exactly when it has at least 50 characters and every variable is 3 to 50 characters. Empty content gets the blank error alone. The length error appears exactly for 1 to 49 characters. |
| PromptValidators.TagsErrors | prompts/models.py:35-41 | The field is `blank=True`, so an empty value (null, "", `[]`, `{}`) has no errors. Any other value has none exactly when the tags list passes, and otherwise has exactly the tags-list error. |
| PromptValidators.EmptyTagsSkipped | prompts/models.py:35-41 | `{}` and "" pass only because the empty-value skip runs first: the tags-list check alone would refuse both as the wrong type. |
| PromptModels.CategoryKeys | prompts/models.py:12-20 | The keys of the category choices, in order. |
| PromptModels.DefaultCategoryIsAChoice | prompts/models.py:12-34 | There are seven distinct category keys, and the default "other" is one of them. |
| PromptModels.NewPrompt | prompts/models.py:34-45 | A new prompt gets category "other", an empty tag list, usage 0, is not a favourite, and carries the creation time. |
| PromptModels.IncrementUsage | prompts/models.py:55-58 | The instance's count goes up by one and nothing else of it changes. Saving succeeds exactly when the instance has a key with a row; it then writes that count into the row and leaves the row's other columns and every other row alone. An unsaved instance raises ValueError, and a key without a row raises DatabaseError; neither changes the table. |
| PromptModels.IncrementTimesCounts | prompts/models.py:55-58 | `n` increments of a stored prompt add exactly `n` to the instance and write that count to its row; no other column or row changes, and the rendering stays the same. |
| PromptModels.StaleInstanceOverwritesCount | prompts/models.py:55-58 | The count written is the instance's, not the row's plus one: two instances loaded with the same count, each incremented once, leave the row only one higher. |
| PromptModels.CleanPiece | prompts/models.py:66 | One piece contributes at most one tag, non-empty and stripped, and without a comma if the piece had none. |
| PromptModels.CleanPiecesPlain | prompts/models.py:66 | Cleaning comma-free pieces yields only plain tags. |
| PromptModels.ParsedTagsArePlain | prompts/models.py:66 | No tag parsed from text is empty, contains a comma, or has surrounding whitespace. |
| PromptModels.CleanTagsValue | prompts/models.py:60-66 | A text value becomes the list of its parsed tags, in order; any other value is kept. |
| PromptModels.Clean | prompts/models.py:60-66 | `clean` changes the tags and nothing else. |
| PromptModels.ParseTagTextEmpty | prompts/models.py:66 | The empty text yields no tags, and so does " , ,", which holds only commas and blanks. |
| PromptModels.ParseTagTextAppend | prompts/models.py:66 | The tags of "a,b" are the tags of a followed by the tags of b. |
| PromptModels.ParseJoinedTags | prompts/forms.py:63 | Joining plain tags with ", " and parsing the text gives the same tags back. |
| PromptModels.ListedBeforeIsStrictTotal | prompts/models.py:48 | The listing order is irreflexive, asymmetric and transitive, and any two prompts are ordered unless they tie on all three keys. |
| PromptModels.Insert | prompts/models.py:48 | Inserting into a listed sequence keeps it listed and adds exactly the new prompt. |
| PromptModels.Listing | prompts/models.py:48 | The default listing is ordered by favourite, then usage, then newest, and is a permutation of the table. |
| PromptModels.FavouritesFirst | prompts/models.py:48 | In a listing every favourite comes before every non-favourite. |
| PromptForms.Strings | prompts/forms.py:82-83 | The parsed tags as JSON strings, one for one. |
| PromptForms.CleanTags | prompts/forms.py:74-83 | A missing value gives no tags and a list is returned unchanged. Text gives one plain string tag per parsed piece. |
| PromptForms.FormAndModelParseAlike | prompts/forms.py:82 | The form's `clean_tags` and the model's `clean` parse text into the same tags. |
| PromptForms.EditInitial | prompts/forms.py:60-63 | `__init__` gives the tags field its own initial value exactly when the instance is saved and has tags, and that value is the tags joined with ", ". |
| PromptForms.PyRepr | prompts/forms.py:57-63 | Python's `repr` of a text is quoted at both ends and at least two characters longer. It adds no comma, and a text with nothing to escape is just wrapped in single quotes. |
| PromptForms.ShownTagsAsWritten | prompts/forms.py:57-63 | As written, the edit form's tags box shows `str` of the instance's list, bracketed, and "[]" for a prompt with no tags. `form.initial`, filled from the instance, shadows the initial `__init__` sets. |
| PromptForms.ShownTags | prompts/forms.py:60-63 | As intended, the box shows the tags joined with ", " once the prompt is saved, and nothing otherwise. |
| PromptForms.EditResubmitAsWritten | prompts/forms.py:57-83 | As written, an unchanged resubmission never gives plain tags back. The first tag read is '[' followed by the first tag's `repr`, closed by ']' when it is the only tag. A prompt with no tags comes back with the tag "[]", which the tag rules accept. |
| PromptForms.EditResubmitOneTag | prompts/forms.py:57-83 | As written, a single tag with nothing to escape comes back wrapped: "python" as "['python']". |
| PromptForms.EditResubmitKeepsTags | prompts/forms.py:60-83 | As intended, resubmitting the edit form unchanged gives back the instance's tags, none included, when each is non-empty, stripped and comma-free. |
| PromptForms.EditResubmitValidates | prompts/forms.py:60-83 | As intended, an unchanged resubmission of valid tags still passes the tag rules. |
| PromptForms.SetupPromptForm | prompts/forms.py:72 | The title, content, category and tags fields get HTMX attributes; the favourite checkbox and everything else stay as they were. |
| PromptForms.TitleAttributes | prompts/forms.py:14 | When the validation route resolves, the title field posts to it and targets "#error-title". |
| PromptForms.TextareaDefaultPassesContentRules | prompts/forms_base.py:16 | The textarea placeholder is long enough and holds no variables, so it passes the content rules. |
| FormsBase.TextareaDefaultLength | prompts/forms_base.py:16 | The textarea placeholder has 180 characters. |
| FormsBase.FirstTruthyKey | prompts/forms_base.py:56-57 | The first truthy choice key, or "" exactly when no key is truthy. |
| FormsBase.GetDefaultValue | prompts/forms_base.py:35-73 | The instance's attribute wins. Otherwise a choice field with choices gives its first truthy key, or "" when no key is truthy. Otherwise a text field gives the text or textarea placeholder, and any other field its table entry. |
| FormsBase.CharSubclassesSkipTable | prompts/forms_base.py:17-19 | Email, URL and Slug fields are text fields, so they get the text placeholder and never their table entries. |
| FormsBase.OtherKindsUseTable | prompts/forms_base.py:65-73 | A field that is neither a choice field nor a text field takes its table entry: 0 for integer fields, the current date for date fields, `{}` for JSON fields, and "" for a class name the table does not list. |
| FormsBase.BlankChoicesGiveEmpty | prompts/forms_base.py:52-57 | A choice field with only the blank option defaults to "". |
| FormsBase.ValidationUrlKwargs | prompts/forms_base.py:97-105 | The keyword arguments are the field name plus the configured extras; the extras win on a clash. |
| FormsBase.ValidationUrl | prompts/forms_base.py:107-134 | No URL without a route name. Otherwise the keyword reversal, falling back to the positional one, and none when both fail. |
| FormsBase.GetHtmxAttributes | prompts/forms_base.py:144-160 | No attributes exactly when the URL is missing or empty. Otherwise the five attributes: the post URL, the trigger, and the error target, swap and indicator named after the field. |
| FormsBase.WithHtmx | prompts/forms_base.py:246-248 | Merging attributes only adds to the widget's attributes and touches nothing else. |
| FormsBase.WithHtmxIdempotent | prompts/forms_base.py:246-248 | Merging the same attributes twice is the same as merging them once. |
| FormsBase.SetupHtmxAttributes | prompts/forms_base.py:234-248 | Exactly the targeted fields the form has get their HTMX attributes. Every other field is unchanged, and repeated names change nothing. |
| FormsBase.ProbeData | prompts/forms_base.py:186-192 | The probe data holds the submitted value for the field and a default for every other required field, and nothing else. |
| FormsBase.BuildProbeData | prompts/forms_base.py:186-192 | The loop builds exactly the probe data. |
| FormsBase.ValidateSingleField | prompts/forms_base.py:171-232 | An unknown field is invalid with the fixed message. Otherwise the field is valid exactly when validating the probe data reports no error, and the error is reported as is. |
| FormsBase.GetValidationStatus | prompts/forms_base.py:250-262 | One status per form field, each from validating that field alone with its submitted value, or "" when none was submitted. |
| FixtureConverter.RankOf | convert_to_fixture.py:47 | `int()` of the rank: integers unchanged, fractions truncated toward zero, booleans as 0 or 1, text only if it holds a digit, anything else refused. |
| FixtureConverter.SongOf | convert_to_fixture.py:42-56 | The song fixture carries the record's uid, rank, artist and album; missing lyrics, genre and likes become "", [] and 0. |
| FixtureConverter.EntityOf | convert_to_fixture.py:15-39 | The artist or album fixture carries the record's uid and name, and an album's also carries the record's cover image URL. |
| FixtureConverter.AddEntity | convert_to_fixture.py:15-39 | A seen uid changes nothing. An unseen one appends one fixture and records its name; the other kind's set is untouched. |
| FixtureConverter.Ranks | convert_to_fixture.py:47 | How each record's rank reads. |
| FixtureConverter.StepKeeps | convert_to_fixture.py:13-56 | One iteration keeps the loop invariant. The fixtures hold one entity per distinct uid seen, named at its first occurrence; each song refers to artists and albums introduced before it; the song list matches the records so far. |
| FixtureConverter.RunKeeps | convert_to_fixture.py:13-56 | The loop invariant holds after any number of successful iterations. |
| FixtureConverter.RunFailsOnBadRank | convert_to_fixture.py:13-56 | For records that carry every key the loop indexes with `[]`, the loop succeeds exactly when every rank so far reads as an integer. Otherwise it stops at the first unreadable rank. |
| FixtureConverter.CountsAddUp | convert_to_fixture.py:13-56 | Every fixture is an artist, an album or a song. |
| FixtureConverter.ConvertFailsOnBadRank | convert_to_fixture.py:47 | For records that carry every key the loop indexes with `[]`, the conversion succeeds exactly when every rank reads as an integer. Otherwise the error names the first record whose rank does not. |
| FixtureConverter.RunFromFirstRecords | convert_to_fixture.py:15-39 | After any number of records, every artist (album) fixture written is the entity of the first record carrying its uid. |
| FixtureConverter.ConvertEntities | convert_to_fixture.py:15-39 | Artist and album fixtures are exactly the distinct uids of the records, each once. Each is the entity of the uid's first record: its name and, for an album, its cover image URL. |
| FixtureConverter.ConvertSongs | convert_to_fixture.py:42-56 | There is one song per record, in record order, and each refers to an earlier artist and album. The total is distinct artists plus distinct albums plus records. |
| FixtureConverter.RepeatedArtistAddsOnlySong | convert_to_fixture.py:13-56 | A record whose artist and album were already seen adds only its song. |
| TodoModels.NewTodo | todo/models.py:3-6 | A new todo is not completed and carries its creation time. |
| TodoModels.Toggle | todo/models.py:14-18 | `toggle` negates the flag, returns the new value and saves the instance under its key; other rows are unchanged. |
| TodoModels.ToggleTwice | todo/models.py:14-18 | Toggling twice gives back the instance and its original flag. |
| TodoModels.ToggleTwiceRestoresTable | todo/models.py:14-18 | Toggling a saved todo twice leaves the table as it was. |
| TodoModels.Insert | todo/models.py:9 | Inserting into a newest-first sequence keeps it newest first and adds exactly the new todo. |
| TodoModels.Listing | todo/models.py:9 | The default listing is newest first and a permutation of the table. |
| TodoModels.NewestListedFirst | todo/models.py:9 | A todo created after all others is listed first. |
| StreamingHtml.FirstMethodFrom | roleplay/static/htmx-ext/streaming-html.js:31-38 | The first method whose attribute is non-empty, with its URL, or none exactly when no method attribute is set. |
| StreamingHtml.ExtractHttpMethodAndUrl | roleplay/static/htmx-ext/streaming-html.js:26-41 | The first of get, post, put, delete and patch whose `hx-*` attribute is non-empty, with that URL. Otherwise a GET of the element's action, or of "". |
| StreamingHtml.FirstSetUnique | roleplay/static/htmx-ext/streaming-html.js:31-38 | At most one method is the first set one, so the choice of method is unambiguous. |
| StreamingHtml.GetWinsOverPost | roleplay/static/htmx-ext/streaming-html.js:10 | An element with both `hx-get` and `hx-post` is fetched with GET. |
| StreamingHtml.EmptyAttributeSkipped | roleplay/static/htmx-ext/streaming-html.js:32-33 | An empty `hx-get` does not count; the next set method is used. |
| StreamingHtml.BuildGetUrl | roleplay/static/htmx-ext/streaming-html.js:71-75 | The URL, then "&" if it already has a '?' and "?" otherwise, then the query. |
| StreamingHtml.BuildGetUrlHasQuery | roleplay/static/htmx-ext/streaming-html.js:71-75 | The built URL always has a query part. |
| StreamingHtml.BuildGetUrlRoundTrip | roleplay/static/htmx-ext/streaming-html.js:71-75 | Without a query in the URL, cutting the result at its first '?' gives back the URL and the query. |
| StreamingHtml.BuildGetUrlExtendsQuery | roleplay/static/htmx-ext/streaming-html.js:71-75 | With a query already present, the form data extends it after one '&'. |
| StreamingHtml.RequestUrl | roleplay/static/htmx-ext/streaming-html.js:151-153 | GET extends the URL with the query; other methods use the URL as it is. |
| StreamingHtml.BuildFetchOptions | roleplay/static/htmx-ext/streaming-html.js:50-63 | The options carry the method, the signal and a copy of the default headers. The form data is the body exactly when the method is not GET. |
| StreamingHtml.FormDataSentOnce | roleplay/static/htmx-ext/streaming-html.js:50-75 | The form data travels exactly once: in the query of a GET, in the body otherwise. |
| StreamingHtml.Register | roleplay/static/htmx-ext/streaming-html.js:133-141 | Starting a request aborts the element's previous controller, if any, and registers a fresh one no other element holds. Other elements are untouched. |
| StreamingHtml.RegisterKeepsValid | roleplay/static/htmx-ext/streaming-html.js:133-141 | Registering a request keeps the registry consistent: every active controller was issued and none of them has been aborted. |
| StreamingHtml.Cleanup | roleplay/static/htmx-ext/streaming-html.js:121-125 | `cleanupRequest` removes the element's entry, whichever controller it holds, and nothing else. |
| StreamingHtml.SecondRequestAbortsFirst | roleplay/static/htmx-ext/streaming-html.js:133-141 | A second request on an element aborts the first one's controller and registers its own. |
| StreamingHtml.StaleCleanupAsWritten | roleplay/static/htmx-ext/streaming-html.js:210-213 | With the cleanup as written, a superseded request's `finally` drops its successor's entry, so a third request no longer aborts the second. |
| StreamingHtml.CleanupOwn | roleplay/static/htmx-ext/streaming-html.js:121-125 | The intended cleanup removes the entry only while it holds the finishing request's controller; every other entry stays. |
| StreamingHtml.StaleCleanupCorrected | roleplay/static/htmx-ext/streaming-html.js:210-213 | With the intended cleanup the superseded request leaves its successor registered, and a third request aborts it. |
| StreamingHtml.StreamChunks | roleplay/static/htmx-ext/streaming-html.js:184-203 | Each chunk is swapped in and followed by a "chunk" event numbered from 0. At the end, "streaming-complete" reports the chunk count if the element asks for it. |
| StreamingHtml.ErrorActions | roleplay/static/htmx-ext/streaming-html.js:104-115 | An error raises "streaming-error" with its message exactly when it is not an abort and the element asks for it. |
| StreamingHtml.StartActions | roleplay/static/htmx-ext/streaming-html.js:163-165 | "streaming-start" is raised exactly when the element asks for it. |
| StreamingHtml.ResponseActions | roleplay/static/htmx-ext/streaming-html.js:168-209 | A thrown error is reported, and a status outside the 200s is reported as "HTTP error! status: n". An ok status with a null body (204, 205) makes `getReader()` throw a TypeError, which is reported. Any other ok response streams its chunks. |
| StreamingHtml.OkWithoutBody | roleplay/static/htmx-ext/streaming-html.js:171-176 | The ok statuses with a null body, whose `getReader()` throws, are exactly 204 and 205. |
| StreamingHtml.StartStreaming | roleplay/static/htmx-ext/streaming-html.js:132-214 | A previous request on the element is aborted. An element that is not a form makes `new FormData` throw: nothing is sent, no start event fires, and only the TypeError is reported. A form's request uses the extracted method, URL and options with the fresh signal. The start event comes first, then either the chunks or the error report; a failed or body-less response swaps nothing. The `finally` cleanup as written then leaves the element with no entry. |
| StreamingHtml.ExtensionListNotHandled | roleplay/static/htmx-ext/streaming-html.js:230 | An element whose `hx-ext` lists several extensions is not streamed, since the attribute must equal the name exactly. |
| Text.Strip | prompts/validators.py:67 | `strip()` leaves no surrounding whitespace and never lengthens. |
| Text.StripEmptyIffAllSpace | prompts/models.py:66 | A piece strips to "" exactly when it is all whitespace. |
| Text.StripKeepsInner | prompts/validators.py:67 | Every character of the stripped text occurs in the original. |
| Text.StripSkipsLeadingSpace | prompts/models.py:66 | Leading whitespace does not change the result of `strip()`. |
| Text.StripOfStripped | prompts/forms.py:82 | A text without surrounding whitespace is its own `strip()`. |
| Text.Split | prompts/forms.py:82 | `split(",")` gives at least one piece, and no piece holds the separator. |
| Text.JoinSplit | prompts/forms.py:82 | Joining the pieces of a split with the separator gives back the text. |
| Text.SplitJoin | prompts/forms.py:63 | Splitting separator-free pieces joined with the separator gives back the pieces. |
| Text.SplitWithoutSep | prompts/forms.py:82 | A text without the separator splits into itself alone. |
| Text.SplitAtFirstSep | prompts/forms.py:82 | Splitting at the first separator gives the part before it, then the pieces of the rest. |
| Text.CutAt | roleplay/static/htmx-ext/streaming-html.js:73 | The text before and after the first occurrence of a character, or none exactly when it does not occur. |
| Decimal.ParseIntToString | roleplay/core.py:35 | The decimal rendering of an integer parses back to it. |
| Decimal.ParseNatToString | roleplay/core.py:35 | The decimal rendering of a natural number parses back to it. |
| Decimal.PyIntOfIntToString | convert_to_fixture.py:47 | `int()` reads back the decimal rendering of any integer. |
| Decimal.PyIntNeedsDigit | convert_to_fixture.py:47 | `int()` accepts a text only if it holds a digit. |

## Left out

- Verbose printing in `send` (roleplay/core.py:203-227): console output only.
- The OpenAI client and the network: the completion API is a function argument, and the structured-output parsing is folded into its reply.
- Reading `OPENAI_API_KEY` from the environment: the environment value is an argument.
- `ChatResponse.to_dict` and `ChatResponse.__str__`: pydantic serialisation and a field read.
- `BaseChatHistoryStore`: an abstract interface, modelled as the two-case `HistoryStore`.
- `ChatMessage.token_count`, which `add_message` sets before saving: it is not a declared field, so saving stores nothing for it.
- The JSON file reading and writing of convert_to_fixture.py: the records are given as values and the fixtures returned.
- FixtureConverter.ConvertFailsOnBadRank: a record missing a key the loop reads with `[]` is not representable, because `Record` holds those keys as plain fields. In the program such a record raises KeyError and nothing is written (convert_to_fixture.py:15-53). `artist_uid`, `album_uid`, `곡일련번호`, `순위`, `곡명` and `발매일` are read for every record. `artist_name` is read only for an artist seen for the first time, and `album_name` and `커버이미지_주소` only for a new album. So the "succeeds exactly when every rank reads" statement covers only records with all these keys.
- FixtureConverter.RunFailsOnBadRank: the same restriction to records carrying every `[]`-read key; a missing key's KeyError is not modelled.
- FixtureConverter.RankOf: JSON `NaN` and infinities are not modelled; for text it states only that a digit is needed, not Python's full `int()` grammar (no `_` separators or non-ASCII digits).
- `Prompt.search`: a case-insensitive database query over title, content and the JSON text of the tags, which has no faithful model without Unicode case folding.
- The `except Exception` and `ValidationError` branches of `validate_single_field`: the form's own validation, `clean_<field>` included, is a function argument that returns the first error message.
- The crispy-forms `FormHelper` settings of `PromptForm.__init__`: presentation only.
- `processChunk`'s response transforms by other extensions and the DOM swap itself: a swap is recorded as an action on the decoded chunk.
- `TextDecoder` and `URLSearchParams`: a response is given as its decoded chunks, and the form data as its encoded query.
- A body read that fails part-way through a streamed response: the model covers a fetch that throws, a non-ok status, and a body that is read to its end.
- `NOT_A_FORM_MESSAGE` and `NULL_BODY_MESSAGE`: the texts of the two TypeErrors are Chromium's; other browsers word them differently, and the model keeps one wording.
- `console.error` and `htmx.trigger`'s event payload beyond the fields modelled: logging and DOM events.
- `BaseHTMXModelForm` and `BaseHTMXForm`: empty subclasses of the mixin.
- Django's `unique=True` on the title: enforced by the database. The error lists are the model fields' own; the form fields' checks are not modelled.
- TitleErrors: the two maximum-length errors share one constructor, so their different messages are not told apart; a null title or content is not representable, since both are texts.
- Float tags: the JSON values of the tags field have no float case, so the type name "float" that `validate_tags_list` reports for a float tag (prompts/validators.py:60-63) is not modelled; integers, booleans, null, lists and dicts are.
- Equal or decreasing `created_at` values: the database clock strictly increases, so `order_by("created_at")` equals insertion order. Two messages stored in the same clock tick, or a wall clock stepping back, could reorder `get_messages`; that is not modelled.
- PromptForms.EditInitial: the instance's tags are taken to be a list of strings; a JSON value of another shape would be joined and shown by Python differently.
- PromptForms.PyRepr: only backslashes, the chosen quote, newlines, carriage returns and tabs are escaped; other non-printable characters, which Python writes as `\x`, `\u` or `\U` escapes, are kept as they are.

## Findings

| source | as written | input that shows it | evidently intended | confidence | as-written member | corrected member |
|---|---|---|---|---|---|---|
| roleplay/django_stores.py:76-78 | `self.session.total_tokens += total_tokens` on a `ChatSession`, whose model declares no `total_tokens` field | any message with usage, e.g. the assistant reply `send` stores after a call that reported usage | the message row is stored and the session's running token total grows by the usage total | not executed | DjangoStores.AddMessageWithUsageFails | DjangoStores.AddMessageEffect |
| prompts/forms.py:60-63 | `__init__` sets `self.fields["tags"].initial`, but a ModelForm built from an instance has already put the instance's tags list into `form.initial`, which the bound field reads first, so the text box shows `str(list)` | edit a prompt tagged ["python"]: the box shows "['python']", and saving it unchanged stores the tag "['python']"; a prompt with no tags shows "[]" and gains the tag "[]" | the box shows the tags joined with ", ", and an unchanged save keeps them | not executed | PromptForms.EditResubmitAsWritten | PromptForms.EditResubmitKeepsTags |
| roleplay/static/htmx-ext/streaming-html.js:210-213 | the `finally` of a request calls `cleanupRequest(element)`, which deletes the element's entry whatever controller it holds | start request A on an element, then request B on the same element (A is aborted), then let A's `finally` run: B's entry is removed, and a third request C no longer aborts B | a finishing request removes the entry only if it still holds its own controller | not executed | StreamingHtml.StaleCleanupAsWritten | StreamingHtml.CleanupOwn |

=== FILE: chat_core.dfy ===
/**
 * The framework-independent value types of the roleplay chat core
 * (roleplay/core.py): token usage, difficulty, the two chat configurations
 * and the system prompt they build, messages, responses, and the in-memory
 * history store.
 */
module ChatCore {
  import opened Wrappers
  import opened Text
  import Decimal

  // ---------------------------------------------------------------- usage

  /** Token counts reported by the completion API for one call. */
  datatype UsageInfo = UsageInfo(inputTokens: int, outputTokens: int) {
    /** The `total_tokens` property. */
    function TotalTokens(): int {
      inputTokens + outputTokens
    }
  }

  const INPUT_LABEL := "Input: "
  const OUTPUT_LABEL := ", Output: "
  const TOTAL_LABEL := ", Total: "

  /** `str(usage)`: "Input: n, Output: m, Total: n+m". */
  function UsageText(u: UsageInfo): string {
    INPUT_LABEL + Decimal.IntToString(u.inputTokens)
    + OUTPUT_LABEL + Decimal.IntToString(u.outputTokens)
    + TOTAL_LABEL + Decimal.IntToString(u.TotalTokens())
  }

  /**
   * Reads `prefix` then a field that runs up to the next comma (or to the end);
   * returns the field and what follows it, comma included.
   */
  function ReadField(s: string, prefix: string): Option<(string, string)> {
    if !StartsWith(s, prefix) then None
    else
      match CutAt(s[|prefix|..], ',')
      case None => Some((s[|prefix|..], ""))
      case Some((field, rest)) => Some((field, [','] + rest))
  }

  /** Reads the three numbers back out of a usage text. */
  function ParseUsageText(s: string): Option<(int, int, int)> {
    match ReadField(s, INPUT_LABEL)
    case None => None
    case Some((first, rest1)) =>
      match ReadField(rest1, OUTPUT_LABEL)
      case None => None
      case Some((second, rest2)) =>
        match ReadField(rest2, TOTAL_LABEL)
        case None => None
        case Some((third, rest3)) =>
          if rest3 != "" then None
          else
            match (Decimal.ParseInt(first), Decimal.ParseInt(second), Decimal.ParseInt(third))
            case (Some(n), Some(m), Some(t)) => Some((n, m, t))
            case _ => None
  }

  lemma NoCommaInNumber(i: int)
    ensures ',' !in Decimal.IntToString(i)
  {
  }

  lemma ReadFieldOf(prefix: string, x: string, rest: string)
    requires ',' !in x
    requires rest == "" || rest[0] == ','
    ensures ReadField(prefix + x + rest, prefix) == Some((x, rest))
  {
    var s := prefix + x + rest;
    assert s[..|prefix|] == prefix;
    assert s[|prefix|..] == x + rest;
    if rest != "" {
      CutAtFirst(x, ',', rest[1..]);
      assert x + rest == x + [','] + rest[1..];
      assert [','] + rest[1..] == rest;
    } else {
      assert x + rest == x;
    }
  }

  /**
   * The usage text names the input count, the output count and, as the
   * total, exactly their sum: reading it back recovers all three.
   */
  lemma UsageTextRoundTrip(u: UsageInfo)
    ensures ParseUsageText(UsageText(u)) == Some((u.inputTokens, u.outputTokens, u.inputTokens + u.outputTokens))
  {
    var a := Decimal.IntToString(u.inputTokens);
    var b := Decimal.IntToString(u.outputTokens);
    var c := Decimal.IntToString(u.inputTokens + u.outputTokens);
    NoCommaInNumber(u.inputTokens);
    NoCommaInNumber(u.outputTokens);
    NoCommaInNumber(u.inputTokens + u.outputTokens);
    ParseUsageFields(a, b, c);
    Decimal.ParseIntToString(u.inputTokens);
    Decimal.ParseIntToString(u.outputTokens);
    Decimal.ParseIntToString(u.inputTokens + u.outputTokens);
  }

  /** The three labelled fields of a usage text are read back as they were written. */
  lemma ParseUsageFields(a: string, b: string, c: string)
    requires ',' !in a && ',' !in b && ',' !in c
    ensures var s := INPUT_LABEL + a + OUTPUT_LABEL + b + TOTAL_LABEL + c;
      ParseUsageText(s) ==
        match (Decimal.ParseInt(a), Decimal.ParseInt(b), Decimal.ParseInt(c))
        case (Some(n), Some(m), Some(t)) => Some((n, m, t))
        case _ => None
  {
    var tail2 := TOTAL_LABEL + c;
    var tail1 := OUTPUT_LABEL + b + tail2;
    assert INPUT_LABEL + a + OUTPUT_LABEL + b + TOTAL_LABEL + c == INPUT_LABEL + a + tail1;
    ReadFieldOf(INPUT_LABEL, a, tail1);
    ReadFieldOf(OUTPUT_LABEL, b, tail2);
    ReadFieldOf(TOTAL_LABEL, c, "");
    assert TOTAL_LABEL + c + "" == tail2;
  }

  // ----------------------------------------------------------- difficulty

  /** The `Difficulty` enum. */
  datatype Difficulty = Beginner | Intermediate | Advanced

  /**
   * What a roleplay configuration holds as its difficulty. The dataclass does
   * not check the field's type, so a value that is not a `Difficulty` member
   * (a plain string, say) can be stored and reaches the phrase lookup.
   */
  datatype DifficultyValue = Level(level: Difficulty) | Unrecognised(raw: string)

  /** `difficulty_description`: the phrase for the level, "a beginner" for anything else. */
  function DifficultyDescription(v: DifficultyValue): (r: string)
    ensures r == "an intermediate learner" <==> v == Level(Intermediate)
    ensures r == "an advanced learner" <==> v == Level(Advanced)
    ensures r == "a beginner" <==> v != Level(Intermediate) && v != Level(Advanced)
  {
    match v
    case Level(Beginner) => "a beginner"
    case Level(Intermediate) => "an intermediate learner"
    case Level(Advanced) => "an advanced learner"
    case Unrecognised(_) => "a beginner"
  }

  // -------------------------------------------------------- configuration

  /** The two frozen configuration classes. */
  datatype ChatConfig =
    | SimpleChatConfig(instruction: string)
    | RolePlayChatConfig(language: string, userRole: string, gptRole: string,
                         difficulty: DifficultyValue, roleTemplate: string)

  /** The placeholders of the roleplay prompt template. */
  datatype Slot = LanguageSlot | DifficultySlot | UserRoleSlot | GptRoleSlot | RoleTemplateSlot

  /** A format string: literal text and named placeholders. */
  datatype Piece = Lit(text: string) | Hole(slot: Slot)

  /** `RolePlayChatConfig.SYSTEM_PROMPT_TEMPLATE`, cut at its placeholders. */
  const SYSTEM_PROMPT_TEMPLATE: seq<Piece> := [
    Lit("You are a helpful assistant supporting people learning **"), Hole(LanguageSlot),
    Lit("**. \nPlease assume that the user you are assisting is **"), Hole(DifficultySlot),
    Lit("** in "), Hole(LanguageSlot),
    Lit(".\n\nUser context: **"), Hole(UserRoleSlot),
    Lit("**\nAssistant role: **"), Hole(GptRoleSlot),
    Lit("**\n\n"), Hole(RoleTemplateSlot),
    Lit("\n\nIMPORTANT INSTRUCTIONS:\n"
        + "1. Always respond according to the context and role\n"
        + "2. Keep your responses natural and conversational\n"
        + "3. Use appropriate level of language complexity based on the user's proficiency\n"
        + "4. Additionally provide 3-5 similar or follow-up phrases that the user could use to continue the conversation")
  ]

  /** The text a roleplay configuration substitutes for a placeholder. */
  function SlotValue(c: ChatConfig, s: Slot): string
    requires c.RolePlayChatConfig?
  {
    match s
    case LanguageSlot => c.language
    case DifficultySlot => DifficultyDescription(c.difficulty)
    case UserRoleSlot => c.userRole
    case GptRoleSlot => c.gptRole
    case RoleTemplateSlot => c.roleTemplate
  }

  /** The text one piece of the template contributes. */
  function PieceText(p: Piece, c: ChatConfig): string
    requires c.RolePlayChatConfig?
  {
    match p
    case Lit(text) => text
    case Hole(s) => SlotValue(c, s)
  }

  /** `template.format(...)`: every placeholder replaced by its value. */
  function Format(t: seq<Piece>, c: ChatConfig): string
    requires c.RolePlayChatConfig?
    decreases |t|
  {
    if |t| == 0 then "" else PieceText(t[0], c) + Format(t[1..], c)
  }

  /** Every placeholder's value occurs verbatim in the formatted text. */
  lemma {:induction false} FormatContainsSlot(t: seq<Piece>, c: ChatConfig, s: Slot)
    requires c.RolePlayChatConfig?
    requires Hole(s) in t
    ensures Contains(Format(t, c), SlotValue(c, s))
    decreases |t|
  {
    if t[0] == Hole(s) {
      ContainsPrefix(SlotValue(c, s), Format(t[1..], c));
    } else {
      assert Hole(s) in t[1..];
      FormatContainsSlot(t[1..], c, s);
      ContainsAfter(PieceText(t[0], c), Format(t[1..], c), SlotValue(c, s));
    }
  }

  /** `build_system_prompt()`. */
  function BuildSystemPrompt(c: ChatConfig): string {
    match c
    case SimpleChatConfig(instruction) => instruction
    case RolePlayChatConfig(_, _, _, _, _) => Format(SYSTEM_PROMPT_TEMPLATE, c)
  }

  /**
   * A roleplay prompt quotes the language, both roles, the role template and
   * the difficulty phrase verbatim; a simple prompt is the instruction itself.
   */
  lemma SystemPromptQuotesConfig(c: ChatConfig)
    ensures c.SimpleChatConfig? ==> BuildSystemPrompt(c) == c.instruction
    ensures c.RolePlayChatConfig? ==>
      && Contains(BuildSystemPrompt(c), c.language)
      && Contains(BuildSystemPrompt(c), c.userRole)
      && Contains(BuildSystemPrompt(c), c.gptRole)
      && Contains(BuildSystemPrompt(c), c.roleTemplate)
      && Contains(BuildSystemPrompt(c), DifficultyDescription(c.difficulty))
  {
    if c.RolePlayChatConfig? {
      var t := SYSTEM_PROMPT_TEMPLATE;
      assert t[1] == Hole(LanguageSlot) && t[3] == Hole(DifficultySlot) && t[7] == Hole(UserRoleSlot);
      assert t[9] == Hole(GptRoleSlot) && t[11] == Hole(RoleTemplateSlot);
      FormatContainsSlot(t, c, LanguageSlot);
      FormatContainsSlot(t, c, DifficultySlot);
      FormatContainsSlot(t, c, UserRoleSlot);
      FormatContainsSlot(t, c, GptRoleSlot);
      FormatContainsSlot(t, c, RoleTemplateSlot);
    }
  }

  /** A roleplay prompt opens with the fixed sentence, so it is never empty. */
  lemma RolePlayPromptOpening(c: ChatConfig)
    requires c.RolePlayChatConfig?
    ensures StartsWith(BuildSystemPrompt(c), "You are a helpful assistant supporting people learning **" + c.language)
    ensures |BuildSystemPrompt(c)| > 0
  {
    var t := SYSTEM_PROMPT_TEMPLATE;
    assert Format(t, c) == t[0].text + (c.language + Format(t[2..], c)) by {
      assert t[1..][1..] == t[2..];
    }
  }

  // ------------------------------------------------------------- messages

  /** The three message roles (`Literal["user", "assistant", "system"]`). */
  datatype Role = User | Assistant | System

  function RoleName(r: Role): string {
    match r
    case User => "user"
    case Assistant => "assistant"
    case System => "system"
  }

  /** A conversation message; `createdAt` is the clock reading at creation. */
  datatype Message = Message(role: Role, content: string, createdAt: int, usage: Option<UsageInfo>)

  /** The structured reply of one `send`. */
  datatype ChatResponse = ChatResponse(text: string, suggestedPhrases: seq<string>, usage: Option<UsageInfo>)

  /** The last `min(k, |xs|)` elements of `xs`, in their order. */
  function Last<T>(xs: seq<T>, k: nat): (r: seq<T>)
    ensures |r| == if k < |xs| then k else |xs|
    ensures r == xs[|xs| - |r|..]
  {
    if k < |xs| then xs[|xs| - k..] else xs
  }

  // ------------------------------------------------------ in-memory store

  /** `InMemoryStore`: the messages in insertion order. */
  datatype InMemoryStore = InMemoryStore(messages: seq<Message>)

  function NewInMemoryStore(): (s: InMemoryStore)
    ensures |s.messages| == 0
  {
    InMemoryStore([])
  }

  /** `add_message`. */
  function MemoryAdd(s: InMemoryStore, m: Message): InMemoryStore {
    InMemoryStore(s.messages + [m])
  }

  /**
   * Where Python's slice `xs[start:]` begins for a list of length `n`:
   * a negative start counts from the end and is clamped at 0, a start past
   * the end is clamped at `n`.
   */
  function SliceStart(n: nat, start: int): (k: nat)
    ensures k <= n
  {
    if start < 0 then (if start + n < 0 then 0 else start + n)
    else if start > n then n
    else start
  }

  /** `get_messages(limit)`: `messages[-limit:]`, or every message when `limit` is `None`. */
  function MemoryGet(s: InMemoryStore, limit: Option<int>): (r: seq<Message>)
    ensures |r| <= |s.messages|
    ensures r == s.messages[|s.messages| - |r|..]
    ensures limit.None? ==> r == s.messages
    ensures limit.Some? && limit.value >= 1 ==> r == Last(s.messages, limit.value)
    ensures limit == Some(0) ==> r == s.messages
    ensures limit.Some? && limit.value < 0 ==>
      |r| == if -limit.value < |s.messages| then |s.messages| + limit.value else 0
  {
    match limit
    case None => s.messages
    case Some(k) => s.messages[SliceStart(|s.messages|, -k)..]
  }

  /** `clear_history`. */
  function MemoryClear(s: InMemoryStore): (r: InMemoryStore)
    ensures MemoryGet(r, None) == []
  {
    InMemoryStore([])
  }

  /** Adding messages one by one appends them, in order. */
  lemma {:induction false} AddAllAppends(s: InMemoryStore, ms: seq<Message>)
    ensures AddAll(s, ms).messages == s.messages + ms
    decreases |ms|
  {
    if |ms| > 0 {
      var init := ms[..|ms| - 1];
      AddAllAppends(s, init);
      assert ms == init + [ms[|ms| - 1]];
    }
  }

  /** Messages come back from the store in the order they were added. */
  lemma MemoryKeepsInsertionOrder(s: InMemoryStore, ms: seq<Message>)
    ensures MemoryGet(AddAll(s, ms), None) == s.messages + ms
  {
    AddAllAppends(s, ms);
  }

  /** Adds the messages one after the other. */
  function AddAll(s: InMemoryStore, ms: seq<Message>): InMemoryStore
    decreases |ms|
  {
    if |ms| == 0 then s else MemoryAdd(AddAll(s, ms[..|ms| - 1]), ms[|ms| - 1])
  }
}

=== FILE: chat_service.dfy ===
/**
 * `ChatService` (roleplay/core.py): one `send` call records the user turn,
 * assembles the message list for the completion API, calls the API, and
 * records the assistant turn. The API is an oracle passed to `Send`; the
 * history store is either the in-memory store or the database-backed one.
 */
module Service {
  import opened Wrappers
  import opened ChatCore
  import opened RoleplayModels
  import opened DjangoStores

  // ------------------------------------------------------- history stores

  /** The two `BaseChatHistoryStore` implementations. */
  datatype HistoryStore =
    | Memory(mem: InMemoryStore)
    | Database(store: DjangoChatHistoryStore, db: Db)

  /** A store after an operation, and what the operation returned or raised. */
  datatype StoreStep<T> = StoreStep(history: HistoryStore, result: Result<T, StoreError>)

  /** The invariant a store keeps: the database one needs a coherent database. */
  ghost predicate StoreValid(h: HistoryStore) {
    h.Memory? || Coherent(h.store, h.db)
  }

  /** A store whose session, if it has one, is already obtained. */
  predicate Resolved(h: HistoryStore) {
    h.Memory? || h.store.cached.Some?
  }

  /**
   * Which `add_message` the database store runs: the program's, which
   * inserts the row of a message carrying usage and then raises because
   * `ChatSession` has no `total_tokens`, or the intended one, which raises
   * the session's token total instead.
   */
  datatype AddVariant = AsWritten | Intended

  function DatabaseAdd(v: AddVariant, store: DjangoChatHistoryStore, db: Db, m: Message): Step<()> {
    match v
    case AsWritten => AddMessageAsWritten(store, db, m)
    case Intended => AddMessage(store, db, m)
  }

  function StoreAdd(v: AddVariant, h: HistoryStore, m: Message): StoreStep<()> {
    match h
    case Memory(mem) => StoreStep(Memory(MemoryAdd(mem, m)), Ok(()))
    case Database(store, db) =>
      var r := DatabaseAdd(v, store, db, m);
      StoreStep(Database(r.store, r.db), r.result)
  }

  function StoreGet(h: HistoryStore, limit: Option<int>): StoreStep<seq<Message>> {
    match h
    case Memory(mem) => StoreStep(h, Ok(MemoryGet(mem, limit)))
    case Database(store, db) =>
      var r := GetMessages(store, db, limit);
      StoreStep(Database(r.store, r.db), r.result)
  }

  // ---------------------------------------------------------------- turns

  /** A message as the completion API sees it: role and content. */
  datatype Turn = Turn(role: Role, content: string)

  function Turns(ms: seq<Message>): (r: seq<Turn>)
    ensures |r| == |ms|
  {
    seq(|ms|, i requires 0 <= i < |ms| => Turn(ms[i].role, ms[i].content))
  }

  /** The turns of stored rows: those of the messages `get_messages` makes of them. */
  function RowTurns(rows: seq<ChatMessageRow>): (r: seq<Turn>)
    ensures |r| == |rows|
    ensures forall i :: 0 <= i < |rows| ==> r[i] == Turn(rows[i].role, rows[i].content)
  {
    Turns(RowsToMessages(rows))
  }

  /**
   * The conversation a store holds, as turns: the in-memory list, or the rows
   * of the session the database store resolves to (empty when it cannot
   * resolve one, or when it would create a new one).
   */
  ghost function Log(h: HistoryStore): seq<Turn> {
    match h
    case Memory(mem) => Turns(mem.messages)
    case Database(store, db) =>
      var a := Session(store, db);
      match a.result
      case Ok(pk) => RowTurns(SessionRows(a.db.messages, pk))
      case Err(_) => []
  }

  lemma TurnsOfLast(ms: seq<Message>, k: nat)
    ensures Turns(Last(ms, k)) == Last(Turns(ms), k)
  {
  }

  lemma RowTurnsOfLast(rows: seq<ChatMessageRow>, k: nat)
    ensures RowTurns(Last(rows, k)) == Last(RowTurns(rows), k)
  {
  }

  /**
   * Adding a message to a store extends its conversation by exactly that
   * turn and leaves the store resolved, unless the session cannot be
   * obtained, in which case nothing changes. As written, the database store
   * then fails for a message carrying usage, after storing it.
   */
  lemma StoreAddAppends(v: AddVariant, h: HistoryStore, m: Message)
    requires StoreValid(h)
    ensures var r := StoreAdd(v, h, m);
      r.result.Ok? || r.result == Err(MissingTotalTokens) ==>
        StoreValid(r.history) && Resolved(r.history) && Log(r.history) == Log(h) + [Turn(m.role, m.content)]
    ensures var r := StoreAdd(v, h, m);
      r.result == Err(MissingTotalTokens) <==>
        v.AsWritten? && h.Database? && m.usage.Some? && Session(h.store, h.db).result.Ok?
    ensures var r := StoreAdd(v, h, m);
      r.result.Err? && r.result != Err(MissingTotalTokens) ==> r.history == h && h.Database?
  {
    match h
    case Memory(mem) =>
      TurnsAppend(mem.messages, m);
    case Database(store, db) =>
      if Session(store, db).result.Ok? {
        DatabaseAddAppends(v, store, db, m);
      }
  }

  lemma TurnsAppend(ms: seq<Message>, m: Message)
    ensures Turns(ms + [m]) == Turns(ms) + [Turn(m.role, m.content)]
  {
  }

  lemma RowTurnsAppend(rows: seq<ChatMessageRow>, x: ChatMessageRow)
    ensures RowTurns(rows + [x]) == RowTurns(rows) + [Turn(x.role, x.content)]
  {
  }

  /**
   * The database case of `StoreAddAppends`: once the session is obtained,
   * either variant stores the row; only the as-written one then fails, and
   * only for a message carrying usage.
   */
  lemma DatabaseAddAppends(v: AddVariant, store: DjangoChatHistoryStore, db: Db, m: Message)
    requires Coherent(store, db)
    requires Session(store, db).result.Ok?
    ensures var ad := DatabaseAdd(v, store, db, m);
      && Coherent(ad.store, ad.db)
      && ad.store.cached.Some?
      && Log(Database(ad.store, ad.db)) == Log(Database(store, db)) + [Turn(m.role, m.content)]
      && (ad.result.Ok? <==> v.Intended? || m.usage.None?)
      && (ad.result.Err? ==> ad.result.error == MissingTotalTokens)
  {
    var ad := DatabaseAdd(v, store, db, m);
    assert && Coherent(ad.store, ad.db)
           && ad.store.cached.Some?
           && (ad.result.Ok? <==> v.Intended? || m.usage.None?)
           && (ad.result.Err? ==> ad.result.error == MissingTotalTokens) by {
      if v.Intended? {
        AddMessageEffect(store, db, m);
      } else {
        AddMessageAsWrittenEffect(store, db, m);
      }
    }
    DatabaseAddLog(v, store, db, m);
  }

  /** Either variant stores the row before it can fail, so the conversation grows by the message's turn. */
  lemma DatabaseAddLog(v: AddVariant, store: DjangoChatHistoryStore, db: Db, m: Message)
    requires Coherent(store, db)
    requires Session(store, db).result.Ok?
    ensures var ad := DatabaseAdd(v, store, db, m);
      Log(Database(ad.store, ad.db)) == Log(Database(store, db)) + [Turn(m.role, m.content)]
  {
    var ad := DatabaseAdd(v, store, db, m);
    var a := Session(store, db);
    var pk := a.result.value;
    var rows := SessionRows(a.db.messages, pk);
    var row := ad.db.messages[|a.db.messages|];
    assert Log(Database(store, db)) == RowTurns(rows);
    assert ad.store == a.store && SessionRows(ad.db.messages, pk) == rows + [row] && row.role == m.role && row.content == m.content by {
      if v.Intended? {
        AddMessageEffect(store, db, m);
      } else {
        AddMessageAsWrittenEffect(store, db, m);
      }
    }
    assert Log(Database(ad.store, ad.db)) == RowTurns(rows + [row]) by {
      SessionAccess(store, db);
      assert Session(ad.store, ad.db) == Step(ad.store, ad.db, Ok(pk));
    }
    RowTurnsAppend(rows, row);
  }

  /**
   * Reading the last `k >= 1` messages of a resolved store never fails,
   * changes nothing, and yields the last `k` turns of its conversation.
   */
  lemma StoreGetRecent(h: HistoryStore, k: int)
    requires StoreValid(h) && Resolved(h)
    requires k >= 1
    ensures var r := StoreGet(h, Some(k));
      && r.result.Ok?
      && r.history == h
      && Turns(r.result.value) == Last(Log(h), k)
  {
    match h
    case Memory(mem) =>
      TurnsOfLast(mem.messages, k);
    case Database(store, db) =>
      SessionAccess(store, db);
      GetMessagesWindow(store, db, Some(k));
      var pk := store.cached.value;
      var rows := SessionRows(db.messages, pk);
      assert RowTurns(Last(rows, k)) == Turns(RowsToMessages(Last(rows, k)));
      RowTurnsOfLast(rows, k);
  }

  /**
   * The two stores agree on "the last `limit` messages" for `None` and for
   * `limit >= 1`, and disagree for `limit = 0`: the in-memory slice
   * `[-0:]` is the whole list, the database window `[n - 0:]` is empty.
   */
  lemma StoreWindowsDiverge(xs: seq<Message>, limit: Option<int>)
    ensures limit.None? || limit.value >= 1 ==> MemoryGet(InMemoryStore(xs), limit) == Window(xs, limit)
    ensures limit == Some(0) ==> MemoryGet(InMemoryStore(xs), limit) == xs && Window(xs, limit) == []
  {
  }

  // --------------------------------------------------------- chat service

  /** `ChatService`: its settings and the system prompt built once at construction. */
  datatype ChatService = ChatService(
    config: ChatConfig,
    history: Option<HistoryStore>,
    apiKey: Option<string>,
    model: string,
    temperature: real,
    maxTokens: int,
    verbose: bool,
    systemPrompt: string)

  /**
   * `ChatService(...)`: the API key falls back to the `OPENAI_API_KEY`
   * environment value when none is given, and the system prompt is built
   * from the configuration here, once.
   */
  function NewChatService(
    config: ChatConfig, history: Option<HistoryStore>, apiKey: Option<string>,
    environmentKey: Option<string>, model: string, temperature: real, maxTokens: int,
    verbose: bool): (svc: ChatService)
    ensures svc.systemPrompt == BuildSystemPrompt(config)
    ensures svc.apiKey == if apiKey.Some? then apiKey else environmentKey
    ensures svc.history == history && svc.config == config
    ensures svc.model == model && svc.temperature == temperature && svc.maxTokens == maxTokens
  {
    ChatService(config, history, if apiKey.Some? then apiKey else environmentKey,
                model, temperature, maxTokens, verbose, BuildSystemPrompt(config))
  }

  /** The constructor's defaults: model "gpt-4o", temperature 1.0, 1000 tokens, quiet. */
  function DefaultChatService(config: ChatConfig, history: Option<HistoryStore>, environmentKey: Option<string>): (svc: ChatService)
    ensures svc.model == "gpt-4o" && svc.temperature == 1.0 && svc.maxTokens == 1000 && !svc.verbose
    ensures svc.systemPrompt == BuildSystemPrompt(config)
  {
    NewChatService(config, history, None, environmentKey, "gpt-4o", 1.0, 1000, false)
  }

  /** What the service sends to the completion API. */
  datatype ApiRequest = ApiRequest(messages: seq<Turn>, model: string, temperature: real, maxTokens: int)

  /** What the completion API returns: the parsed reply and optional usage, or a failure. */
  datatype ApiReply =
    | Completed(text: string, phrases: seq<string>, usage: Option<(int, int)>)
    | ApiFailed(reason: string)

  datatype ChatError = HistoryFailed(error: StoreError) | ApiFailure(reason: string)

  /** The service afterwards, the request made (if any), and the response or error. */
  datatype SendResult = SendResult(service: ChatService, request: Option<ApiRequest>, outcome: Result<ChatResponse, ChatError>)

  /** The leading system message: present exactly when the prompt is non-empty. */
  function SystemPart(prompt: string): seq<Turn> {
    if prompt != "" then [Turn(System, prompt)] else []
  }

  const CONTEXT_WINDOW := 10

  /** The usage attached to the response, from the counts the API reported. */
  function UsageOf(reported: Option<(int, int)>): (u: Option<UsageInfo>)
    ensures u.Some? <==> reported.Some?
    ensures u.Some? ==> u.value.inputTokens == reported.value.0 && u.value.outputTokens == reported.value.1
  {
    match reported
    case Some((i, o)) => Some(UsageInfo(i, o))
    case None => None
  }

  /** Calls the API with `request` and, with a store, records the assistant turn. */
  function Complete(v: AddVariant, svc: ChatService, h: Option<HistoryStore>, request: ApiRequest,
                    reply: ApiReply, replyAt: int): (r: SendResult)
    ensures r.service == svc.(history := r.service.history)
    ensures r.service.history.None? <==> h.None?
    ensures h.None? ==> r.service == svc.(history := None)
    ensures r.request == Some(request)
    ensures reply.ApiFailed? ==> r.outcome == Err(ApiFailure(reply.reason))
    ensures r.outcome.Ok? ==>
      && reply.Completed?
      && r.outcome.value.text == reply.text
      && r.outcome.value.suggestedPhrases == reply.phrases
      && (r.outcome.value.usage.Some? <==> reply.usage.Some?)
      && (reply.usage.Some? ==>
            r.outcome.value.usage.value.TotalTokens() == reply.usage.value.0 + reply.usage.value.1)
  {
    match reply
    case ApiFailed(reason) => SendResult(svc.(history := h), Some(request), Err(ApiFailure(reason)))
    case Completed(text, phrases, usage) =>
      var response := ChatResponse(text, phrases, UsageOf(usage));
      match h
      case None => SendResult(svc.(history := None), Some(request), Ok(response))
      case Some(store) =>
        var added := StoreAdd(v, store, Message(Assistant, text, replyAt, UsageOf(usage)));
        match added.result
        case Ok(_) => SendResult(svc.(history := Some(added.history)), Some(request), Ok(response))
        case Err(e) => SendResult(svc.(history := Some(added.history)), Some(request), Err(HistoryFailed(e)))
  }

  /**
   * `send(message)`. `userAt` and `replyAt` are the clock readings that
   * stamp the two messages; `api` answers the request; `v` picks the
   * database store's `add_message`.
   */
  function Send(v: AddVariant, svc: ChatService, message: string, userAt: int, replyAt: int,
                api: ApiRequest -> ApiReply): (r: SendResult)
    ensures r.service == svc.(history := r.service.history)
    ensures r.service.history.None? <==> svc.history.None?
    ensures r.request.Some? ==>
      && r.request.value.model == svc.model
      && r.request.value.temperature == svc.temperature
      && r.request.value.maxTokens == svc.maxTokens
      && |SystemPart(svc.systemPrompt)| <= |r.request.value.messages|
      && r.request.value.messages[..|SystemPart(svc.systemPrompt)|] == SystemPart(svc.systemPrompt)
    ensures svc.history.None? ==>
      && r.service == svc
      && r.request == Some(ApiRequest(SystemPart(svc.systemPrompt) + [Turn(User, message)],
                                      svc.model, svc.temperature, svc.maxTokens))
    ensures r.request.None? ==> r.outcome.Err? && r.outcome.error.HistoryFailed?
    ensures r.request.Some? && api(r.request.value).ApiFailed? ==>
      r.outcome == Err(ApiFailure(api(r.request.value).reason))
    ensures r.outcome.Ok? ==>
      && r.request.Some?
      && var reply := api(r.request.value);
         && reply.Completed?
         && r.outcome.value.text == reply.text
         && r.outcome.value.suggestedPhrases == reply.phrases
         && (r.outcome.value.usage.Some? <==> reply.usage.Some?)
         && (reply.usage.Some? ==>
               r.outcome.value.usage.value.TotalTokens() == reply.usage.value.0 + reply.usage.value.1)
  {
    var system := SystemPart(svc.systemPrompt);
    var user := Message(User, message, userAt, None);
    match svc.history
    case None =>
      var request := ApiRequest(system + [Turn(User, message)], svc.model, svc.temperature, svc.maxTokens);
      assert request.messages[..|system|] == system;
      Complete(v, svc, None, request, api(request), replyAt)
    case Some(h) =>
      var added := StoreAdd(v, h, user);
      match added.result
      case Err(e) => SendResult(svc.(history := Some(added.history)), None, Err(HistoryFailed(e)))
      case Ok(_) =>
        var recent := StoreGet(added.history, Some(CONTEXT_WINDOW));
        match recent.result
        case Err(e) => SendResult(svc.(history := Some(recent.history)), None, Err(HistoryFailed(e)))
        case Ok(ms) =>
          var request := ApiRequest(system + Turns(ms), svc.model, svc.temperature, svc.maxTokens);
          assert request.messages[..|system|] == system;
          Complete(v, svc, Some(recent.history), request, api(request), replyAt)
  }

  /**
   * A completed call records the assistant turn after the stored ones; a
   * failed call records nothing. Recording succeeds except in the program's
   * database store for a reply that reports usage, which fails after the
   * assistant row is stored.
   */
  lemma CompleteRecords(v: AddVariant, svc: ChatService, h: HistoryStore, request: ApiRequest, reply: ApiReply, replyAt: int)
    requires StoreValid(h) && Resolved(h)
    ensures var r := Complete(v, svc, Some(h), request, reply, replyAt);
      && r.service.history.Some?
      && StoreValid(r.service.history.value)
      && r.request == Some(request)
      && (reply.Completed? ==> Log(r.service.history.value) == Log(h) + [Turn(Assistant, reply.text)])
      && (reply.Completed? ==> (r.outcome.Ok? <==> !(v.AsWritten? && h.Database? && reply.usage.Some?)))
      && (reply.Completed? && r.outcome.Err? ==> r.outcome.error == HistoryFailed(MissingTotalTokens))
      && (reply.ApiFailed? ==> r.service.history == Some(h))
  {
    if reply.Completed? {
      var assistant := Message(Assistant, reply.text, replyAt, UsageOf(reply.usage));
      StoreAddAppends(v, h, assistant);
      if h.Database? {
        SessionAccess(h.store, h.db);
      }
    }
  }

  /**
   * With a store, when the user turn is stored, the request carries the
   * system message (for a non-empty prompt) and the last 10 turns of the
   * conversation that now ends with the user turn.
   */
  lemma SendRequest(v: AddVariant, svc: ChatService, message: string, userAt: int, replyAt: int,
                    api: ApiRequest -> ApiReply)
    requires svc.history.Some? && StoreValid(svc.history.value)
    requires StoreAdd(v, svc.history.value, Message(User, message, userAt, None)).result.Ok?
    ensures var h := svc.history.value;
      var added := StoreAdd(v, h, Message(User, message, userAt, None));
      var request := ApiRequest(SystemPart(svc.systemPrompt) + Last(Log(h) + [Turn(User, message)], CONTEXT_WINDOW),
                                svc.model, svc.temperature, svc.maxTokens);
      && StoreValid(added.history) && Resolved(added.history)
      && Log(added.history) == Log(h) + [Turn(User, message)]
      && Send(v, svc, message, userAt, replyAt, api) == Complete(v, svc, Some(added.history), request, api(request), replyAt)
  {
    var h := svc.history.value;
    var added := StoreAdd(v, h, Message(User, message, userAt, None));
    StoreAddAppends(v, h, Message(User, message, userAt, None));
    StoreGetRecent(added.history, CONTEXT_WINDOW);
  }

  /**
   * When storing the user turn fails, the API is not called and nothing
   * changes: the user message carries no usage, so only a session that
   * cannot be obtained stops it.
   */
  lemma SendHistoryFails(v: AddVariant, svc: ChatService, message: string, userAt: int, replyAt: int,
                         api: ApiRequest -> ApiReply)
    requires svc.history.Some? && StoreValid(svc.history.value)
    requires StoreAdd(v, svc.history.value, Message(User, message, userAt, None)).result.Err?
    ensures var r := Send(v, svc, message, userAt, replyAt, api);
      r.request.None? && r.service == svc && r.outcome.Err?
  {
    StoreAddAppends(v, svc.history.value, Message(User, message, userAt, None));
  }

  /**
   * `send` with a store attached, once the user turn is stored. The request
   * is the system message (when the prompt is non-empty) followed by the
   * last 10 stored turns, whose last one is the user turn just stored, so
   * the user message is sent exactly once. A completed call leaves the
   * conversation longer by exactly the user turn and the assistant turn
   * carrying the reply text, and returns the response unless the program's
   * database store fails on the reported usage; a failed call leaves the
   * user turn stored.
   */
  lemma SendWithHistory(v: AddVariant, svc: ChatService, message: string, userAt: int, replyAt: int,
                        api: ApiRequest -> ApiReply)
    requires svc.history.Some? && StoreValid(svc.history.value)
    requires StoreAdd(v, svc.history.value, Message(User, message, userAt, None)).result.Ok?
    ensures var h := svc.history.value;
      var r := Send(v, svc, message, userAt, replyAt, api);
      var user := Turn(User, message);
      var system := SystemPart(svc.systemPrompt);
      && r.request.Some?
      && r.request.value.messages == system + Last(Log(h) + [user], CONTEXT_WINDOW)
      && r.request.value.messages[|r.request.value.messages| - 1] == user
      && |r.request.value.messages| == |system| + (if |Log(h)| + 1 < 10 then |Log(h)| + 1 else 10)
      && StoreValid(r.service.history.value)
      && (api(r.request.value).Completed? ==>
            && Log(r.service.history.value) == Log(h) + [user, Turn(Assistant, api(r.request.value).text)]
            && (r.outcome.Ok? <==> !(v.AsWritten? && h.Database? && api(r.request.value).usage.Some?))
            && (r.outcome.Err? ==> r.outcome.error == HistoryFailed(MissingTotalTokens)))
      && (api(r.request.value).ApiFailed? ==> Log(r.service.history.value) == Log(h) + [user])
  {
    SendRequestShape(v, svc, message, userAt, replyAt, api);
    SendRecordsBothTurns(v, svc, message, userAt, replyAt, api);
  }

  /** The request part of `SendWithHistory`. */
  lemma SendRequestShape(v: AddVariant, svc: ChatService, message: string, userAt: int, replyAt: int,
                         api: ApiRequest -> ApiReply)
    requires svc.history.Some? && StoreValid(svc.history.value)
    requires StoreAdd(v, svc.history.value, Message(User, message, userAt, None)).result.Ok?
    ensures var h := svc.history.value;
      var r := Send(v, svc, message, userAt, replyAt, api);
      var user := Turn(User, message);
      var system := SystemPart(svc.systemPrompt);
      && r.request.Some?
      && r.request.value.messages == system + Last(Log(h) + [user], CONTEXT_WINDOW)
      && r.request.value.messages[|r.request.value.messages| - 1] == user
      && |r.request.value.messages| == |system| + (if |Log(h)| + 1 < 10 then |Log(h)| + 1 else 10)
  {
    var h := svc.history.value;
    var added := StoreAdd(v, h, Message(User, message, userAt, None));
    SendRequest(v, svc, message, userAt, replyAt, api);
    RecentEndsWithUser(SystemPart(svc.systemPrompt), Log(h), Turn(User, message));
  }

  /** The recording part of `SendWithHistory`. */
  lemma SendRecordsBothTurns(v: AddVariant, svc: ChatService, message: string, userAt: int, replyAt: int,
                             api: ApiRequest -> ApiReply)
    requires svc.history.Some? && StoreValid(svc.history.value)
    requires StoreAdd(v, svc.history.value, Message(User, message, userAt, None)).result.Ok?
    ensures var h := svc.history.value;
      var r := Send(v, svc, message, userAt, replyAt, api);
      var user := Turn(User, message);
      && r.request.Some?
      && StoreValid(r.service.history.value)
      && (api(r.request.value).Completed? ==>
            && Log(r.service.history.value) == Log(h) + [user, Turn(Assistant, api(r.request.value).text)]
            && (r.outcome.Ok? <==> !(v.AsWritten? && h.Database? && api(r.request.value).usage.Some?))
            && (r.outcome.Err? ==> r.outcome.error == HistoryFailed(MissingTotalTokens)))
      && (api(r.request.value).ApiFailed? ==> Log(r.service.history.value) == Log(h) + [user])
  {
    var h := svc.history.value;
    var added := StoreAdd(v, h, Message(User, message, userAt, None));
    SendRequest(v, svc, message, userAt, replyAt, api);
    var user := Turn(User, message);
    var request := ApiRequest(SystemPart(svc.systemPrompt) + Last(Log(h) + [user], CONTEXT_WINDOW),
                              svc.model, svc.temperature, svc.maxTokens);
    assert added.history.Database? == h.Database?;
    CompleteRecords(v, svc, added.history, request, api(request), replyAt);
    if api(request).Completed? {
      assert Log(h) + [user] + [Turn(Assistant, api(request).text)] == Log(h) + [user, Turn(Assistant, api(request).text)];
    }
  }

  /** The request's messages end with the user turn and hold at most 10 turns after the system part. */
  lemma RecentEndsWithUser(system: seq<Turn>, log: seq<Turn>, user: Turn)
    ensures var m := system + Last(log + [user], CONTEXT_WINDOW);
      && m[|m| - 1] == user
      && |m| == |system| + (if |log| + 1 < 10 then |log| + 1 else 10)
  {
  }

  /**
   * The counter bug seen from `send`: with the program's database store, a
   * completed reply that reports usage is stored together with the user
   * turn, yet `send` raises instead of returning it; the intended store
   * returns the response from the same state.
   */
  lemma SendLosesReportedReply(svc: ChatService, message: string, userAt: int, replyAt: int,
                               api: ApiRequest -> ApiReply)
    requires svc.history.Some? && svc.history.value.Database? && StoreValid(svc.history.value)
    requires StoreAdd(AsWritten, svc.history.value, Message(User, message, userAt, None)).result.Ok?
    ensures var r := Send(AsWritten, svc, message, userAt, replyAt, api);
      var reply := api(r.request.value);
      reply.Completed? && reply.usage.Some? ==>
        && r.outcome == Err(HistoryFailed(MissingTotalTokens))
        && Log(r.service.history.value) == Log(svc.history.value) + [Turn(User, message), Turn(Assistant, reply.text)]
    ensures var r := Send(Intended, svc, message, userAt, replyAt, api);
      api(r.request.value).Completed? ==> r.outcome.Ok?
  {
    SendWithHistory(AsWritten, svc, message, userAt, replyAt, api);
    SendWithHistory(Intended, svc, message, userAt, replyAt, api);
  }

  /**
   * With the in-memory store, a completed `send` appends exactly two
   * messages, user then assistant; the assistant message carries the reply
   * text and the same usage as the returned response.
   */
  lemma SendInMemory(v: AddVariant, svc: ChatService, message: string, userAt: int, replyAt: int,
                     api: ApiRequest -> ApiReply)
    requires svc.history.Some? && svc.history.value.Memory?
    ensures var before := svc.history.value.mem.messages;
      var r := Send(v, svc, message, userAt, replyAt, api);
      && r.request.Some?
      && (api(r.request.value).Completed? ==>
            && r.outcome.Ok?
            && r.service.history.value == Memory(InMemoryStore(before + [
                 Message(User, message, userAt, None),
                 Message(Assistant, r.outcome.value.text, replyAt, r.outcome.value.usage)])))
      && (api(r.request.value).ApiFailed? ==>
            r.service.history.value == Memory(InMemoryStore(before + [Message(User, message, userAt, None)])))
  {
  }
}

=== FILE: decimal.dfy ===
/**
 * Python's decimal rendering of integers (`str(n)`, f-string `{n}`) and
 * Python's `int(text)` on ASCII decimal text.
 */
module Decimal {
  import opened Wrappers
  import Text

  predicate IsDigit(c: char) {
    '0' <= c <= '9'
  }

  predicate AllDigits(s: string) {
    forall i :: 0 <= i < |s| ==> IsDigit(s[i])
  }

  function DigitChar(d: nat): (c: char)
    requires d < 10
    ensures IsDigit(c)
  {
    ('0' as int + d) as char
  }

  function DigitValue(c: char): (d: nat)
    requires IsDigit(c)
    ensures d < 10
  {
    c as int - '0' as int
  }

  /** `str(n)` for a natural number: decimal digits, no leading zero. */
  function NatToString(n: nat): (r: string)
    ensures |r| >= 1 && AllDigits(r)
    ensures r[0] == '0' ==> n == 0
    decreases n
  {
    if n < 10 then [DigitChar(n)] else NatToString(n / 10) + [DigitChar(n % 10)]
  }

  /** `str(i)` for any integer: a minus sign in front of negative values. */
  function IntToString(i: int): (r: string)
    ensures |r| >= 1
    ensures i < 0 <==> r[0] == '-'
    ensures forall k :: 0 <= k < |r| ==> r[k] == '-' || IsDigit(r[k])
  {
    if i < 0 then "-" + NatToString(-i) else NatToString(i)
  }

  /** The value of a non-empty run of decimal digits, most significant first. */
  function DigitsValue(s: string): nat
    requires |s| >= 1 && AllDigits(s)
    decreases |s|
  {
    if |s| == 1 then DigitValue(s[0])
    else DigitsValue(s[..|s| - 1]) * 10 + DigitValue(s[|s| - 1])
  }

  function ParseNat(s: string): (r: Option<nat>)
    ensures r.Some? <==> |s| >= 1 && AllDigits(s)
  {
    if |s| >= 1 && AllDigits(s) then Some(DigitsValue(s)) else None
  }

  /** Reads back what `IntToString` writes: an optional minus sign, then digits. */
  function ParseInt(s: string): (r: Option<int>)
    ensures r.Some? ==> |s| >= 1
  {
    if |s| >= 1 && s[0] == '-' then
      match ParseNat(s[1..])
      case Some(n) => Some(-(n as int))
      case None => None
    else
      match ParseNat(s)
      case Some(n) => Some(n as int)
      case None => None
  }

  lemma {:induction false} ParseNatToString(n: nat)
    ensures ParseNat(NatToString(n)) == Some(n)
    decreases n
  {
    if n >= 10 {
      ParseNatToString(n / 10);
      var s := NatToString(n);
      assert s[..|s| - 1] == NatToString(n / 10);
      assert DigitValue(DigitChar(n % 10)) == n % 10;
    } else {
      assert DigitValue(DigitChar(n)) == n;
    }
  }

  /** Decimal rendering of an integer reads back as the same integer. */
  lemma ParseIntToString(i: int)
    ensures ParseInt(IntToString(i)) == Some(i)
  {
    var s := IntToString(i);
    if i < 0 {
      ParseNatToString(-i);
      assert s[1..] == NatToString(-i);
    } else {
      ParseNatToString(i);
    }
  }

  /**
   * Python's `int(text)` on a text: surrounding whitespace is ignored, one
   * optional sign, then at least one ASCII digit; anything else is a
   * `ValueError` (`None` here).
   */
  function PyInt(text: string): (r: Option<int>)
    ensures r.Some? ==> |Text.Strip(text)| >= 1 && IsDigit(Text.Strip(text)[|Text.Strip(text)| - 1])
  {
    SignedDigits(Text.Strip(text))
  }

  /** The stripped text read as an optional sign followed by digits. */
  function SignedDigits(t: string): (r: Option<int>)
    ensures r.Some? ==> |t| >= 1 && IsDigit(t[|t| - 1])
  {
    if |t| >= 1 && (t[0] == '+' || t[0] == '-') then
      match ParseNat(t[1..])
      case None => None
      case Some(n) =>
        assert t[1..][|t| - 2] == t[|t| - 1];
        Some(if t[0] == '-' then -(n as int) else n as int)
    else
      match ParseNat(t)
      case None => None
      case Some(n) => Some(n as int)
  }

  /** `int` accepts nothing that holds no digit. */
  lemma PyIntNeedsDigit(text: string)
    ensures PyInt(text).Some? ==> exists k :: 0 <= k < |text| && IsDigit(text[k])
  {
    var t := Text.Strip(text);
    if PyInt(text).Some? {
      Text.StripKeepsInner(text);
      assert t[|t| - 1] in text;
      var k :| 0 <= k < |text| && text[k] == t[|t| - 1];
    }
  }

  /** `int(str(i)) == i`. */
  lemma PyIntOfIntToString(i: int)
    ensures PyInt(IntToString(i)) == Some(i)
  {
    var s := IntToString(i);
    assert !Text.IsSpace(s[0]) && !Text.IsSpace(s[|s| - 1]);
    Text.StripOfStripped(s);
    ParseIntToString(i);
    if i < 0 {
      ParseNatToString(-i);
      assert s[1..] == NatToString(-i);
    } else {
      ParseNatToString(i);
    }
  }
}

=== FILE: django_stores.dfy ===
/**
 * The database-backed history store (roleplay/django_stores.py) over an
 * abstract database of two tables. Every operation returns the store and
 * the database as they are afterwards together with its result, because an
 * exception in the source leaves the writes made before it in place.
 */
module DjangoStores {
  import opened Wrappers
  import opened ChatCore
  import opened RoleplayModels

  // ------------------------------------------------------------ database

  /**
   * The two tables in insertion order, the next auto-increment keys, the
   * clock that fills `auto_now_add` fields, and the per-session token
   * counter the store keeps (see `AddMessage`).
   */
  datatype Db = Db(
    sessions: seq<ChatSessionRow>,
    messages: seq<ChatMessageRow>,
    nextSessionPk: nat,
    nextMessagePk: nat,
    clock: int,
    tokenTotals: map<nat, int>)

  function EmptyDb(): (db: Db)
    ensures Valid(db)
  {
    Db([], [], 1, 1, 0, map[])
  }

  /**
   * What auto-increment keys and `auto_now_add` timestamps guarantee: keys
   * start at 1 and grow with insertion order, timestamps grow with insertion
   * order, and every message belongs to a session key already handed out.
   */
  ghost predicate Valid(db: Db) {
    && db.nextSessionPk >= 1
    && (forall i :: 0 <= i < |db.sessions| ==> 1 <= db.sessions[i].pk < db.nextSessionPk)
    && SessionPkAscending(db.sessions)
    && (forall i :: 0 <= i < |db.messages| ==>
          && db.messages[i].pk < db.nextMessagePk
          && db.messages[i].createdAt < db.clock
          && db.messages[i].session < db.nextSessionPk)
    && PkAscending(db.messages)
    && CreatedAscending(db.messages)
  }

  /** A store whose cached session key was handed out by the database. */
  ghost predicate Coherent(s: DjangoChatHistoryStore, db: Db) {
    Valid(db) && (s.cached.Some? ==> 1 <= s.cached.value < db.nextSessionPk)
  }

  predicate CreatedAscending(rows: seq<ChatMessageRow>) {
    forall i, j :: 0 <= i < j < |rows| ==> rows[i].createdAt < rows[j].createdAt
  }

  /** `ChatSession.objects.get(pk=id)`, or `None` for `DoesNotExist`. */
  function FindSession(sessions: seq<ChatSessionRow>, id: int): (r: Option<ChatSessionRow>)
    ensures r.Some? ==> r.value in sessions && r.value.pk == id
    ensures r.None? ==> forall i :: 0 <= i < |sessions| ==> sessions[i].pk != id
  {
    if |sessions| == 0 then None
    else if sessions[0].pk == id then Some(sessions[0])
    else FindSession(sessions[1..], id)
  }

  /** `ChatMessage.objects.filter(session=pk)`, in table order. */
  function SessionRows(rows: seq<ChatMessageRow>, pk: nat): (r: seq<ChatMessageRow>)
    ensures |r| <= |rows|
    ensures forall x :: x in r <==> x in rows && x.session == pk
    decreases |rows|
  {
    if |rows| == 0 then []
    else
      var init := SessionRows(rows[..|rows| - 1], pk);
      var last := rows[|rows| - 1];
      assert rows == rows[..|rows| - 1] + [last];
      if last.session == pk then init + [last] else init
  }

  lemma SessionRowsAppend(rows: seq<ChatMessageRow>, x: ChatMessageRow, pk: nat)
    ensures SessionRows(rows + [x], pk) == SessionRows(rows, pk) + (if x.session == pk then [x] else [])
  {
    assert (rows + [x])[..|rows|] == rows;
  }

  lemma {:induction false} SessionRowsNone(rows: seq<ChatMessageRow>, pk: nat)
    requires forall x :: x in rows ==> x.session != pk
    ensures SessionRows(rows, pk) == []
    decreases |rows|
  {
    if |rows| > 0 {
      assert rows[|rows| - 1] in rows;
      SessionRowsNone(rows[..|rows| - 1], pk);
    }
  }

  /** Filtering keeps the table's timestamp order. */
  lemma {:induction false} SessionRowsAscending(rows: seq<ChatMessageRow>, pk: nat)
    requires CreatedAscending(rows)
    ensures CreatedAscending(SessionRows(rows, pk))
    decreases |rows|
  {
    if |rows| > 0 {
      var init := rows[..|rows| - 1];
      var last := rows[|rows| - 1];
      SessionRowsAscending(init, pk);
      var f := SessionRows(init, pk);
      forall x | x in f
        ensures x.createdAt < last.createdAt
      {
        var i :| 0 <= i < |init| && init[i] == x;
        assert rows[i] == x;
      }
    }
  }

  // --------------------------------------------------------------- store

  /**
   * `DjangoChatHistoryStore`: the constructor arguments and the cached
   * session (`_session`), held here by its key.
   */
  datatype DjangoChatHistoryStore = DjangoChatHistoryStore(
    sessionId: Option<int>,
    config: Option<ChatConfig>,
    user: Option<nat>,
    cached: Option<nat>)

  function NewDjangoStore(sessionId: Option<int>, config: Option<ChatConfig>, user: Option<nat>): (s: DjangoChatHistoryStore)
    ensures s.cached.None?
  {
    DjangoChatHistoryStore(sessionId, config, user, None)
  }

  datatype StoreError =
    | ConfigRequired          // ValueError("Config is required to create a new session")
    | SessionDoesNotExist(id: int)
    | MissingTotalTokens      // AttributeError: ChatSession has no `total_tokens`

  /** The store and the database after an operation, and what it returned or raised. */
  datatype Step<T> = Step(store: DjangoChatHistoryStore, db: Db, result: Result<T, StoreError>)

  /**
   * The instruction a new session records: a simple configuration's
   * instruction, otherwise the built system prompt.
   */
  function SessionInstruction(config: ChatConfig): (r: string)
    ensures r == BuildSystemPrompt(config)
  {
    match config
    case SimpleChatConfig(instruction) => instruction
    case RolePlayChatConfig(_, _, _, _, _) => BuildSystemPrompt(config)
  }

  /**
   * The `session` property: the cached session; otherwise the stored session
   * named by a truthy `session_id`; otherwise a new session built from the
   * configuration. Returns the session's key.
   */
  function Session(s: DjangoChatHistoryStore, db: Db): (r: Step<nat>)
    ensures r.result.Err? ==> r.store == s && r.db == db
    ensures r.result.Ok? ==> r.store == s.(cached := Some(r.result.value))
  {
    if s.cached.Some? then Step(s, db, Ok(s.cached.value))
    else if s.sessionId.Some? && s.sessionId.value != 0 then
      match FindSession(db.sessions, s.sessionId.value)
      case Some(row) => Step(s.(cached := Some(row.pk)), db, Ok(row.pk))
      case None => Step(s, db, Err(SessionDoesNotExist(s.sessionId.value)))
    else if s.config.None? then Step(s, db, Err(ConfigRequired))
    else
      var pk := db.nextSessionPk;
      var row := NewSessionRow(pk, s.user, SessionInstruction(s.config.value), db.clock);
      var db' := db.(sessions := db.sessions + [row], nextSessionPk := pk + 1, clock := db.clock + 1);
      Step(s.(cached := Some(pk)), db', Ok(pk))
  }

  /**
   * Session access: `ValueError` exactly when there is no cached session, no
   * truthy `session_id` and no configuration; a new session records the
   * configuration's system prompt and the fixed model settings; once a
   * session is obtained, later accesses return it without touching the
   * database.
   */
  lemma SessionAccess(s: DjangoChatHistoryStore, db: Db)
    requires Coherent(s, db)
    ensures Coherent(Session(s, db).store, Session(s, db).db)
    ensures Session(s, db).result == Err(ConfigRequired) <==>
      s.cached.None? && (s.sessionId.None? || s.sessionId == Some(0)) && s.config.None?
    ensures var r := Session(s, db);
      r.result.Ok? ==> Session(r.store, r.db) == Step(r.store, r.db, Ok(r.result.value))
    ensures var r := Session(s, db);
      r.result.Ok? && r.db != db ==>
        && r.db.sessions == db.sessions + [r.db.sessions[|r.db.sessions| - 1]]
        && var row := r.db.sessions[|r.db.sessions| - 1];
           && row.pk == r.result.value
           && row.instruction == BuildSystemPrompt(s.config.value)
           && row.model == "gpt-4o" && row.temperature == 1.0 && row.maxTokens == 1000
           && row.user == s.user
           && SessionRows(r.db.messages, row.pk) == []
  {
    if s.cached.None? && !(s.sessionId.Some? && s.sessionId.value != 0) && s.config.Some? {
      NewSessionAccess(s, db);
    }
  }

  /** The creating branch of `SessionAccess`. */
  lemma NewSessionAccess(s: DjangoChatHistoryStore, db: Db)
    requires Coherent(s, db)
    requires s.cached.None? && !(s.sessionId.Some? && s.sessionId.value != 0) && s.config.Some?
    ensures var r := Session(s, db);
      && r.result == Ok(db.nextSessionPk)
      && Coherent(r.store, r.db)
      && r.db.messages == db.messages
      && r.db.sessions == db.sessions + [r.db.sessions[|r.db.sessions| - 1]]
      && var row := r.db.sessions[|r.db.sessions| - 1];
         && row.pk == r.result.value
         && row.instruction == BuildSystemPrompt(s.config.value)
         && row.model == "gpt-4o" && row.temperature == 1.0 && row.maxTokens == 1000
         && row.user == s.user
         && SessionRows(r.db.messages, row.pk) == []
  {
    var pk := db.nextSessionPk;
    forall x | x in db.messages
      ensures x.session != pk
    {
    }
    SessionRowsNone(db.messages, pk);
  }

  /** Inserts a `ChatMessage` row for the session `pk`. */
  function InsertMessage(db: Db, pk: nat, m: Message): Db {
    var row := ChatMessageRow(db.nextMessagePk, pk, m.role, m.content, db.clock);
    db.(messages := db.messages + [row], nextMessagePk := db.nextMessagePk + 1, clock := db.clock + 1)
  }

  lemma InsertMessageValid(db: Db, pk: nat, m: Message)
    requires Valid(db)
    requires pk < db.nextSessionPk
    ensures Valid(InsertMessage(db, pk, m))
  {
  }

  /**
   * `add_message` as written: the message row is created, and then, when the
   * message carries usage, `self.session.total_tokens += ...` fails because
   * `ChatSession` declares no `total_tokens` field. The row stays.
   */
  function AddMessageAsWritten(s: DjangoChatHistoryStore, db: Db, m: Message): (r: Step<()>)
  {
    var access := Session(s, db);
    match access.result
    case Err(e) => Step(access.store, access.db, Err(e))
    case Ok(pk) =>
      var db' := InsertMessage(access.db, pk, m);
      if m.usage.Some? then Step(access.store, db', Err(MissingTotalTokens))
      else Step(access.store, db', Ok(()))
  }

  /**
   * `add_message` as intended: one message row for the session with the
   * message's role and content, and the session's token total raised by the
   * usage total when the message carries usage.
   */
  function AddMessage(s: DjangoChatHistoryStore, db: Db, m: Message): (r: Step<()>)
  {
    var access := Session(s, db);
    match access.result
    case Err(e) => Step(access.store, access.db, Err(e))
    case Ok(pk) =>
      var db' := InsertMessage(access.db, pk, m);
      match m.usage
      case None => Step(access.store, db', Ok(()))
      case Some(u) =>
        var before := if pk in db'.tokenTotals then db'.tokenTotals[pk] else 0;
        Step(access.store, db'.(tokenTotals := db'.tokenTotals[pk := before + u.TotalTokens()]), Ok(()))
  }

  /**
   * The counter bug: a message that carries usage always makes the
   * as-written `add_message` fail after its row was inserted, while the
   * intended one succeeds from the same state.
   */
  lemma AddMessageWithUsageFails(s: DjangoChatHistoryStore, db: Db, m: Message)
    requires m.usage.Some?
    requires Session(s, db).result.Ok?
    ensures AddMessageAsWritten(s, db, m).result == Err(MissingTotalTokens)
    ensures |AddMessageAsWritten(s, db, m).db.messages| == |Session(s, db).db.messages| + 1
    ensures AddMessage(s, db, m).result.Ok?
  {
  }

  /** A successful `add_message` is the session access followed by one row insert and the counter update. */
  lemma AddMessageShape(s: DjangoChatHistoryStore, db: Db, m: Message)
    requires AddMessage(s, db, m).result.Ok?
    ensures var a := Session(s, db);
      var r := AddMessage(s, db, m);
      && a.result.Ok?
      && r.store == a.store
      && r.db == InsertMessage(a.db, a.result.value, m).(tokenTotals := r.db.tokenTotals)
      && (m.usage.None? ==> r.db.tokenTotals == a.db.tokenTotals)
      && (m.usage.Some? ==>
            var before := if a.result.value in a.db.tokenTotals then a.db.tokenTotals[a.result.value] else 0;
            r.db.tokenTotals == a.db.tokenTotals[a.result.value := before + m.usage.value.TotalTokens()])
  {
  }

  /** Changing the token counters does not affect validity. */
  lemma ValidWithTotals(db: Db, totals: map<nat, int>)
    requires Valid(db)
    ensures Valid(db.(tokenTotals := totals))
  {
  }

  /**
   * `add_message` adds exactly one row, for the store's session, with the
   * message's role and content, after every existing row; the session's token
   * total grows by exactly `input + output` when the message carries usage
   * and is untouched otherwise; no other session's total changes.
   */
  lemma AddMessageEffect(s: DjangoChatHistoryStore, db: Db, m: Message)
    requires Coherent(s, db)
    requires AddMessage(s, db, m).result.Ok?
    ensures var a := Session(s, db);
      var r := AddMessage(s, db, m);
      && a.result.Ok?
      && Coherent(r.store, r.db)
      && r.store == a.store
      && |r.db.messages| == |a.db.messages| + 1
      && r.db.messages[..|a.db.messages|] == a.db.messages
      && var row := r.db.messages[|a.db.messages|];
         && row.session == a.result.value && row.role == m.role && row.content == m.content
         && SessionRows(r.db.messages, a.result.value) == SessionRows(a.db.messages, a.result.value) + [row]
    ensures var a := Session(s, db);
      var r := AddMessage(s, db, m);
      var pk := a.result.value;
      var before := if pk in a.db.tokenTotals then a.db.tokenTotals[pk] else 0;
      && (m.usage.Some? ==> pk in r.db.tokenTotals && r.db.tokenTotals[pk] == before + m.usage.value.inputTokens + m.usage.value.outputTokens)
      && (m.usage.None? ==> r.db.tokenTotals == a.db.tokenTotals)
      && (forall k :: k != pk && k in a.db.tokenTotals ==> k in r.db.tokenTotals && r.db.tokenTotals[k] == a.db.tokenTotals[k])
  {
    var a := Session(s, db);
    var r := AddMessage(s, db, m);
    AddMessageShape(s, db, m);
    SessionAccess(s, db);
    var pk := a.result.value;
    var inserted := InsertMessage(a.db, pk, m);
    InsertMessageValid(a.db, pk, m);
    ValidWithTotals(inserted, r.db.tokenTotals);
    var row := ChatMessageRow(a.db.nextMessagePk, pk, m.role, m.content, a.db.clock);
    assert r.db.messages == a.db.messages + [row];
    SessionRowsAppend(a.db.messages, row, pk);
  }

  /**
   * The as-written `add_message`, once the session is obtained, inserts
   * exactly one row for it with the message's role and content, touches no
   * token total, and then fails exactly when the message carries usage.
   */
  lemma AddMessageAsWrittenEffect(s: DjangoChatHistoryStore, db: Db, m: Message)
    requires Coherent(s, db)
    requires Session(s, db).result.Ok?
    ensures var a := Session(s, db);
      var r := AddMessageAsWritten(s, db, m);
      && (r.result.Ok? <==> m.usage.None?)
      && (r.result.Err? ==> r.result.error == MissingTotalTokens)
      && Coherent(r.store, r.db)
      && r.store == a.store
      && r.db.tokenTotals == a.db.tokenTotals
      && |r.db.messages| == |a.db.messages| + 1
      && r.db.messages[..|a.db.messages|] == a.db.messages
      && var row := r.db.messages[|a.db.messages|];
         && row.session == a.result.value && row.role == m.role && row.content == m.content
         && SessionRows(r.db.messages, a.result.value) == SessionRows(a.db.messages, a.result.value) + [row]
  {
    var a := Session(s, db);
    SessionAccess(s, db);
    var pk := a.result.value;
    InsertMessageValid(a.db, pk, m);
    var row := ChatMessageRow(a.db.nextMessagePk, pk, m.role, m.content, a.db.clock);
    SessionRowsAppend(a.db.messages, row, pk);
  }

  /** Converts the rows `get_messages` returns: role, content and timestamp, never usage. */
  function RowsToMessages(rows: seq<ChatMessageRow>): (r: seq<Message>)
    ensures |r| == |rows|
    ensures forall i :: 0 <= i < |rows| ==>
      r[i] == Message(rows[i].role, rows[i].content, rows[i].createdAt, None)
  {
    if |rows| == 0 then []
    else RowsToMessages(rows[..|rows| - 1]) + [Message(rows[|rows| - 1].role, rows[|rows| - 1].content, rows[|rows| - 1].createdAt, None)]
  }

  /**
   * The part of a query `queryset[max(0, n - limit):]` selects: everything
   * for no limit, the last `limit` rows for `limit >= 1`, nothing for
   * `limit <= 0`.
   */
  function Window<T>(rows: seq<T>, limit: Option<int>): (r: seq<T>)
    ensures |r| <= |rows| && r == rows[|rows| - |r|..]
    ensures limit.None? ==> r == rows
    ensures limit.Some? && limit.value >= 1 ==> r == Last(rows, limit.value)
    ensures limit.Some? && limit.value <= 0 ==> r == []
  {
    var start := match limit case None => 0 case Some(k) => if |rows| - k < 0 then 0 else |rows| - k;
    var from := if start > |rows| then |rows| else start;
    rows[from..]
  }

  /** `get_messages(limit)`: the session's rows by timestamp, from `max(0, n - limit)` on. */
  function GetMessages(s: DjangoChatHistoryStore, db: Db, limit: Option<int>): (r: Step<seq<Message>>)
    ensures r.store == Session(s, db).store && r.db == Session(s, db).db
  {
    var access := Session(s, db);
    match access.result
    case Err(e) => Step(access.store, access.db, Err(e))
    case Ok(pk) => Step(access.store, access.db, Ok(RowsToMessages(Window(SessionRows(access.db.messages, pk), limit))))
  }

  /**
   * `get_messages` returns the window of the session's rows, in ascending
   * timestamp order, never carrying usage.
   */
  lemma GetMessagesWindow(s: DjangoChatHistoryStore, db: Db, limit: Option<int>)
    requires Coherent(s, db)
    requires Session(s, db).result.Ok?
    ensures var a := Session(s, db);
      var r := GetMessages(s, db, limit);
      && r.result == Ok(RowsToMessages(Window(SessionRows(a.db.messages, a.result.value), limit)))
      && MessagesAscending(r.result.value)
      && (forall i :: 0 <= i < |r.result.value| ==> r.result.value[i].usage.None?)
  {
    var a := Session(s, db);
    SessionAccess(s, db);
    var rows := SessionRows(a.db.messages, a.result.value);
    SessionRowsAscending(a.db.messages, a.result.value);
    WindowAscending(rows, limit);
  }

  predicate MessagesAscending(ms: seq<Message>) {
    forall i, j :: 0 <= i < j < |ms| ==> ms[i].createdAt < ms[j].createdAt
  }

  lemma WindowAscending(rows: seq<ChatMessageRow>, limit: Option<int>)
    requires CreatedAscending(rows)
    ensures MessagesAscending(RowsToMessages(Window(rows, limit)))
  {
    var w := Window(rows, limit);
    SuffixAscending(rows, |rows| - |w|);
    RowsToMessagesAscending(w);
  }

  lemma SuffixAscending(rows: seq<ChatMessageRow>, k: nat)
    requires k <= |rows|
    requires CreatedAscending(rows)
    ensures CreatedAscending(rows[k..])
  {
    forall i, j | 0 <= i < j < |rows| - k
      ensures rows[k..][i].createdAt < rows[k..][j].createdAt
    {
      assert rows[k..][i] == rows[k + i] && rows[k..][j] == rows[k + j];
    }
  }

  lemma RowsToMessagesAscending(rows: seq<ChatMessageRow>)
    requires CreatedAscending(rows)
    ensures MessagesAscending(RowsToMessages(rows))
  {
  }

  /** `clear_history`: deletes the session's rows and nothing else. */
  function ClearHistory(s: DjangoChatHistoryStore, db: Db): (r: Step<()>)
  {
    var access := Session(s, db);
    match access.result
    case Err(e) => Step(access.store, access.db, Err(e))
    case Ok(pk) =>
      Step(access.store, access.db.(messages := OtherRows(access.db.messages, pk)), Ok(()))
  }

  /** The rows that do not belong to session `pk`, in order. */
  function OtherRows(rows: seq<ChatMessageRow>, pk: nat): (r: seq<ChatMessageRow>)
    ensures forall x :: x in r <==> x in rows && x.session != pk
    decreases |rows|
  {
    if |rows| == 0 then []
    else
      var init := OtherRows(rows[..|rows| - 1], pk);
      var last := rows[|rows| - 1];
      assert rows == rows[..|rows| - 1] + [last];
      if last.session != pk then init + [last] else init
  }

  /** `get_message_count`. */
  function GetMessageCount(s: DjangoChatHistoryStore, db: Db): (r: Step<nat>)
    ensures r.store == Session(s, db).store && r.db == Session(s, db).db
  {
    var access := Session(s, db);
    match access.result
    case Err(e) => Step(access.store, access.db, Err(e))
    case Ok(pk) => Step(access.store, access.db, Ok(|SessionRows(access.db.messages, pk)|))
  }

  /**
   * After `clear_history` the session has no messages: the count is 0 and
   * `get_messages()` is empty, while every other session keeps its rows.
   */
  lemma ClearHistoryEmpties(s: DjangoChatHistoryStore, db: Db)
    requires ClearHistory(s, db).result.Ok?
    ensures var c := ClearHistory(s, db);
      && GetMessageCount(c.store, c.db).result == Ok(0)
      && GetMessages(c.store, c.db, None).result == Ok([])
      && forall k :: k != c.store.cached.value ==> SessionRows(c.db.messages, k) == SessionRows(db.messages, k)
  {
    var c := ClearHistory(s, db);
    var pk := c.store.cached.value;
    SessionRowsNone(c.db.messages, pk);
    forall k | k != pk
      ensures SessionRows(c.db.messages, k) == SessionRows(db.messages, k)
    {
      OtherRowsKeep(db.messages, pk, k);
    }
  }

  lemma {:induction false} OtherRowsKeep(rows: seq<ChatMessageRow>, pk: nat, k: nat)
    requires k != pk
    ensures SessionRows(OtherRows(rows, pk), k) == SessionRows(rows, k)
    decreases |rows|
  {
    if |rows| > 0 {
      var init := rows[..|rows| - 1];
      var last := rows[|rows| - 1];
      OtherRowsKeep(init, pk, k);
      if last.session != pk {
        SessionRowsAppend(OtherRows(init, pk), last, k);
      }
    }
  }

  // ------------------------------------------------------------ factory

  /**
   * `create_django_chat_store`: a store for the given configuration and
   * session id, owned by the request's user when that user is
   * authenticated and by nobody otherwise.
   */
  function CreateDjangoChatStore(requestUser: nat, authenticated: bool, config: ChatConfig, sessionId: Option<int>): (s: DjangoChatHistoryStore)
    ensures s.user.Some? <==> authenticated
    ensures s.user.Some? ==> s.user.value == requestUser
    ensures s.config == Some(config) && s.sessionId == sessionId && s.cached.None?
  {
    NewDjangoStore(sessionId, Some(config), if authenticated then Some(requestUser) else None)
  }

  /**
   * A store made by the factory always has a configuration, so obtaining
   * its session never raises the missing-configuration error; without a
   * session id it creates a session owned by the store's user.
   */
  lemma FactoryStoreNeedsNoConfig(requestUser: nat, authenticated: bool, config: ChatConfig, sessionId: Option<int>, db: Db)
    requires Valid(db)
    ensures var s := CreateDjangoChatStore(requestUser, authenticated, config, sessionId);
      && Session(s, db).result != Err(ConfigRequired)
      && (sessionId.None? ==>
            && Session(s, db).result == Ok(db.nextSessionPk)
            && Session(s, db).db.sessions[|db.sessions|].user == s.user)
  {
    var s := CreateDjangoChatStore(requestUser, authenticated, config, sessionId);
    SessionAccess(s, db);
    if sessionId.None? {
      NewSessionAccess(s, db);
    }
  }
}

=== FILE: fixture_converter.dfy ===
/**
 * The loop of convert_to_fixture.py that turns scraped chart records into
 * Django fixtures: one artist and one album fixture per distinct uid, at
 * its first occurrence, and one song fixture per record. Reading and
 * writing the JSON files is not modelled; the loop is a left fold.
 */
module FixtureConverter {
  import opened Wrappers
  import Decimal

  /** The JSON value of a record's rank: an integer, a fraction, a boolean, a text, or anything else. */
  datatype RankValue = RankNumber(n: int) | RankFloat(x: real) | RankBool(b: bool) | RankText(text: string) | RankOther

  /** A scraped record with the keys the loop reads; the optional ones may be missing. */
  datatype Record = Record(
    artistUid: int,
    artistName: string,
    albumUid: int,
    albumName: string,
    coverImageUrl: string,
    songUid: int,
    rank: RankValue,
    title: string,
    lyrics: Option<string>,
    genre: Option<seq<string>>,
    releaseDate: string,
    likes: Option<int>)

  /** A fixture entry; its `pk` is its `uid`. */
  datatype Fixture =
    | ArtistFixture(uid: int, name: string)
    | AlbumFixture(uid: int, name: string, coverImageUrl: string)
    | SongFixture(uid: int, rank: int, title: string, artist: int, album: int,
                  lyrics: string, genre: seq<string>, releaseDate: string, likes: int)

  /** The fixture's "model" entry. */
  function ModelLabel(f: Fixture): string {
    match f
    case ArtistFixture(_, _) => "melon.artist"
    case AlbumFixture(_, _, _) => "melon.album"
    case SongFixture(_, _, _, _, _, _, _, _, _) => "melon.song"
  }

  /**
   * `int(value)`: integers as they are, fractions truncated toward zero,
   * booleans as 0 and 1, text as Python's `int` reads it; anything else
   * (null, a list, an object) fails.
   */
  function RankOf(v: RankValue): (r: Option<int>)
    ensures v.RankNumber? ==> r == Some(v.n)
    ensures v.RankFloat? ==>
      && r.Some?
      && (if v.x >= 0.0 then r.value as real <= v.x < r.value as real + 1.0
          else r.value as real - 1.0 < v.x <= r.value as real)
    ensures v.RankBool? ==> r == Some(if v.b then 1 else 0)
    ensures v.RankText? && r.Some? ==> exists k :: 0 <= k < |v.text| && Decimal.IsDigit(v.text[k])
    ensures v.RankOther? ==> r.None?
  {
    match v
    case RankNumber(n) => Some(n)
    case RankFloat(x) => Some(if x >= 0.0 then x.Floor else -((-x).Floor))
    case RankBool(b) => Some(if b then 1 else 0)
    case RankText(t) =>
      Decimal.PyIntNeedsDigit(t);
      Decimal.PyInt(t)
    case RankOther => None
  }

  /** The song fixture for a record whose rank reads as `rank`; missing optional fields take "", [] and 0. */
  function SongOf(r: Record, rank: int): (f: Fixture)
    ensures f.SongFixture? && f.uid == r.songUid && f.rank == rank
    ensures f.artist == r.artistUid && f.album == r.albumUid
    ensures f.lyrics == r.lyrics.GetOr("") && f.genre == r.genre.GetOr([]) && f.likes == r.likes.GetOr(0)
  {
    SongFixture(r.songUid, rank, r.title, r.artistUid, r.albumUid,
                r.lyrics.GetOr(""), r.genre.GetOr([]), r.releaseDate, r.likes.GetOr(0))
  }

  // -------------------------------------------------- artists and albums

  /** Artists and albums are de-duplicated the same way; `Kind` says which. */
  datatype Kind = Artists | Albums

  function Uid(r: Record, kind: Kind): int {
    if kind == Artists then r.artistUid else r.albumUid
  }

  function Name(r: Record, kind: Kind): string {
    if kind == Artists then r.artistName else r.albumName
  }

  predicate IsKind(f: Fixture, kind: Kind) {
    if kind == Artists then f.ArtistFixture? else f.AlbumFixture?
  }

  /** The fixture a record introduces for an artist or album seen for the first time. */
  function EntityOf(r: Record, kind: Kind): (f: Fixture)
    ensures IsKind(f, kind) && f.uid == Uid(r, kind) && f.name == Name(r, kind)
    ensures f.AlbumFixture? ==> f.coverImageUrl == r.coverImageUrl
  {
    if kind == Artists then ArtistFixture(r.artistUid, r.artistName)
    else AlbumFixture(r.albumUid, r.albumName, r.coverImageUrl)
  }

  /** The loop's state: fixtures so far, and `artist_set` / `album_set` (uid to first-seen name). */
  datatype ConvertState = ConvertState(fixtures: seq<Fixture>, artists: map<int, string>, albums: map<int, string>)

  function Seen(st: ConvertState, kind: Kind): map<int, string> {
    if kind == Artists then st.artists else st.albums
  }

  /** One of the two `if uid not in ..._set` blocks. */
  function AddEntity(st: ConvertState, r: Record, kind: Kind): (st': ConvertState)
    ensures Seen(st', if kind == Artists then Albums else Artists) == Seen(st, if kind == Artists then Albums else Artists)
    ensures Uid(r, kind) in Seen(st, kind) ==> st' == st
    ensures Uid(r, kind) !in Seen(st, kind) ==>
      && st'.fixtures == st.fixtures + [EntityOf(r, kind)]
      && Seen(st', kind) == Seen(st, kind)[Uid(r, kind) := Name(r, kind)]
  {
    var u := Uid(r, kind);
    if u in Seen(st, kind) then st
    else if kind == Artists then
      st.(artists := st.artists[u := r.artistName], fixtures := st.fixtures + [EntityOf(r, kind)])
    else
      st.(albums := st.albums[u := r.albumName], fixtures := st.fixtures + [EntityOf(r, kind)])
  }

  datatype ConvertError = BadRank(index: nat, rank: RankValue)

  /**
   * One iteration for the record at `index`, whose rank reads as `rank`:
   * artist, album, then the song, or the `int()` failure.
   */
  function Step(st: ConvertState, r: Record, rank: Option<int>, index: nat): Result<ConvertState, ConvertError> {
    var st2 := AddEntity(AddEntity(st, r, Artists), r, Albums);
    match rank
    case None => Err(BadRank(index, r.rank))
    case Some(k) => Ok(st2.(fixtures := st2.fixtures + [SongOf(r, k)]))
  }

  /** How each record's rank reads. */
  function Ranks(records: seq<Record>): (r: seq<Option<int>>)
    ensures |r| == |records|
    ensures forall i :: 0 <= i < |records| ==> r[i] == RankOf(records[i].rank)
  {
    seq(|records|, i requires 0 <= i < |records| => RankOf(records[i].rank))
  }

  /** The loop over the first `n` records, with their ranks read as `ranks`. */
  function Run(records: seq<Record>, ranks: seq<Option<int>>, n: nat): Result<ConvertState, ConvertError>
    requires n <= |records| == |ranks|
  {
    if n == 0 then Ok(ConvertState([], map[], map[]))
    else
      match Run(records, ranks, n - 1)
      case Err(e) => Err(e)
      case Ok(st) => Step(st, records[n - 1], ranks[n - 1], n - 1)
  }

  /** The fixtures the script writes, or the error that stops it before it writes any. */
  function Convert(records: seq<Record>): Result<seq<Fixture>, ConvertError> {
    match Run(records, Ranks(records), |records|)
    case Ok(st) => Ok(st.fixtures)
    case Err(e) => Err(e)
  }


  // ------------------------------------------------------------ invariant

  /** The uids of one kind among the first `n` records. */
  function UidSet(records: seq<Record>, n: nat, kind: Kind): set<int>
    requires n <= |records|
  {
    set i | 0 <= i < n :: Uid(records[i], kind)
  }

  /** `records[i]` is the first record with its uid of that kind. */
  predicate FirstOccurrence(records: seq<Record>, i: nat, kind: Kind)
    requires i < |records|
  {
    forall j :: 0 <= j < i ==> Uid(records[j], kind) != Uid(records[i], kind)
  }

  /** The seen map holds exactly the uids of the first `n` records, each with the name of its first record. */
  predicate SeenMatches(records: seq<Record>, n: nat, seen: map<int, string>, kind: Kind)
    requires n <= |records|
  {
    && seen.Keys == UidSet(records, n, kind)
    && forall i :: 0 <= i < n && FirstOccurrence(records, i, kind) ==>
         seen[Uid(records[i], kind)] == Name(records[i], kind)
  }

  function Count(fs: seq<Fixture>, kind: Kind): nat {
    if |fs| == 0 then 0 else Count(fs[..|fs| - 1], kind) + (if IsKind(fs[|fs| - 1], kind) then 1 else 0)
  }

  /** Among the first `n` fixtures there is one of that kind with uid `u`. */
  predicate IntroducedBefore(fs: seq<Fixture>, n: nat, u: int, kind: Kind)
    requires n <= |fs|
  {
    exists k :: 0 <= k < n && IsKind(fs[k], kind) && fs[k].uid == u
  }

  /** Every fixture of that kind carries the name its uid has in the seen map. */
  predicate NamesMatch(fs: seq<Fixture>, seen: map<int, string>, kind: Kind) {
    forall j :: 0 <= j < |fs| && IsKind(fs[j], kind) ==> fs[j].uid in seen && fs[j].name == seen[fs[j].uid]
  }

  /** No uid has two fixtures of that kind. */
  predicate UidsDistinct(fs: seq<Fixture>, kind: Kind) {
    forall j, k :: 0 <= j < k < |fs| && IsKind(fs[j], kind) && IsKind(fs[k], kind) ==> fs[j].uid != fs[k].uid
  }

  /** Every uid in the seen map has a fixture. */
  predicate Covers(fs: seq<Fixture>, seen: map<int, string>, kind: Kind) {
    forall u :: u in seen ==> IntroducedBefore(fs, |fs|, u, kind)
  }

  /** The fixtures of one kind match the seen map: one per uid in it, with its name. */
  predicate EntitiesMatch(fs: seq<Fixture>, seen: map<int, string>, kind: Kind) {
    && NamesMatch(fs, seen, kind)
    && UidsDistinct(fs, kind)
    && Covers(fs, seen, kind)
    && Count(fs, kind) == |seen.Keys|
  }

  /** Song `fs[j]` refers to an artist and an album introduced before it. */
  predicate RefersEarlier(fs: seq<Fixture>, j: nat)
    requires j < |fs| && fs[j].SongFixture?
  {
    IntroducedBefore(fs, j, fs[j].artist, Artists) && IntroducedBefore(fs, j, fs[j].album, Albums)
  }

  predicate SongsReferEarlier(fs: seq<Fixture>) {
    forall j :: 0 <= j < |fs| && fs[j].SongFixture? ==> RefersEarlier(fs, j)
  }

  function Songs(fs: seq<Fixture>): (r: seq<Fixture>)
    ensures forall k :: 0 <= k < |r| ==> r[k].SongFixture?
  {
    if |fs| == 0 then []
    else Songs(fs[..|fs| - 1]) + (if fs[|fs| - 1].SongFixture? then [fs[|fs| - 1]] else [])
  }

  /** Each of the first `n` ranks reads as an integer. */
  predicate RanksRead(ranks: seq<Option<int>>, n: nat)
    requires n <= |ranks|
  {
    forall i :: 0 <= i < n ==> ranks[i].Some?
  }

  /** One song per record among the first `n`, in order. */
  predicate SongsMatch(records: seq<Record>, ranks: seq<Option<int>>, n: nat, fs: seq<Fixture>)
    requires n <= |records| == |ranks| && RanksRead(ranks, n)
  {
    && |Songs(fs)| == n
    && forall i :: 0 <= i < n ==> Songs(fs)[i] == SongOf(records[i], ranks[i].value)
  }

  /** What holds after the loop has handled the first `n` records. */
  predicate Inv(records: seq<Record>, ranks: seq<Option<int>>, n: nat, st: ConvertState)
    requires n <= |records| == |ranks|
  {
    match st
    case ConvertState(fixtures, artists, albums) =>
      && SeenMatches(records, n, artists, Artists)
      && SeenMatches(records, n, albums, Albums)
      && EntitiesMatch(fixtures, artists, Artists)
      && EntitiesMatch(fixtures, albums, Albums)
      && SongsReferEarlier(fixtures)
      && RanksRead(ranks, n)
      && SongsMatch(records, ranks, n, fixtures)
  }

  // ---------------------------------------------------------- step lemmas

  lemma UidSetStep(records: seq<Record>, n: nat, kind: Kind)
    requires n < |records|
    ensures UidSet(records, n + 1, kind) == UidSet(records, n, kind) + {Uid(records[n], kind)}
  {
    var a := UidSet(records, n + 1, kind);
    var b := UidSet(records, n, kind) + {Uid(records[n], kind)};
    forall u | u in a
      ensures u in b
    {
      var i :| 0 <= i < n + 1 && Uid(records[i], kind) == u;
      if i < n {
        assert u in UidSet(records, n, kind);
      }
    }
    forall u | u in b
      ensures u in a
    {
      if u != Uid(records[n], kind) {
        var i :| 0 <= i < n && Uid(records[i], kind) == u;
      }
    }
  }

  lemma SeenAfterRecord(records: seq<Record>, n: nat, seen: map<int, string>, kind: Kind)
    requires n < |records|
    requires SeenMatches(records, n, seen, kind)
    ensures var u := Uid(records[n], kind);
      SeenMatches(records, n + 1, if u in seen then seen else seen[u := Name(records[n], kind)], kind)
  {
    var u := Uid(records[n], kind);
    var seen' := if u in seen then seen else seen[u := Name(records[n], kind)];
    UidSetStep(records, n, kind);
    assert seen'.Keys == seen.Keys + {u};
    forall i | 0 <= i < n + 1 && FirstOccurrence(records, i, kind)
      ensures seen'[Uid(records[i], kind)] == Name(records[i], kind)
    {
      if i < n {
        SeenEarlier(records, n, seen, kind, i);
      } else {
        FirstNotSeen(records, n, kind);
      }
    }
  }

  lemma SeenEarlier(records: seq<Record>, n: nat, seen: map<int, string>, kind: Kind, i: nat)
    requires i < n <= |records|
    requires SeenMatches(records, n, seen, kind)
    requires FirstOccurrence(records, i, kind)
    ensures Uid(records[i], kind) in seen && seen[Uid(records[i], kind)] == Name(records[i], kind)
  {
    assert Uid(records[i], kind) in UidSet(records, n, kind);
  }

  lemma FirstNotSeen(records: seq<Record>, n: nat, kind: Kind)
    requires n < |records|
    requires FirstOccurrence(records, n, kind)
    ensures Uid(records[n], kind) !in UidSet(records, n, kind)
  {
  }

  lemma {:induction false} CountAppend(fs: seq<Fixture>, f: Fixture, kind: Kind)
    ensures Count(fs + [f], kind) == Count(fs, kind) + (if IsKind(f, kind) then 1 else 0)
  {
    assert (fs + [f])[..|fs|] == fs;
  }

  lemma SongsAppend(fs: seq<Fixture>, f: Fixture)
    ensures Songs(fs + [f]) == Songs(fs) + (if f.SongFixture? then [f] else [])
  {
    assert (fs + [f])[..|fs|] == fs;
  }

  lemma IntroducedAppend(fs: seq<Fixture>, f: Fixture, n: nat, u: int, kind: Kind)
    requires n <= |fs|
    ensures IntroducedBefore(fs, n, u, kind) == IntroducedBefore(fs + [f], n, u, kind)
  {
    if IntroducedBefore(fs + [f], n, u, kind) {
      var k :| 0 <= k < n && IsKind((fs + [f])[k], kind) && (fs + [f])[k].uid == u;
      assert (fs + [f])[k] == fs[k];
    }
    if IntroducedBefore(fs, n, u, kind) {
      var k :| 0 <= k < n && IsKind(fs[k], kind) && fs[k].uid == u;
      assert (fs + [f])[k] == fs[k];
    }
  }

  /** Appending keeps every earlier song's references; a new song needs its own to be introduced. */
  lemma RefersAfterAppend(fs: seq<Fixture>, f: Fixture)
    requires SongsReferEarlier(fs)
    requires f.SongFixture? ==> IntroducedBefore(fs, |fs|, f.artist, Artists) && IntroducedBefore(fs, |fs|, f.album, Albums)
    ensures SongsReferEarlier(fs + [f])
  {
    var fs' := fs + [f];
    forall j | 0 <= j < |fs'| && fs'[j].SongFixture?
      ensures RefersEarlier(fs', j)
    {
      if j < |fs| {
        assert fs'[j] == fs[j];
        assert RefersEarlier(fs, j);
        IntroducedAppend(fs, f, j, fs[j].artist, Artists);
        IntroducedAppend(fs, f, j, fs[j].album, Albums);
      } else {
        IntroducedAppend(fs, f, |fs|, f.artist, Artists);
        IntroducedAppend(fs, f, |fs|, f.album, Albums);
      }
    }
  }

  /** Appending a fixture of another kind keeps the match. */
  lemma EntitiesAfterOther(fs: seq<Fixture>, seen: map<int, string>, kind: Kind, f: Fixture)
    requires EntitiesMatch(fs, seen, kind)
    requires !IsKind(f, kind)
    ensures EntitiesMatch(fs + [f], seen, kind)
  {
    var fs' := fs + [f];
    CountAppend(fs, f, kind);
    forall u | u in seen
      ensures IntroducedBefore(fs', |fs'|, u, kind)
    {
      IntroducedAppend(fs, f, |fs|, u, kind);
      var k :| 0 <= k < |fs| && IsKind(fs'[k], kind) && fs'[k].uid == u;
    }
    assert NamesMatch(fs', seen, kind) by {
      forall j | 0 <= j < |fs'| && IsKind(fs'[j], kind)
        ensures fs'[j].uid in seen && fs'[j].name == seen[fs'[j].uid]
      {
        assert fs'[j] == fs[j];
      }
    }
    assert UidsDistinct(fs', kind) by {
      forall j, k | 0 <= j < k < |fs'| && IsKind(fs'[j], kind) && IsKind(fs'[k], kind)
        ensures fs'[j].uid != fs'[k].uid
      {
        assert fs'[j] == fs[j] && fs'[k] == fs[k];
      }
    }
  }

  /** Appending the fixture of a new uid extends the match. */
  lemma EntitiesAfterNew(fs: seq<Fixture>, seen: map<int, string>, kind: Kind, r: Record)
    requires EntitiesMatch(fs, seen, kind)
    requires Uid(r, kind) !in seen
    ensures EntitiesMatch(fs + [EntityOf(r, kind)], seen[Uid(r, kind) := Name(r, kind)], kind)
  {
    var f := EntityOf(r, kind);
    var fs' := fs + [f];
    var seen' := seen[Uid(r, kind) := Name(r, kind)];
    CountAppend(fs, f, kind);
    assert seen'.Keys == seen.Keys + {Uid(r, kind)};
    assert Covers(fs', seen', kind) by {
      forall u | u in seen'
        ensures IntroducedBefore(fs', |fs'|, u, kind)
      {
        if u == Uid(r, kind) {
          assert fs'[|fs|] == f;
        } else {
          IntroducedAppend(fs, f, |fs|, u, kind);
          var k :| 0 <= k < |fs| && IsKind(fs'[k], kind) && fs'[k].uid == u;
        }
      }
    }
    assert UidsDistinct(fs', kind) by {
      forall j, k | 0 <= j < k < |fs'| && IsKind(fs'[j], kind) && IsKind(fs'[k], kind)
        ensures fs'[j].uid != fs'[k].uid
      {
        assert fs'[j] == fs[j];
        if k < |fs| {
          assert fs'[k] == fs[k];
        }
      }
    }
    assert NamesMatch(fs', seen', kind) by {
      forall j | 0 <= j < |fs'| && IsKind(fs'[j], kind)
        ensures fs'[j].uid in seen' && fs'[j].name == seen'[fs'[j].uid]
      {
        if j < |fs| {
          assert fs'[j] == fs[j];
        }
      }
    }
  }

  /** `AddEntity` of one kind keeps every part of the invariant that concerns fixtures. */
  lemma AddEntityKeeps(st: ConvertState, r: Record, kind: Kind)
    requires EntitiesMatch(st.fixtures, st.artists, Artists)
    requires EntitiesMatch(st.fixtures, st.albums, Albums)
    requires SongsReferEarlier(st.fixtures)
    ensures var st' := AddEntity(st, r, kind);
      && EntitiesMatch(st'.fixtures, st'.artists, Artists)
      && EntitiesMatch(st'.fixtures, st'.albums, Albums)
      && SongsReferEarlier(st'.fixtures)
      && Songs(st'.fixtures) == Songs(st.fixtures)
  {
    if Uid(r, kind) !in Seen(st, kind) {
      var f := EntityOf(r, kind);
      EntitiesAfterNew(st.fixtures, Seen(st, kind), kind, r);
      if kind == Artists {
        EntitiesAfterOther(st.fixtures, st.albums, Albums, f);
      } else {
        EntitiesAfterOther(st.fixtures, st.artists, Artists, f);
      }
      SongsAppend(st.fixtures, f);
      RefersAfterAppend(st.fixtures, f);
    }
  }

  /** Appending the song of a record whose artist and album are seen keeps the fixture invariant. */
  lemma AddSongKeeps(st: ConvertState, r: Record, k: int)
    requires EntitiesMatch(st.fixtures, st.artists, Artists)
    requires EntitiesMatch(st.fixtures, st.albums, Albums)
    requires SongsReferEarlier(st.fixtures)
    requires r.artistUid in st.artists && r.albumUid in st.albums
    ensures var fs' := st.fixtures + [SongOf(r, k)];
      && EntitiesMatch(fs', st.artists, Artists)
      && EntitiesMatch(fs', st.albums, Albums)
      && SongsReferEarlier(fs')
      && Songs(fs') == Songs(st.fixtures) + [SongOf(r, k)]
  {
    var f := SongOf(r, k);
    EntitiesAfterOther(st.fixtures, st.artists, Artists, f);
    EntitiesAfterOther(st.fixtures, st.albums, Albums, f);
    SongsAppend(st.fixtures, f);
    assert Uid(r, Artists) in st.artists && Uid(r, Albums) in st.albums;
    RefersAfterAppend(st.fixtures, f);
  }

  lemma SongsAfterRecord(records: seq<Record>, ranks: seq<Option<int>>, n: nat, fs: seq<Fixture>, fs': seq<Fixture>)
    requires n < |records| == |ranks|
    requires RanksRead(ranks, n) && SongsMatch(records, ranks, n, fs)
    requires ranks[n].Some?
    requires Songs(fs') == Songs(fs) + [SongOf(records[n], ranks[n].value)]
    ensures RanksRead(ranks, n + 1) && SongsMatch(records, ranks, n + 1, fs')
  {
  }

  /** Adding a record's artist, album and song keeps the fixture part of the invariant. */
  lemma StepFixturesKeep(st: ConvertState, r: Record, k: int)
    requires EntitiesMatch(st.fixtures, st.artists, Artists)
    requires EntitiesMatch(st.fixtures, st.albums, Albums)
    requires SongsReferEarlier(st.fixtures)
    ensures var st2 := AddEntity(AddEntity(st, r, Artists), r, Albums);
      var fs' := st2.fixtures + [SongOf(r, k)];
      && EntitiesMatch(fs', st2.artists, Artists)
      && EntitiesMatch(fs', st2.albums, Albums)
      && SongsReferEarlier(fs')
      && Songs(fs') == Songs(st.fixtures) + [SongOf(r, k)]
  {
    var st1 := AddEntity(st, r, Artists);
    var st2 := AddEntity(st1, r, Albums);
    AddEntityKeeps(st, r, Artists);
    AddEntityKeeps(st1, r, Albums);
    AddSongKeeps(st2, r, k);
  }

  /** The loop body keeps the invariant, from `n` records handled to `n + 1`. */
  lemma StepKeeps(records: seq<Record>, ranks: seq<Option<int>>, n: nat, st: ConvertState, st': ConvertState)
    requires n < |records| == |ranks| && Inv(records, ranks, n, st)
    requires Step(st, records[n], ranks[n], n) == Ok(st')
    ensures Inv(records, ranks, n + 1, st')
  {
    var r := records[n];
    var k := ranks[n].value;
    StepFixturesKeep(st, r, k);
    SeenAfterRecord(records, n, st.artists, Artists);
    SeenAfterRecord(records, n, st.albums, Albums);
    SongsAfterRecord(records, ranks, n, st.fixtures, st'.fixtures);
  }

  /** Once the loop has failed, it stays failed. */
  lemma {:induction false} RunStaysFailed(records: seq<Record>, ranks: seq<Option<int>>, n: nat, m: nat)
    requires n <= m <= |records| == |ranks| && Run(records, ranks, n).Err?
    ensures Run(records, ranks, m).Err?
    decreases m - n
  {
    if n < m {
      RunStaysFailed(records, ranks, n + 1, m);
    }
  }

  /** From a state after `n` records that satisfies the invariant, the loop keeps it up to `m` records. */
  lemma {:induction false} RunKeepsFrom(records: seq<Record>, ranks: seq<Option<int>>, n: nat, st: ConvertState, m: nat)
    requires n <= m <= |records| == |ranks|
    requires Run(records, ranks, n) == Ok(st) && Inv(records, ranks, n, st)
    ensures Run(records, ranks, m).Ok? ==> Inv(records, ranks, m, Run(records, ranks, m).value)
    decreases m - n
  {
    if n < m {
      match Step(st, records[n], ranks[n], n)
      case Err(_) =>
        RunStaysFailed(records, ranks, n + 1, m);
      case Ok(st') =>
        StepKeeps(records, ranks, n, st, st');
        RunKeepsFrom(records, ranks, n + 1, st', m);
    }
  }

  /** Before the loop: no records handled, nothing seen, no fixtures. */
  lemma InvInit(records: seq<Record>, ranks: seq<Option<int>>)
    requires |records| == |ranks|
    ensures Inv(records, ranks, 0, ConvertState([], map[], map[]))
  {
    assert UidSet(records, 0, Artists) == {};
    assert UidSet(records, 0, Albums) == {};
  }

  lemma RunKeeps(records: seq<Record>, ranks: seq<Option<int>>, n: nat, st: ConvertState)
    requires n <= |records| == |ranks|
    requires Run(records, ranks, n) == Ok(st)
    ensures Inv(records, ranks, n, st)
  {
    InvInit(records, ranks);
    RunKeepsFrom(records, ranks, 0, ConvertState([], map[], map[]), n);
  }

  /** The loop fails exactly when some rank does not read, and names the first such record. */
  lemma {:induction false} RunFailsOnBadRank(records: seq<Record>, ranks: seq<Option<int>>, n: nat)
    requires n <= |records| == |ranks|
    ensures Run(records, ranks, n).Ok? <==> RanksRead(ranks, n)
    ensures Run(records, ranks, n).Err? ==> var e := Run(records, ranks, n).error;
      && e.index < n && records[e.index].rank == e.rank && ranks[e.index].None?
      && RanksRead(ranks, e.index)
  {
    if n > 0 {
      RunFailsOnBadRank(records, ranks, n - 1);
    }
  }

  lemma {:induction false} CountsAddUp(fs: seq<Fixture>)
    ensures |fs| == Count(fs, Artists) + Count(fs, Albums) + |Songs(fs)|
    decreases |fs|
  {
    if |fs| > 0 {
      CountsAddUp(fs[..|fs| - 1]);
    }
  }

  // ------------------------------------------- entities from first records

  /** Every fixture of that kind is the entity of the first record, among the first `n`, carrying its uid. */
  predicate FromFirstRecords(fs: seq<Fixture>, records: seq<Record>, n: nat, kind: Kind)
    requires n <= |records|
  {
    forall j :: 0 <= j < |fs| && IsKind(fs[j], kind) ==>
      exists i :: 0 <= i < n && FirstOccurrence(records, i, kind) && fs[j] == EntityOf(records[i], kind)
  }

  lemma FromFirstAppendOther(fs: seq<Fixture>, records: seq<Record>, n: nat, kind: Kind, f: Fixture)
    requires n <= |records| && FromFirstRecords(fs, records, n, kind)
    requires !IsKind(f, kind)
    ensures FromFirstRecords(fs + [f], records, n, kind)
  {
    forall j | 0 <= j < |fs + [f]| && IsKind((fs + [f])[j], kind)
      ensures exists i :: 0 <= i < n && FirstOccurrence(records, i, kind) && (fs + [f])[j] == EntityOf(records[i], kind)
    {
      assert (fs + [f])[j] == fs[j];
    }
  }

  /** `AddEntity` for the record at `n` keeps every fixture of `kind` tied to a first record. */
  lemma AddEntityFromFirst(st: ConvertState, records: seq<Record>, n: nat, added: Kind, kind: Kind)
    requires n < |records|
    requires Seen(st, added).Keys == UidSet(records, n, added)
    requires FromFirstRecords(st.fixtures, records, n + 1, kind)
    ensures FromFirstRecords(AddEntity(st, records[n], added).fixtures, records, n + 1, kind)
  {
    var r := records[n];
    if Uid(r, added) !in Seen(st, added) {
      var f := EntityOf(r, added);
      var fs := st.fixtures;
      if added == kind {
        assert FirstOccurrence(records, n, kind) by {
          forall j | 0 <= j < n
            ensures Uid(records[j], kind) != Uid(r, kind)
          {
            assert Uid(records[j], kind) in UidSet(records, n, kind);
          }
        }
        forall j | 0 <= j < |fs + [f]| && IsKind((fs + [f])[j], kind)
          ensures exists i :: 0 <= i < n + 1 && FirstOccurrence(records, i, kind) && (fs + [f])[j] == EntityOf(records[i], kind)
        {
          if j < |fs| {
            assert (fs + [f])[j] == fs[j];
          } else {
            assert (fs + [f])[j] == EntityOf(records[n], kind);
          }
        }
      } else {
        FromFirstAppendOther(fs, records, n + 1, kind, f);
      }
    }
  }

  /** One iteration keeps every fixture of `kind` tied to a first record. */
  lemma StepFromFirst(st: ConvertState, records: seq<Record>, n: nat, rank: Option<int>, kind: Kind)
    requires n < |records| && rank.Some?
    requires st.artists.Keys == UidSet(records, n, Artists) && st.albums.Keys == UidSet(records, n, Albums)
    requires FromFirstRecords(st.fixtures, records, n, kind)
    ensures Step(st, records[n], rank, n).Ok?
    ensures FromFirstRecords(Step(st, records[n], rank, n).value.fixtures, records, n + 1, kind)
  {
    var k := rank.value;
    var r := records[n];
    var st1 := AddEntity(st, r, Artists);
    var st2 := AddEntity(st1, r, Albums);
    assert FromFirstRecords(st.fixtures, records, n + 1, kind) by {
      forall j | 0 <= j < |st.fixtures| && IsKind(st.fixtures[j], kind)
        ensures exists i :: 0 <= i < n + 1 && FirstOccurrence(records, i, kind) && st.fixtures[j] == EntityOf(records[i], kind)
      {
        var i :| 0 <= i < n && FirstOccurrence(records, i, kind) && st.fixtures[j] == EntityOf(records[i], kind);
      }
    }
    AddEntityFromFirst(st, records, n, Artists, kind);
    AddEntityFromFirst(st1, records, n, Albums, kind);
    FromFirstAppendOther(st2.fixtures, records, n + 1, kind, SongOf(r, k));
  }

  /** Every artist (album) fixture the loop has written is the entity of the first record with its uid. */
  lemma {:induction false} RunFromFirstRecords(records: seq<Record>, ranks: seq<Option<int>>, n: nat, kind: Kind)
    requires n <= |records| == |ranks|
    requires Run(records, ranks, n).Ok?
    ensures FromFirstRecords(Run(records, ranks, n).value.fixtures, records, n, kind)
  {
    if n > 0 {
      var st := Run(records, ranks, n - 1).value;
      var next := Step(st, records[n - 1], ranks[n - 1], n - 1);
      assert next.Ok? && FromFirstRecords(next.value.fixtures, records, n, kind) by {
        RunFromFirstRecords(records, ranks, n - 1, kind);
        RunSeenKeys(records, ranks, n - 1);
        StepFromFirst(st, records, n - 1, ranks[n - 1], kind);
      }
      assert Run(records, ranks, n) == next;
    }
  }

  /** After `n` records the seen maps hold exactly their uids. */
  lemma RunSeenKeys(records: seq<Record>, ranks: seq<Option<int>>, n: nat)
    requires n <= |records| == |ranks|
    requires Run(records, ranks, n).Ok?
    ensures var st := Run(records, ranks, n).value;
      st.artists.Keys == UidSet(records, n, Artists) && st.albums.Keys == UidSet(records, n, Albums)
  {
    var st := Run(records, ranks, n).value;
    RunKeeps(records, ranks, n, st);
    assert SeenMatches(records, n, st.artists, Artists) && SeenMatches(records, n, st.albums, Albums);
  }

  /** Two first occurrences of one uid are the same record. */
  lemma FirstOccurrenceUnique(records: seq<Record>, i: nat, i': nat, kind: Kind)
    requires i < |records| && i' < |records|
    requires FirstOccurrence(records, i, kind) && FirstOccurrence(records, i', kind)
    requires Uid(records[i], kind) == Uid(records[i'], kind)
    ensures i == i'
  {
  }

  // ----------------------------------------------------------- results

  /** The script writes its fixtures exactly when every rank reads as an integer; otherwise the first bad rank stops it. */
  lemma ConvertFailsOnBadRank(records: seq<Record>)
    ensures Convert(records).Ok? <==> forall i :: 0 <= i < |records| ==> RankOf(records[i].rank).Some?
    ensures Convert(records).Err? ==> var e := Convert(records).error;
      && e.index < |records| && records[e.index].rank == e.rank && RankOf(e.rank).None?
      && forall i :: 0 <= i < e.index ==> RankOf(records[i].rank).Some?
  {
    RunFailsOnBadRank(records, Ranks(records), |records|);
  }

  /**
   * What the converter writes for one kind: exactly one artist (album)
   * fixture per distinct uid among the records, each named as in the first
   * record carrying that uid.
   */
  lemma ConvertEntities(records: seq<Record>, kind: Kind)
    requires Convert(records).Ok?
    ensures var fs := Convert(records).value;
      && (forall u :: IntroducedBefore(fs, |fs|, u, kind) <==> u in UidSet(records, |records|, kind))
      && UidsDistinct(fs, kind)
      && (forall j, i :: 0 <= j < |fs| && IsKind(fs[j], kind) && 0 <= i < |records| && Uid(records[i], kind) == fs[j].uid
            ==> (FirstOccurrence(records, i, kind) ==> fs[j] == EntityOf(records[i], kind)))
  {
    var ranks := Ranks(records);
    RunFromFirstRecords(records, ranks, |records|, kind);
    var st := Run(records, ranks, |records|).value;
    RunKeeps(records, ranks, |records|, st);
    var fs := st.fixtures;
    assert Seen(st, kind).Keys == UidSet(records, |records|, kind);
    forall u | IntroducedBefore(fs, |fs|, u, kind)
      ensures u in UidSet(records, |records|, kind)
    {
      var k :| 0 <= k < |fs| && IsKind(fs[k], kind) && fs[k].uid == u;
    }
    FirstRecordsExact(fs, records, kind);
  }

  /** A fixture tied to a first record is tied to every first record with its uid: there is only one. */
  lemma FirstRecordsExact(fs: seq<Fixture>, records: seq<Record>, kind: Kind)
    requires FromFirstRecords(fs, records, |records|, kind)
    ensures forall j, i :: 0 <= j < |fs| && IsKind(fs[j], kind) && 0 <= i < |records| && Uid(records[i], kind) == fs[j].uid
                           ==> (FirstOccurrence(records, i, kind) ==> fs[j] == EntityOf(records[i], kind))
  {
    forall j, i | 0 <= j < |fs| && IsKind(fs[j], kind) && 0 <= i < |records| && Uid(records[i], kind) == fs[j].uid
                  && FirstOccurrence(records, i, kind)
      ensures fs[j] == EntityOf(records[i], kind)
    {
      var i' :| 0 <= i' < |records| && FirstOccurrence(records, i', kind) && fs[j] == EntityOf(records[i'], kind);
      FirstOccurrenceUnique(records, i, i', kind);
    }
  }

  /**
   * The songs: one per record, in record order, each after the artist and
   * album it refers to; and the output holds distinct artists + distinct
   * albums + records entries.
   */
  lemma ConvertSongs(records: seq<Record>)
    requires Convert(records).Ok?
    ensures forall i :: 0 <= i < |records| ==> RankOf(records[i].rank).Some?
    ensures var fs := Convert(records).value;
      && |Songs(fs)| == |records|
      && (forall i :: 0 <= i < |records| ==> Songs(fs)[i] == SongOf(records[i], RankOf(records[i].rank).value))
      && SongsReferEarlier(fs)
      && |fs| == |UidSet(records, |records|, Artists)| + |UidSet(records, |records|, Albums)| + |records|
  {
    var ranks := Ranks(records);
    var st := Run(records, ranks, |records|).value;
    RunKeeps(records, ranks, |records|, st);
    CountsAddUp(st.fixtures);
  }

  /** A record whose artist and album appeared earlier adds only its song. */
  lemma RepeatedArtistAddsOnlySong(records: seq<Record>, ranks: seq<Option<int>>, n: nat)
    requires n < |records| == |ranks| && Run(records, ranks, n).Ok?
    requires records[n].artistUid in UidSet(records, n, Artists) && records[n].albumUid in UidSet(records, n, Albums)
    requires ranks[n].Some?
    ensures Run(records, ranks, n + 1).Ok?
    ensures Run(records, ranks, n + 1).value.fixtures == Run(records, ranks, n).value.fixtures + [SongOf(records[n], ranks[n].value)]
  {
    RunKeeps(records, ranks, n, Run(records, ranks, n).value);
    assert Uid(records[n], Artists) in UidSet(records, n, Artists);
    assert Uid(records[n], Albums) in UidSet(records, n, Albums);
  }
}

=== FILE: forms_base.dfy ===
/**
 * The reusable HTMX form support (prompts/forms_base.py): the placeholder
 * value chosen for each kind of form field, and the mixin that attaches
 * live-validation attributes to widgets, builds the data for validating a
 * single field, and collects a status for every field.
 *
 * Django's URL resolver and the validation of a temporary bound form are
 * oracles: `Router` and the `validate` function parameter.
 */
module FormsBase {
  import opened Wrappers
  import opened Text

  // ------------------------------------------------------------ values

  /** The Python values a default or a submitted field value can be. `VDate` is a day number. */
  datatype Value =
    | VNone
    | VBool(b: bool)
    | VInt(i: int)
    | VReal(x: real)
    | VStr(s: string)
    | VEmptyDict
    | VDate(day: int)

  /** Python truthiness. */
  predicate Truthy(v: Value) {
    match v
    case VNone => false
    case VBool(b) => b
    case VInt(i) => i != 0
    case VReal(x) => x != 0.0
    case VStr(s) => s != ""
    case VEmptyDict => false
    case VDate(_) => true
  }

  /**
   * A form field, by the class tests `get_default_value` makes: whether it
   * is a `ChoiceField`, whether it is a `CharField` (Email, URL and Slug
   * fields are), whether its widget is a `Textarea`, and its class name.
   */
  datatype FormField = FormField(
    className: string,
    isChoice: bool,
    isChar: bool,
    textarea: bool,
    choices: seq<(Value, string)>,
    required: bool,
    attrs: map<string, string>)

  // ---------------------------------------------------- default values

  const CHAR_DEFAULT := "temporary_value"

  /** `"temporary content " * 10`. */
  const TEXTAREA_DEFAULT := Repeat("temporary content ", 10)

  lemma TextareaDefaultLength()
    ensures |TEXTAREA_DEFAULT| == 180
  {
  }

  /** `DEFAULT_VALUES.get(name, "")`, with the date entries called on `today`. */
  function TableDefault(className: string, today: int): Value {
    if className == "CharField" then VStr(CHAR_DEFAULT)
    else if className == "TextField" then VStr(TEXTAREA_DEFAULT)
    else if className == "EmailField" then VStr("temp@example.com")
    else if className == "URLField" then VStr("https://example.com")
    else if className == "SlugField" then VStr("temp-slug")
    else if className == "IntegerField" then VInt(0)
    else if className == "FloatField" || className == "DecimalField" then VReal(0.0)
    else if className == "BooleanField" then VBool(false)
    else if className == "DateField" || className == "DateTimeField" then VDate(today)
    else if className == "TimeField" || className == "DurationField" then VStr("00:00:00")
    else if className == "FileField" || className == "ImageField" || className == "UUIDField" then VNone
    else if className == "JSONField" then VEmptyDict
    else VStr("")
  }

  /** The key of the first choice whose key is truthy, or "" when there is none. */
  function FirstTruthyKey(choices: seq<(Value, string)>): (r: Value)
    ensures (forall k :: 0 <= k < |choices| ==> !Truthy(choices[k].0)) ==> r == VStr("")
    ensures (exists k :: 0 <= k < |choices| && Truthy(choices[k].0)) ==>
      exists k :: 0 <= k < |choices| && r == choices[k].0 && Truthy(r)
                  && forall m :: 0 <= m < k ==> !Truthy(choices[m].0)
  {
    if |choices| == 0 then VStr("")
    else if Truthy(choices[0].0) then choices[0].0
    else
      var r := FirstTruthyKey(choices[1..]);
      if exists k :: 0 <= k < |choices[1..]| && Truthy(choices[1..][k].0) then
        var k :| 0 <= k < |choices[1..]| && r == choices[1..][k].0 && Truthy(r)
                   && forall m :: 0 <= m < k ==> !Truthy(choices[1..][m].0);
        assert choices[k + 1] == choices[1..][k];
        r
      else r
  }

  /** The instance supplies the value: there is one, the name is non-empty, and it has that attribute. */
  predicate FromInstance(instance: Option<map<string, Value>>, fieldName: Option<string>) {
    instance.Some? && fieldName.Some? && fieldName.value != "" && fieldName.value in instance.value
  }

  /**
   * `get_default_value`. The kinds are tried in a fixed order: the
   * instance's own attribute, then a choice field with choices, then any
   * `CharField`, and only then the table of class names.
   */
  function GetDefaultValue(field: FormField, instance: Option<map<string, Value>>,
                           fieldName: Option<string>, today: int): (r: Value)
    ensures FromInstance(instance, fieldName) ==> r == instance.value[fieldName.value]
    ensures !FromInstance(instance, fieldName) && field.isChoice && |field.choices| > 0 ==>
      && ((forall k :: 0 <= k < |field.choices| ==> !Truthy(field.choices[k].0)) ==> r == VStr(""))
      && ((exists k :: 0 <= k < |field.choices| && Truthy(field.choices[k].0)) ==>
            exists k :: 0 <= k < |field.choices| && r == field.choices[k].0 && Truthy(r)
                        && forall m :: 0 <= m < k ==> !Truthy(field.choices[m].0))
    ensures !FromInstance(instance, fieldName) && !(field.isChoice && |field.choices| > 0) && field.isChar ==>
      r == VStr(if field.textarea then TEXTAREA_DEFAULT else CHAR_DEFAULT)
    ensures !FromInstance(instance, fieldName) && !(field.isChoice && |field.choices| > 0) && !field.isChar ==>
      r == TableDefault(field.className, today)
  {
    if FromInstance(instance, fieldName) then instance.value[fieldName.value]
    else if field.isChoice && |field.choices| > 0 then FirstTruthyKey(field.choices)
    else if field.isChar then VStr(if field.textarea then TEXTAREA_DEFAULT else CHAR_DEFAULT)
    else TableDefault(field.className, today)
  }

  /**
   * Email, URL and Slug form fields are `CharField`s, so their entries in
   * the table are never reached: without an instance they get the plain
   * text default like any other one-line text field.
   */
  lemma CharSubclassesSkipTable(field: FormField, today: int)
    requires field.isChar && !field.isChoice && !field.textarea
    requires field.className in {"EmailField", "URLField", "SlugField"}
    ensures GetDefaultValue(field, None, None, today) == VStr(CHAR_DEFAULT)
    ensures TableDefault(field.className, today) != VStr(CHAR_DEFAULT)
  {
  }

  /** The class names `DEFAULT_VALUES` lists. */
  const TABLE_CLASSES: set<string> := {
    "CharField", "TextField", "EmailField", "URLField", "SlugField", "IntegerField",
    "FloatField", "DecimalField", "BooleanField", "DateField", "DateTimeField",
    "TimeField", "DurationField", "FileField", "ImageField", "JSONField", "UUIDField"}

  /**
   * A field that is neither a choice field nor a `CharField` takes its
   * table entry; a class name the table does not list gives "".
   */
  lemma OtherKindsUseTable(field: FormField, today: int)
    requires !field.isChoice && !field.isChar
    ensures GetDefaultValue(field, None, None, today) == TableDefault(field.className, today)
    ensures field.className == "IntegerField" ==> GetDefaultValue(field, None, None, today) == VInt(0)
    ensures field.className == "DateField" ==> GetDefaultValue(field, None, None, today) == VDate(today)
    ensures field.className == "JSONField" ==> GetDefaultValue(field, None, None, today) == VEmptyDict
    ensures field.className !in TABLE_CLASSES ==> GetDefaultValue(field, None, None, today) == VStr("")
  {
  }

  /** A choice field whose choices are only the blank option falls back to "". */
  lemma BlankChoicesGiveEmpty(field: FormField, today: int)
    requires field.isChoice && field.choices == [(VStr(""), "---------")]
    ensures GetDefaultValue(field, None, None, today) == VStr("")
  {
  }

  // ---------------------------------------------------------- the mixin

  const DEFAULT_TRIGGER := "blur, change delay:500ms"

  /** The class attributes a form sets on the mixin. */
  datatype Mixin = Mixin(validationUrlName: Option<string>, validationUrlKwargs: map<string, string>, htmxTrigger: string)

  /** Django's `reverse`, by keyword arguments and by positional ones; `None` is a failed reverse. */
  datatype Router = Router(
    byKwargs: (string, map<string, string>) -> Option<string>,
    byArgs: (string, seq<string>) -> Option<string>)

  /** `get_validation_url_kwargs`: the field name, overridden by the form's own entries. */
  function ValidationUrlKwargs(m: Mixin, fieldName: string): (r: map<string, string>)
    ensures r.Keys == {"field_name"} + m.validationUrlKwargs.Keys
    ensures forall k :: k in m.validationUrlKwargs ==> r[k] == m.validationUrlKwargs[k]
    ensures "field_name" !in m.validationUrlKwargs ==> r["field_name"] == fieldName
  {
    map["field_name" := fieldName] + m.validationUrlKwargs
  }

  /** `get_validation_url`: reverse by keyword arguments, else by position, else nothing. */
  function ValidationUrl(m: Mixin, router: Router, fieldName: string): (r: Option<string>)
    ensures m.validationUrlName.None? || m.validationUrlName == Some("") ==> r.None?
    ensures m.validationUrlName.Some? && m.validationUrlName.value != "" ==>
      var byKw := router.byKwargs(m.validationUrlName.value, ValidationUrlKwargs(m, fieldName));
      r == if byKw.Some? then byKw else router.byArgs(m.validationUrlName.value, [fieldName])
  {
    match m.validationUrlName
    case None => None
    case Some(name) =>
      if name == "" then None
      else
        var byKw := router.byKwargs(name, ValidationUrlKwargs(m, fieldName));
        if byKw.Some? then byKw else router.byArgs(name, [fieldName])
  }

  const HTMX_KEYS: set<string> := {"hx-post", "hx-trigger", "hx-target", "hx-swap", "hx-indicator"}

  /**
   * `get_htmx_attributes`: nothing when no non-empty URL resolves;
   * otherwise exactly the five hx-* attributes, posting to the URL and
   * targeting this field's error and loading elements.
   */
  function GetHtmxAttributes(m: Mixin, router: Router, fieldName: string): (r: map<string, string>)
    ensures var url := ValidationUrl(m, router, fieldName);
      r == map[] <==> url.None? || url == Some("")
    ensures r != map[] ==>
      && r.Keys == HTMX_KEYS
      && r["hx-post"] == ValidationUrl(m, router, fieldName).value
      && r["hx-trigger"] == m.htmxTrigger
      && r["hx-target"] == "#error-" + fieldName
      && r["hx-swap"] == "outerHTML"
      && r["hx-indicator"] == "#loading-" + fieldName
  {
    var url := ValidationUrl(m, router, fieldName);
    if url.None? || url.value == "" then map[]
    else
      var r := map[
        "hx-post" := url.value,
        "hx-trigger" := m.htmxTrigger,
        "hx-target" := "#error-" + fieldName,
        "hx-swap" := "outerHTML",
        "hx-indicator" := "#loading-" + fieldName];
      assert "hx-post" in r;
      r
  }

  /** A field after its widget attributes are updated with its HTMX attributes, when there are any. */
  function WithHtmx(m: Mixin, router: Router, name: string, f: FormField): (r: FormField)
    ensures r.(attrs := f.attrs) == f
    ensures f.attrs.Keys <= r.attrs.Keys
    ensures GetHtmxAttributes(m, router, name) == map[] ==> r == f
  {
    var a := GetHtmxAttributes(m, router, name);
    if a == map[] then f else f.(attrs := f.attrs + a)
  }

  /** Installing the same attributes twice is the same as once. */
  lemma WithHtmxIdempotent(m: Mixin, router: Router, name: string, f: FormField)
    ensures WithHtmx(m, router, name, WithHtmx(m, router, name, f)) == WithHtmx(m, router, name, f)
  {
    var a := GetHtmxAttributes(m, router, name);
    if a != map[] {
      assert f.attrs + a + a == f.attrs + a;
    }
  }

  /** The names `setup_htmx_attributes` visits: the given ones, or every field when none are given. */
  predicate Targeted(name: string, fields: map<string, FormField>, fieldNames: Option<seq<string>>) {
    name in fields && (fieldNames.None? || name in fieldNames.value)
  }

  /**
   * `setup_htmx_attributes`: each named field that the form has gets its
   * HTMX attributes merged into its widget attributes; every other field,
   * and everything but the attributes, is left as it was.
   */
  method SetupHtmxAttributes(m: Mixin, router: Router, fields: map<string, FormField>, fieldNames: Option<seq<string>>)
    returns (r: map<string, FormField>)
    ensures r.Keys == fields.Keys
    ensures forall n :: n in fields ==>
      r[n] == if Targeted(n, fields, fieldNames) then WithHtmx(m, router, n, fields[n]) else fields[n]
  {
    match fieldNames
    case None =>
      r := map n | n in fields :: WithHtmx(m, router, n, fields[n]);
    case Some(names) =>
      r := fields;
      var i := 0;
      while i < |names|
        invariant 0 <= i <= |names|
        invariant r.Keys == fields.Keys
        invariant forall n :: n in fields ==>
          r[n] == if n in names[..i] then WithHtmx(m, router, n, fields[n]) else fields[n]
      {
        var name := names[i];
        if name in r {
          if name in names[..i] {
            WithHtmxIdempotent(m, router, name, fields[name]);
          }
          r := r[name := WithHtmx(m, router, name, r[name])];
        }
        assert names[..i + 1] == names[..i] + [name];
        i := i + 1;
      }
      assert names[..|names|] == names;
  }

  // ---------------------------------------------------- field validation

  const INVALID_FIELD_MESSAGE := "유효하지 않은 필드입니다."

  /**
   * The form data `validate_single_field` builds: the field under test with
   * the submitted value, and every other required field with its default.
   * Optional fields are left out.
   */
  function ProbeData(fields: map<string, FormField>, instance: Option<map<string, Value>>,
                     fieldName: string, value: Value, today: int): (r: map<string, Value>)
    ensures fieldName in r && r[fieldName] == value
    ensures forall n :: n in r <==> n == fieldName || (n in fields && fields[n].required)
    ensures forall n :: n in r && n != fieldName ==> r[n] == GetDefaultValue(fields[n], instance, Some(n), today)
  {
    map n | n in fields.Keys + {fieldName} && (n == fieldName || fields[n].required) ::
      if n == fieldName then value else GetDefaultValue(fields[n], instance, Some(n), today)
  }

  /** The loop of `validate_single_field` that fills the form data, field by field. */
  method BuildProbeData(fields: map<string, FormField>, instance: Option<map<string, Value>>,
                        fieldName: string, value: Value, today: int) returns (data: map<string, Value>)
    ensures data == ProbeData(fields, instance, fieldName, value, today)
  {
    data := map[fieldName := value];
    var remaining := fields.Keys;
    while remaining != {}
      invariant remaining <= fields.Keys
      invariant fieldName in data && data[fieldName] == value
      invariant forall n :: n in data <==>
        n == fieldName || (n in fields && n !in remaining && fields[n].required)
      invariant forall n :: n in data && n != fieldName ==>
        data[n] == GetDefaultValue(fields[n], instance, Some(n), today)
      decreases remaining
    {
      var fname :| fname in remaining;
      if fname != fieldName && fields[fname].required {
        data := data[fname := GetDefaultValue(fields[fname], instance, Some(fname), today)];
      }
      remaining := remaining - {fname};
    }
  }

  /** `(is_valid, error)` for one field. */
  datatype FieldStatus = FieldStatus(valid: bool, error: Option<string>)

  /**
   * `validate_single_field`. `validate(name, data)` is the error message the
   * temporary form bound to `data` reports for `name`, from field cleaning
   * or from its `clean_<name>` method, or `None`.
   */
  function ValidateSingleField(fields: map<string, FormField>, instance: Option<map<string, Value>>,
                               fieldName: string, value: Value, today: int,
                               validate: (string, map<string, Value>) -> Option<string>): (r: FieldStatus)
    ensures fieldName !in fields ==> r == FieldStatus(false, Some(INVALID_FIELD_MESSAGE))
    ensures fieldName in fields ==>
      && (r.valid <==> validate(fieldName, ProbeData(fields, instance, fieldName, value, today)).None?)
      && r.error == validate(fieldName, ProbeData(fields, instance, fieldName, value, today))
    ensures r.valid <==> r.error.None?
  {
    if fieldName !in fields then FieldStatus(false, Some(INVALID_FIELD_MESSAGE))
    else
      var error := validate(fieldName, ProbeData(fields, instance, fieldName, value, today));
      FieldStatus(error.None?, error)
  }

  /** The submitted value of a field: `data.get(name, "")`. */
  function Submitted(data: map<string, Value>, name: string): Value {
    if name in data then data[name] else VStr("")
  }

  /**
   * `get_validation_status`: one entry per form field, each the result of
   * validating that field alone with its submitted value; so no entry is
   * ever the unknown-field answer.
   */
  method GetValidationStatus(fields: map<string, FormField>, instance: Option<map<string, Value>>,
                             data: map<string, Value>, today: int,
                             validate: (string, map<string, Value>) -> Option<string>)
    returns (status: map<string, FieldStatus>)
    ensures status.Keys == fields.Keys
    ensures forall n :: n in status ==>
      status[n] == ValidateSingleField(fields, instance, n, Submitted(data, n), today, validate)
    ensures forall n :: n in status ==>
      (status[n].valid <==> validate(n, ProbeData(fields, instance, n, Submitted(data, n), today)).None?)
  {
    status := map[];
    var remaining := fields.Keys;
    while remaining != {}
      invariant remaining <= fields.Keys
      invariant status.Keys == fields.Keys - remaining
      invariant forall n :: n in status ==>
        status[n] == ValidateSingleField(fields, instance, n, Submitted(data, n), today, validate)
      decreases remaining
    {
      var name :| name in remaining;
      status := status[name := ValidateSingleField(fields, instance, name, Submitted(data, name), today, validate)];
      remaining := remaining - {name};
    }
  }
}

=== FILE: prompt_forms.dfy ===
/**
 * `PromptForm` (prompts/forms.py): the tags field shown as comma-separated
 * text and read back into a list, the edit-mode initial text, and the
 * HTMX set-up of its fields.
 */
module PromptForms {
  import opened Wrappers
  import opened Text
  import opened PromptValidators
  import opened PromptModels
  import opened FormsBase

  /** The cleaned value of the tags field: normally text, defensively a list. */
  datatype TagsInput = TagsText(text: string) | TagsList(items: seq<Json>)

  function Strings(ts: seq<string>): (r: seq<Json>)
    ensures |r| == |ts|
    ensures forall k :: 0 <= k < |ts| ==> r[k] == JString(ts[k])
  {
    seq(|ts|, k requires 0 <= k < |ts| => JString(ts[k]))
  }

  /**
   * `clean_tags`: a missing value counts as "", a list is returned as it is,
   * and text becomes its comma-separated, stripped, non-empty tags in order.
   */
  function CleanTags(cleaned: Option<TagsInput>): (r: seq<Json>)
    ensures cleaned.None? ==> r == []
    ensures cleaned.Some? && cleaned.value.TagsList? ==> r == cleaned.value.items
    ensures cleaned.Some? && cleaned.value.TagsText? ==>
      |r| == |ParseTagText(cleaned.value.text)|
      && forall k :: 0 <= k < |r| ==> r[k].JString? && PlainTag(r[k].s)
  {
    match cleaned
    case None =>
      assert Split("", ',') == [""];
      assert Strip("") == "" by { StripEmptyIffAllSpace(""); }
      assert CleanPieces([""]) == CleanPiece("") + CleanPieces([]);
      Strings(ParseTagText(""))
    case Some(TagsList(items)) => items
    case Some(TagsText(text)) =>
      ParsedTagsArePlain(text);
      Strings(ParseTagText(text))
  }

  /** The form's tag parsing and the model's `clean` agree on text. */
  lemma FormAndModelParseAlike(text: string)
    ensures CleanTagsValue(JString(text)) == JList(CleanTags(Some(TagsText(text))))
  {
  }

  /** A saved instance: its primary key is set and non-zero. */
  predicate Saved(pk: Option<nat>) {
    pk.Some? && pk.value != 0
  }

  /** `__init__` in edit mode: a saved prompt with tags gets them, joined with ", ", as the field's own initial. */
  function EditInitial(pk: Option<nat>, tags: seq<string>): (r: Option<string>)
    ensures r.Some? <==> Saved(pk) && |tags| > 0
    ensures r.Some? ==> r.value == Join(tags, ", ")
  {
    if Saved(pk) && |tags| > 0 then Some(Join(tags, ", ")) else None
  }

  // ---------------------------------------------- the text the box shows

  /** The quote `repr` puts around a text: double only when it holds a single quote and no double one. */
  function ReprQuote(t: string): char {
    if '\'' in t && '"' !in t then '"' else '\''
  }

  /** A character `repr` writes as it is, whichever quote it chose. */
  predicate Verbatim(c: char) {
    c != '\\' && c != '\'' && c != '"' && c != '\n' && c != '\r' && c != '\t'
  }

  /** How `repr` writes one character inside the quote `q`. */
  function ReprChar(c: char, q: char): (r: string)
    requires q == '\'' || q == '"'
    ensures |r| >= 1
    ensures Verbatim(c) ==> r == [c]
    ensures ',' in r <==> c == ','
  {
    if c == '\\' then "\\\\"
    else if c == q then ['\\', q]
    else if c == '\n' then "\\n"
    else if c == '\r' then "\\r"
    else if c == '\t' then "\\t"
    else [c]
  }

  function ReprBody(t: string, q: char): (r: string)
    requires q == '\'' || q == '"'
    ensures |r| >= |t|
    ensures ',' !in t ==> ',' !in r
    ensures (forall k :: 0 <= k < |t| ==> Verbatim(t[k])) ==> r == t
  {
    if t == "" then "" else ReprChar(t[0], q) + ReprBody(t[1..], q)
  }

  /**
   * Python's `repr` of a text: quoted, with backslashes, the chosen quote,
   * newlines, carriage returns and tabs escaped.
   */
  function PyRepr(t: string): (r: string)
    ensures |r| >= |t| + 2 && r[0] == ReprQuote(t) && r[|r| - 1] == ReprQuote(t)
    ensures ',' !in t ==> ',' !in r
    ensures (forall k :: 0 <= k < |t| ==> Verbatim(t[k])) ==> r == "'" + t + "'"
  {
    var q := ReprQuote(t);
    [q] + ReprBody(t, q) + [q]
  }

  function Reprs(ts: seq<string>): (r: seq<string>)
    ensures |r| == |ts|
    ensures forall k :: 0 <= k < |ts| ==> r[k] == PyRepr(ts[k])
  {
    seq(|ts|, k requires 0 <= k < |ts| => PyRepr(ts[k]))
  }

  /**
   * The tags box of an edit form as written. A ModelForm built from an
   * instance copies the instance's tags list into `form.initial`, which a
   * bound field reads before the field's own initial, and the text input
   * renders that list with `str`: the value `__init__` assigns is never shown.
   */
  function ShownTagsAsWritten(tags: seq<string>): (r: string)
    ensures |r| >= 2 && r[0] == '[' && r[|r| - 1] == ']'
    ensures tags == [] ==> r == "[]"
  {
    "[" + Join(Reprs(tags), ", ") + "]"
  }

  /** The tags box as intended: the joined tags once the prompt is saved, and nothing otherwise. */
  function ShownTags(pk: Option<nat>, tags: seq<string>): (r: string)
    ensures Saved(pk) ==> r == Join(tags, ", ")
    ensures !Saved(pk) ==> r == ""
  {
    match EditInitial(pk, tags)
    case Some(t) => t
    case None => ""
  }

  /** A piece that starts and ends with no whitespace is cleaned to itself. */
  predicate Edged(p: string) {
    |p| > 0 && !IsSpace(p[0]) && !IsSpace(p[|p| - 1])
  }

  /** A comma-free text with no surrounding whitespace parses as one tag, itself. */
  lemma ParseSinglePiece(p: string)
    requires ',' !in p && Edged(p)
    ensures ParseTagText(p) == [p]
  {
    SplitWithoutSep(p, ',');
    StripOfStripped(p);
    CleanPiecesFirst([p]);
  }

  /** A text whose first comma follows an edged piece parses with that piece first. */
  lemma ParseHeadPiece(head: string, rest: string)
    requires ',' !in head && Edged(head)
    ensures var tags := ParseTagText(head + [','] + rest);
      |tags| >= 1 && tags[0] == head
  {
    SplitAtFirstSep(head, ',', rest);
    StripOfStripped(head);
    CleanPiecesFirst(Split(head + [','] + rest, ','));
  }

  /** The text shown for at most one tag: "[]", or the tag's `repr` in brackets. */
  lemma ShownShort(tags: seq<string>)
    requires |tags| <= 1 && AllPlain(tags)
    ensures ShownTagsAsWritten(tags) == "[" + (if |tags| == 0 then "" else PyRepr(tags[0])) + "]"
    ensures ',' !in ShownTagsAsWritten(tags)
  {
    if |tags| == 1 {
      assert Reprs(tags) == [PyRepr(tags[0])];
    } else {
      assert Reprs(tags) == [];
    }
  }

  /** The text shown for two or more tags: '[' and the first `repr`, a comma, then the rest. */
  lemma ShownLong(tags: seq<string>)
    requires |tags| >= 2 && AllPlain(tags)
    ensures exists rest :: ShownTagsAsWritten(tags) == "[" + PyRepr(tags[0]) + [','] + rest
  {
    var rs := Reprs(tags);
    BracketedListText(rs);
    assert rs[0] == PyRepr(tags[0]);
  }

  /** A bracketed list of two or more items reads '[', the first item, a comma, then the rest. */
  lemma BracketedListText(rs: seq<string>)
    requires |rs| >= 2
    ensures "[" + Join(rs, ", ") + "]" == "[" + rs[0] + [','] + (" " + Join(rs[1..], ", ") + "]")
  {
    var tail := Join(rs[1..], ", ");
    assert Join(rs, ", ") == rs[0] + ", " + tail;
    Regroup(rs[0], tail);
  }

  lemma Regroup(a: string, t: string)
    ensures "[" + (a + ", " + t) + "]" == "[" + a + [','] + (" " + t + "]")
  {
    assert ", " == [','] + " ";
  }

  lemma CleanTagsOfText(text: string)
    ensures CleanTags(Some(TagsText(text))) == Strings(ParseTagText(text))
  {
  }

  /** As written, at most one tag comes back as one tag: the shown text itself. */
  lemma ResubmitShort(tags: seq<string>)
    requires |tags| <= 1 && AllPlain(tags)
    ensures CleanTags(Some(TagsText(ShownTagsAsWritten(tags))))
         == [JString("[" + (if |tags| == 0 then "" else PyRepr(tags[0])) + "]")]
  {
    var text := ShownTagsAsWritten(tags);
    ShownShort(tags);
    ParseSinglePiece(text);
    CleanTagsOfText(text);
  }

  /** As written, two or more tags come back with '[' and the first `repr` as the first tag. */
  lemma ResubmitLong(tags: seq<string>)
    requires |tags| >= 2 && AllPlain(tags)
    ensures var back := CleanTags(Some(TagsText(ShownTagsAsWritten(tags))));
      |back| >= 1 && back[0] == JString("[" + PyRepr(tags[0]))
  {
    var text := ShownTagsAsWritten(tags);
    ShownLong(tags);
    var rest :| text == "[" + PyRepr(tags[0]) + [','] + rest;
    ParseHeadPiece("[" + PyRepr(tags[0]), rest);
    CleanTagsOfText(text);
  }

  /** As written, the first tag read back from the shown text. */
  lemma ResubmitFirst(tags: seq<string>)
    requires AllPlain(tags)
    ensures var back := CleanTags(Some(TagsText(ShownTagsAsWritten(tags))));
      && |back| >= 1
      && (|tags| <= 1 ==> |back| == 1)
      && back[0] == JString("[" + (if |tags| == 0 then "" else PyRepr(tags[0])) + (if |tags| <= 1 then "]" else ""))
  {
    if |tags| <= 1 {
      ResubmitShort(tags);
    } else {
      ResubmitLong(tags);
    }
  }

  /** "[]" is a tag the tag rules accept. */
  lemma BracketsTagPasses()
    ensures ValidateTagsList(JList([JString("[]")])).Ok?
  {
    StripOfStripped("[]");
  }

  /**
   * As written, resubmitting an edit form unchanged does not give the tags
   * back: the first tag read is '[' and the first tag's `repr` (closed by ']'
   * when it is the only one), and a prompt without tags comes back with the
   * tag "[]", which the tag rules accept.
   */
  lemma EditResubmitAsWritten(tags: seq<string>)
    requires AllPlain(tags)
    ensures var back := CleanTags(Some(TagsText(ShownTagsAsWritten(tags))));
      && |back| >= 1
      && (|tags| <= 1 ==> |back| == 1)
      && back[0] == JString("[" + (if |tags| == 0 then "" else PyRepr(tags[0])) + (if |tags| <= 1 then "]" else ""))
      && back != Strings(tags)
    ensures tags == [] ==> CleanTags(Some(TagsText(ShownTagsAsWritten(tags)))) == [JString("[]")]
    ensures ValidateTagsList(JList([JString("[]")])).Ok?
  {
    ResubmitFirst(tags);
    if |tags| > 0 {
      assert Strings(tags)[0] == JString(tags[0]);
    }
    BracketsTagPasses();
  }

  /** As written, a single tag with nothing to escape comes back wrapped: "python" as "['python']". */
  lemma EditResubmitOneTag(t: string)
    requires PlainTag(t) && forall k :: 0 <= k < |t| ==> Verbatim(t[k])
    ensures CleanTags(Some(TagsText(ShownTagsAsWritten([t])))) == [JString("['" + t + "']")]
  {
    ResubmitShort([t]);
    assert "[" + PyRepr(t) + "]" == "['" + t + "']";
  }

  /**
   * As intended, resubmitting the edit form unchanged gives back the
   * instance's tags, as long as each is non-empty, stripped and free of commas.
   */
  lemma EditResubmitKeepsTags(pk: Option<nat>, tags: seq<string>)
    requires Saved(pk)
    requires AllPlain(tags)
    ensures CleanTags(Some(TagsText(ShownTags(pk, tags)))) == Strings(tags)
  {
    ParseJoinedTags(tags);
  }

  /** As intended, the resubmitted text of an unchanged edit form passes the tag rules when the tags do. */
  lemma EditResubmitValidates(pk: Option<nat>, tags: seq<string>)
    requires Saved(pk)
    requires AllPlain(tags)
    requires ValidateTagsList(JList(Strings(tags))).Ok?
    ensures ValidateTagsList(JList(CleanTags(Some(TagsText(ShownTags(pk, tags)))))).Ok?
  {
    EditResubmitKeepsTags(pk, tags);
  }

  // ------------------------------------------------------------ HTMX

  const PROMPT_FORM_MIXIN := Mixin(Some("prompts:validate_field"), map[], DEFAULT_TRIGGER)

  /** The fields `__init__` gives HTMX attributes: all of `Meta.fields` but "is_favorite". */
  const HTMX_FIELDS: seq<string> := ["title", "content", "category", "tags"]

  /**
   * The HTMX step of `PromptForm.__init__`: the four text and choice
   * fields get their attributes; the favourite checkbox is never touched.
   */
  method SetupPromptForm(router: Router, fields: map<string, FormField>) returns (r: map<string, FormField>)
    ensures r.Keys == fields.Keys
    ensures "is_favorite" in fields ==> r["is_favorite"] == fields["is_favorite"]
    ensures forall n :: n in fields && n in HTMX_FIELDS ==> r[n] == WithHtmx(PROMPT_FORM_MIXIN, router, n, fields[n])
    ensures forall n :: n in fields && n !in HTMX_FIELDS ==> r[n] == fields[n]
  {
    r := SetupHtmxAttributes(PROMPT_FORM_MIXIN, router, fields, Some(HTMX_FIELDS));
    assert "is_favorite" !in HTMX_FIELDS;
  }

  /** The title field posts to its validation URL and targets "#error-title" once that URL resolves. */
  lemma TitleAttributes(router: Router)
    requires router.byKwargs("prompts:validate_field", map["field_name" := "title"]) == Some("/prompts/validate/title/")
    ensures GetHtmxAttributes(PROMPT_FORM_MIXIN, router, "title").Keys == HTMX_KEYS
    ensures GetHtmxAttributes(PROMPT_FORM_MIXIN, router, "title")["hx-target"] == "#error-title"
    ensures GetHtmxAttributes(PROMPT_FORM_MIXIN, router, "title")["hx-post"] == "/prompts/validate/title/"
  {
    assert ValidationUrlKwargs(PROMPT_FORM_MIXIN, "title") == map["field_name" := "title"];
  }

  // ---------------------------------------------- defaults meet the rules

  lemma {:induction false} RepeatAvoids(s: string, n: nat, c: char)
    requires c !in s
    ensures c !in Repeat(s, n)
  {
    if n > 0 {
      RepeatAvoids(s, n - 1, c);
    }
  }

  /**
   * The placeholder for a textarea field satisfies the content rules: it
   * is 180 characters long and holds no variables. A form whose instance
   * has no attribute for a textarea field uses it when another field is
   * validated alone; a PromptForm's instance always carries `content`, so
   * there the instance's value is used instead.
   */
  lemma TextareaDefaultPassesContentRules()
    ensures ContentErrors(TEXTAREA_DEFAULT) == []
  {
    TextareaDefaultLength();
    RepeatAvoids("temporary content ", 10, ']');
    NoClosedBracketPasses(TEXTAREA_DEFAULT);
  }
}

=== FILE: prompt_models.dfy ===
/**
 * The `Prompt` model of the prompt library (prompts/models.py): category
 * choices and field defaults, `increment_usage`, the tag conversion in
 * `clean`, and the listing order. The comma-separated tag parsing defined
 * here is the same expression the prompt form's `clean_tags` uses.
 */
module PromptModels {
  import opened Wrappers
  import opened Text
  import opened PromptValidators

  // ------------------------------------------------------------ categories

  /** `CATEGORY_CHOICES`: stored key and displayed label. */
  const CATEGORY_CHOICES: seq<(string, string)> := [
    ("writing", "글쓰기"),
    ("coding", "코딩"),
    ("analysis", "분석"),
    ("creative", "창작"),
    ("business", "비즈니스"),
    ("education", "교육"),
    ("other", "기타")
  ]

  const DEFAULT_CATEGORY := "other"

  function CategoryKeys(): (r: seq<string>)
    ensures |r| == |CATEGORY_CHOICES|
    ensures forall k :: 0 <= k < |r| ==> r[k] == CATEGORY_CHOICES[k].0
  {
    seq(|CATEGORY_CHOICES|, k requires 0 <= k < |CATEGORY_CHOICES| => CATEGORY_CHOICES[k].0)
  }

  /** Seven distinct category keys, and the default is the last of them. */
  lemma DefaultCategoryIsAChoice()
    ensures |CategoryKeys()| == 7
    ensures DEFAULT_CATEGORY in CategoryKeys()
    ensures forall i, j :: 0 <= i < j < 7 ==> CategoryKeys()[i] != CategoryKeys()[j]
  {
    assert CategoryKeys()[6] == "other";
  }

  // ------------------------------------------------------------- prompts

  /** A `Prompt` row. `tags` is the JSON value of the tags field; timestamps are clock readings. */
  datatype Prompt = Prompt(
    pk: Option<nat>,
    title: string,
    content: string,
    category: string,
    tags: Json,
    usageCount: int,
    isFavorite: bool,
    createdAt: int,
    updatedAt: int)

  /** A prompt created with only a title and content: every other field takes its declared default. */
  function NewPrompt(title: string, content: string, now: int): (p: Prompt)
    ensures p.pk.None? && p.title == title && p.content == content
    ensures p.category == "other" && p.tags == JList([])
    ensures p.usageCount == 0 && !p.isFavorite
    ensures p.createdAt == now && p.updatedAt == now
  {
    Prompt(None, title, content, DEFAULT_CATEGORY, JList([]), 0, false, now, now)
  }

  /** `Prompt.__str__`. */
  function PromptText(p: Prompt): string {
    p.title
  }

  /** The prompt table, by primary key. */
  type PromptTable = map<nat, Prompt>

  /** Why `save(update_fields=...)` raises. */
  datatype SaveError =
    | NoPrimaryKey     // ValueError: cannot force an update without a primary key
    | NoRowUpdated     // DatabaseError: the update matched no row

  /** The instance afterwards, the table afterwards, and whether `save` raised. */
  datatype Incremented = Incremented(instance: Prompt, table: PromptTable, result: Result<(), SaveError>)

  /**
   * `increment_usage`: the instance's count goes up by one, then
   * `save(update_fields=["usage_count"])` writes that count, and no other
   * column, into the row with the instance's key. An unsaved instance or a
   * key with no row makes `save` raise, after the instance was changed.
   */
  function IncrementUsage(table: PromptTable, p: Prompt): (r: Incremented)
    ensures r.instance.usageCount == p.usageCount + 1
    ensures r.instance.(usageCount := p.usageCount) == p
    ensures r.result.Ok? <==> p.pk.Some? && p.pk.value in table
    ensures p.pk.None? ==> r.result == Err(NoPrimaryKey) && r.table == table
    ensures p.pk.Some? && p.pk.value !in table ==> r.result == Err(NoRowUpdated) && r.table == table
    ensures r.result.Ok? ==>
      var k := p.pk.value;
      && r.table.Keys == table.Keys
      && r.table[k].usageCount == p.usageCount + 1
      && r.table[k].(usageCount := table[k].usageCount) == table[k]
      && forall j :: j in table && j != k ==> r.table[j] == table[j]
  {
    var instance := p.(usageCount := p.usageCount + 1);
    match p.pk
    case None => Incremented(instance, table, Err(NoPrimaryKey))
    case Some(k) =>
      if k !in table then Incremented(instance, table, Err(NoRowUpdated))
      else Incremented(instance, table[k := table[k].(usageCount := instance.usageCount)], Ok(()))
  }

  /** Calls `increment_usage` on the same instance `n` times. */
  function IncrementTimes(table: PromptTable, p: Prompt, n: nat): Incremented {
    if n == 0 then Incremented(p, table, Ok(()))
    else
      var before := IncrementTimes(table, p, n - 1);
      IncrementUsage(before.table, before.instance)
  }

  /**
   * Incrementing a stored prompt `n` times adds exactly `n` to the instance
   * and writes that count to its row; no other column or row changes, and
   * the rendering stays the same.
   */
  lemma {:induction false} IncrementTimesCounts(table: PromptTable, p: Prompt, n: nat)
    requires p.pk.Some? && p.pk.value in table
    ensures var r := IncrementTimes(table, p, n);
      && r.result.Ok?
      && r.instance.usageCount == p.usageCount + n
      && r.instance.(usageCount := p.usageCount) == p
      && PromptText(r.instance) == PromptText(p)
      && r.table.Keys == table.Keys
      && (n > 0 ==> r.table[p.pk.value].usageCount == p.usageCount + n)
      && r.table[p.pk.value].(usageCount := table[p.pk.value].usageCount) == table[p.pk.value]
      && forall j :: j in table && j != p.pk.value ==> r.table[j] == table[j]
  {
    if n > 0 {
      IncrementTimesCounts(table, p, n - 1);
    }
  }

  /**
   * The count written is the instance's, not the row's plus one: two
   * instances loaded with the same count and each incremented once leave
   * the row one higher, not two.
   */
  lemma StaleInstanceOverwritesCount(table: PromptTable, a: Prompt, b: Prompt)
    requires a.pk.Some? && a.pk.value in table && b.pk == a.pk
    requires a.usageCount == b.usageCount
    ensures var first := IncrementUsage(table, a);
      var second := IncrementUsage(first.table, b);
      second.result.Ok? && second.table[a.pk.value].usageCount == a.usageCount + 1
  {
  }

  // ---------------------------------------------------------------- tags

  /** A tag the comma-separated text can carry unchanged. */
  predicate PlainTag(t: string) {
    t != "" && IsStripped(t) && ',' !in t
  }

  predicate AllPlain(tags: seq<string>) {
    forall k :: 0 <= k < |tags| ==> PlainTag(tags[k])
  }

  /** One piece of the split: its stripped text, or nothing when that is empty. */
  function CleanPiece(p: string): (r: seq<string>)
    ensures |r| <= 1
    ensures |r| == 1 ==> r[0] != "" && IsStripped(r[0]) && (',' !in p ==> ',' !in r[0])
  {
    var t := Strip(p);
    StripKeepsInner(p);
    if t != "" then [t] else []
  }

  /** `[y for x in xs for y in f(x)]`. */
  function FlatMap<T, U>(f: T -> seq<U>, xs: seq<T>): seq<U> {
    if |xs| == 0 then [] else f(xs[0]) + FlatMap(f, xs[1..])
  }

  lemma {:induction false} FlatMapAppend<T, U>(f: T -> seq<U>, xs: seq<T>, ys: seq<T>)
    ensures FlatMap(f, xs + ys) == FlatMap(f, xs) + FlatMap(f, ys)
    decreases |xs|
  {
    if |xs| > 0 {
      FlatMapAppend(f, xs[1..], ys);
      assert (xs + ys)[1..] == xs[1..] + ys;
    } else {
      assert xs + ys == ys;
    }
  }

  /** Strips every piece and drops the ones left empty, in order. */
  function CleanPieces(pieces: seq<string>): seq<string> {
    FlatMap(CleanPiece, pieces)
  }

  lemma CleanPiecesFirst(pieces: seq<string>)
    requires |pieces| > 0
    ensures CleanPieces(pieces) == CleanPiece(pieces[0]) + CleanPieces(pieces[1..])
  {
  }

  /** Whatever `FlatMap` yields, some `f(x)` yielded. */
  lemma {:induction false} FlatMapFrom<T, U>(f: T -> seq<U>, xs: seq<T>, y: U)
    requires y in FlatMap(f, xs)
    ensures exists i :: 0 <= i < |xs| && y in f(xs[i])
    decreases |xs|
  {
    if y !in f(xs[0]) {
      FlatMapFrom(f, xs[1..], y);
      var i :| 0 <= i < |xs[1..]| && y in f(xs[1..][i]);
      assert xs[1..][i] == xs[i + 1];
    }
  }

  lemma CleanPiecesPlain(pieces: seq<string>)
    requires forall j :: 0 <= j < |pieces| ==> ',' !in pieces[j]
    ensures forall k :: 0 <= k < |CleanPieces(pieces)| ==> PlainTag(CleanPieces(pieces)[k])
  {
    var r := CleanPieces(pieces);
    forall k | 0 <= k < |r|
      ensures PlainTag(r[k])
    {
      FlatMapFrom(CleanPiece, pieces, r[k]);
      var i :| 0 <= i < |pieces| && r[k] in CleanPiece(pieces[i]);
    }
  }

  /**
   * `[tag.strip() for tag in s.split(",") if tag.strip()]`: the tags of a
   * comma-separated text. None is empty, contains a comma, or has
   * surrounding whitespace.
   */
  function ParseTagText(s: string): seq<string> {
    CleanPieces(Split(s, ','))
  }

  /** No tag parsed from a text is empty, contains a comma, or has surrounding whitespace. */
  lemma ParsedTagsArePlain(s: string)
    ensures forall k :: 0 <= k < |ParseTagText(s)| ==> PlainTag(ParseTagText(s)[k])
  {
    CleanPiecesPlain(Split(s, ','));
  }

  /** `Prompt.clean`: a text value becomes the list of its tags; any other value is left as it is. */
  function CleanTagsValue(tags: Json): (r: Json)
    ensures !tags.JString? ==> r == tags
    ensures tags.JString? ==>
      && r.JList? && |r.items| == |ParseTagText(tags.s)|
      && forall k :: 0 <= k < |r.items| ==> r.items[k] == JString(ParseTagText(tags.s)[k])
  {
    if tags.JString? then
      var ts := ParseTagText(tags.s);
      JList(seq(|ts|, k requires 0 <= k < |ts| => JString(ts[k])))
    else tags
  }

  function Clean(p: Prompt): (r: Prompt)
    ensures r.(tags := p.tags) == p
  {
    p.(tags := CleanTagsValue(p.tags))
  }

  /** The empty text has no tags, and neither has a text of commas and blanks. */
  lemma ParseTagTextEmpty()
    ensures ParseTagText("") == []
    ensures ParseTagText(" , ,") == []
  {
    var s := " , ,";
    assert Split(s, ',') == [" ", " ", ""] by {
      SplitAtFirstSep(" ", ',', " ,");
      SplitAtFirstSep(" ", ',', "");
      SplitWithoutSep(" ", ',');
    }
    assert Strip(" ") == [] by { StripEmptyIffAllSpace(" "); }
    assert Strip("") == [] by { StripEmptyIffAllSpace(""); }
    assert CleanPieces([" ", " ", ""]) == CleanPiece(" ") + CleanPieces([" ", ""]);
    assert CleanPieces([" ", ""]) == CleanPiece(" ") + CleanPieces([""]);
    assert CleanPieces([""]) == CleanPiece("") + CleanPieces([]);
    assert Split("", ',') == [""];
  }

  lemma CleanPiecesAppend(xs: seq<string>, ys: seq<string>)
    ensures CleanPieces(xs + ys) == CleanPieces(xs) + CleanPieces(ys)
  {
    FlatMapAppend(CleanPiece, xs, ys);
  }

  lemma {:induction false} SplitAppend(a: string, b: string, sep: char)
    ensures Split(a + [sep] + b, sep) == Split(a, sep) + Split(b, sep)
    decreases |a|
  {
    var s := a + [sep] + b;
    if |a| == 0 {
      assert s[0] == sep && s[1..] == b;
    } else {
      assert s[0] == a[0] && s[1..] == a[1..] + [sep] + b;
      SplitAppend(a[1..], b, sep);
    }
  }

  /** Tags parse piece by piece: the tags of "a,b" are those of a followed by those of b. */
  lemma ParseTagTextAppend(a: string, b: string)
    ensures ParseTagText(a + "," + b) == ParseTagText(a) + ParseTagText(b)
  {
    SplitAppend(a, b, ',');
    CleanPiecesAppend(Split(a, ','), Split(b, ','));
  }

  /** Each text after a ", " separator, as `split(",")` sees it: with one leading blank. */
  function Prefixed(xs: seq<string>): (r: seq<string>)
    ensures |r| == |xs|
    ensures forall k :: 0 <= k < |xs| ==> r[k] == " " + xs[k]
  {
    if |xs| == 0 then [] else [" " + xs[0]] + Prefixed(xs[1..])
  }

  lemma JoinPrependFirst(a: string, x: string, rest: seq<string>, sep: string)
    ensures Join([a + x] + rest, sep) == a + Join([x] + rest, sep)
  {
    if |rest| > 0 {
      assert ([a + x] + rest)[1..] == rest;
      assert ([x] + rest)[1..] == rest;
    }
  }

  lemma {:induction false} JoinCommaSpace(tags: seq<string>)
    requires |tags| >= 1
    ensures Join(tags, ", ") == Join([tags[0]] + Prefixed(tags[1..]), [','])
    decreases |tags|
  {
    if |tags| >= 2 {
      JoinCommaSpace(tags[1..]);
      var p := Prefixed(tags[1..]);
      assert p == [" " + tags[1]] + Prefixed(tags[2..]);
      assert tags[1..][1..] == tags[2..];
      JoinPrependFirst(" ", tags[1], Prefixed(tags[2..]), [',']);
      assert ([tags[0]] + p)[1..] == p;
    }
  }

  /** A plain tag after one blank cleans back to itself. */
  lemma CleanBlankPrefixed(t: string)
    requires PlainTag(t)
    ensures CleanPiece(" " + t) == [t]
  {
    StripSkipsLeadingSpace(" ", t);
    StripOfStripped(t);
  }

  lemma {:induction false} CleanPrefixed(xs: seq<string>)
    requires AllPlain(xs)
    ensures CleanPieces(Prefixed(xs)) == xs
    decreases |xs|
  {
    if |xs| > 0 {
      var rest := xs[1..];
      var p := Prefixed(xs);
      AllPlainTail(xs);
      CleanPrefixed(rest);
      CleanPiecesFirst(p);
      PrefixedTail(xs);
      CleanBlankPrefixed(xs[0]);
      assert xs == [xs[0]] + rest;
    }
  }

  lemma AllPlainTail(xs: seq<string>)
    requires |xs| > 0 && AllPlain(xs)
    ensures AllPlain(xs[1..])
  {
    forall k | 0 <= k < |xs[1..]|
      ensures PlainTag(xs[1..][k])
    {
      assert xs[1..][k] == xs[k + 1];
    }
  }

  lemma PrefixedTail(xs: seq<string>)
    requires |xs| > 0
    ensures Prefixed(xs)[0] == " " + xs[0]
    ensures Prefixed(xs)[1..] == Prefixed(xs[1..])
  {
  }

  /**
   * The edit form shows a prompt's tags joined with ", ", and parsing that
   * text gives the same tags back, as long as each is non-empty, already
   * stripped and free of commas.
   */
  lemma ParseJoinedTags(tags: seq<string>)
    requires AllPlain(tags)
    ensures ParseTagText(Join(tags, ", ")) == tags
  {
    if |tags| == 0 {
      assert Split("", ',') == [""];
      assert CleanPieces([""]) == CleanPiece("") + CleanPieces([]);
      assert Strip("") == "" by { StripEmptyIffAllSpace(""); }
    } else {
      ParseJoinedNonEmpty(tags);
    }
  }

  lemma ParseJoinedNonEmpty(tags: seq<string>)
    requires |tags| >= 1
    requires AllPlain(tags)
    ensures ParseTagText(Join(tags, ", ")) == tags
  {
    var text := Join(tags, ", ");
    var pieces := [tags[0]] + Prefixed(tags[1..]);
    SplitJoinedTags(tags);
    assert Split(text, ',') == pieces;
    CleanJoinedPieces(tags);
    assert CleanPieces(pieces) == tags;
    assert ParseTagText(text) == CleanPieces(Split(text, ','));
  }

  /** Splitting the ", "-joined tags on commas gives the first tag, then each later one after a blank. */
  lemma SplitJoinedTags(tags: seq<string>)
    requires |tags| >= 1
    requires AllPlain(tags)
    ensures Split(Join(tags, ", "), ',') == [tags[0]] + Prefixed(tags[1..])
  {
    JoinCommaSpace(tags);
    PiecesCommaFree(tags);
    SplitJoin([tags[0]] + Prefixed(tags[1..]), ',');
  }

  lemma CleanJoinedPieces(tags: seq<string>)
    requires |tags| >= 1
    requires AllPlain(tags)
    ensures CleanPieces([tags[0]] + Prefixed(tags[1..])) == tags
  {
    CleanSingle(tags[0]);
    CleanPiecesAppend([tags[0]], Prefixed(tags[1..]));
    CleanPrefixed(tags[1..]);
    assert tags == [tags[0]] + tags[1..];
  }

  lemma CleanSingle(t: string)
    requires PlainTag(t)
    ensures CleanPieces([t]) == [t]
  {
    StripOfStripped(t);
    CleanPiecesFirst([t]);
    assert [t][1..] == [];
  }

  lemma PiecesCommaFree(tags: seq<string>)
    requires |tags| >= 1
    requires AllPlain(tags)
    ensures forall k :: 0 <= k < |tags| ==> ',' !in ([tags[0]] + Prefixed(tags[1..]))[k]
  {
    var pieces := [tags[0]] + Prefixed(tags[1..]);
    forall k | 0 <= k < |pieces|
      ensures ',' !in pieces[k]
    {
      if k > 0 {
        assert pieces[k] == " " + tags[k];
      }
    }
  }

  // ------------------------------------------------------------- ordering

  /**
   * `ordering = ["-is_favorite", "-usage_count", "-created_at"]`: `a` is
   * listed strictly before `b`.
   */
  predicate ListedBefore(a: Prompt, b: Prompt) {
    || (a.isFavorite && !b.isFavorite)
    || (a.isFavorite == b.isFavorite && a.usageCount > b.usageCount)
    || (a.isFavorite == b.isFavorite && a.usageCount == b.usageCount && a.createdAt > b.createdAt)
  }

  predicate SameRank(a: Prompt, b: Prompt) {
    a.isFavorite == b.isFavorite && a.usageCount == b.usageCount && a.createdAt == b.createdAt
  }

  /** The listing order is a strict order, and any two prompts are ordered unless they tie on every key. */
  lemma ListedBeforeIsStrictTotal(a: Prompt, b: Prompt, c: Prompt)
    ensures !ListedBefore(a, a)
    ensures ListedBefore(a, b) ==> !ListedBefore(b, a)
    ensures ListedBefore(a, b) && ListedBefore(b, c) ==> ListedBefore(a, c)
    ensures ListedBefore(a, b) || ListedBefore(b, a) || SameRank(a, b)
  {
  }

  predicate Listed(ps: seq<Prompt>) {
    forall i, j :: 0 <= i < j < |ps| ==> !ListedBefore(ps[j], ps[i])
  }

  /** Inserts `p` into a listed sequence, ahead of the first prompt it is listed before. */
  function Insert(p: Prompt, ps: seq<Prompt>): (r: seq<Prompt>)
    requires Listed(ps)
    ensures Listed(r)
    ensures multiset(r) == multiset(ps) + multiset{p}
  {
    if |ps| == 0 then [p]
    else if !ListedBefore(ps[0], p) then
      InsertAtFront(p, ps);
      [p] + ps
    else
      var rest := Insert(p, ps[1..]);
      InsertBehind(p, ps, rest);
      [ps[0]] + rest
  }

  lemma InsertAtFront(p: Prompt, ps: seq<Prompt>)
    requires Listed(ps) && |ps| > 0 && !ListedBefore(ps[0], p)
    ensures Listed([p] + ps)
    ensures multiset([p] + ps) == multiset(ps) + multiset{p}
  {
    var r := [p] + ps;
    forall i, j | 0 <= i < j < |r|
      ensures !ListedBefore(r[j], r[i])
    {
      if i == 0 {
        ListedBeforeIsStrictTotal(ps[j - 1], ps[0], p);
      } else {
        assert r[i] == ps[i - 1] && r[j] == ps[j - 1];
      }
    }
  }

  lemma InsertBehind(p: Prompt, ps: seq<Prompt>, rest: seq<Prompt>)
    requires Listed(ps) && |ps| > 0 && ListedBefore(ps[0], p)
    requires Listed(rest) && multiset(rest) == multiset(ps[1..]) + multiset{p}
    ensures Listed([ps[0]] + rest)
    ensures multiset([ps[0]] + rest) == multiset(ps) + multiset{p}
  {
    assert ps == [ps[0]] + ps[1..];
    var r := [ps[0]] + rest;
    forall j | 0 <= j < |rest|
      ensures !ListedBefore(rest[j], ps[0])
    {
      assert rest[j] in multiset(rest);
      if rest[j] == p {
        ListedBeforeIsStrictTotal(ps[0], p, p);
      } else {
        assert rest[j] in multiset(ps[1..]);
        var m :| 0 <= m < |ps[1..]| && ps[1..][m] == rest[j];
        assert ps[m + 1] == rest[j];
      }
    }
    forall i, j | 0 <= i < j < |r|
      ensures !ListedBefore(r[j], r[i])
    {
      if i > 0 {
        assert r[i] == rest[i - 1] && r[j] == rest[j - 1];
      } else {
        assert r[j] == rest[j - 1];
      }
    }
  }

  /** The prompts as the default manager lists them. */
  function Listing(ps: seq<Prompt>): (r: seq<Prompt>)
    ensures Listed(r)
    ensures multiset(r) == multiset(ps)
  {
    if |ps| == 0 then []
    else
      assert ps == [ps[0]] + ps[1..];
      Insert(ps[0], Listing(ps[1..]))
  }

  /** In a listing every favourite comes before every prompt that is not one. */
  lemma FavouritesFirst(ps: seq<Prompt>, i: nat, j: nat)
    requires Listed(ps)
    requires i < |ps| && j < |ps|
    requires ps[i].isFavorite && !ps[j].isFavorite
    ensures i < j
  {
    if j <= i {
      assert ListedBefore(ps[i], ps[j]);
    }
  }
}

=== FILE: prompt_validators.dfy ===
/**
 * The field validators of the prompt library (prompts/validators.py): the
 * title's special-character check, the content's `[variable]` scanner, the
 * tag-list rules, and the validator lists composed for each field.
 */
module PromptValidators {
  import opened Wrappers
  import opened Text

  /** The `ValidationError`s these validators raise, by code. */
  datatype ValidationError =
    | MinLength(limit: nat)
    | MaxLength(limit: nat)
    | InvalidChar(special: char)
    | VariableTooShort(variable: string)
    | VariableTooLong(variable: string)
    | InvalidType
    | TooManyTags(count: nat)
    | InvalidTagType(index: nat, typeName: string)
    | TagTooShort(tag: string)
    | TagTooLong(tag: string)
    | DuplicateTitle
    | Blank

  // ------------------------------------------------- special characters

  /** The characters a title may not contain, in the order they are checked. */
  const SPECIAL_CHARS: seq<char> := ['<', '>', '/', '\\', '|', '*', '?']

  /** The first of `chars`, in list order, that occurs in `value`. */
  function FirstOccurring(chars: seq<char>, value: string): (r: Option<char>)
    ensures r.None? <==> forall k :: 0 <= k < |chars| ==> chars[k] !in value
    ensures r.Some? ==> exists k :: 0 <= k < |chars| && chars[k] == r.value && r.value in value
                          && forall m :: 0 <= m < k ==> chars[m] !in value
  {
    if |chars| == 0 then None
    else if chars[0] in value then Some(chars[0])
    else
      var r := FirstOccurring(chars[1..], value);
      if r.Some? then
        var k :| 0 <= k < |chars[1..]| && chars[1..][k] == r.value && r.value in value
                   && forall m :: 0 <= m < k ==> chars[1..][m] !in value;
        assert chars[k + 1] == r.value;
        r
      else r
  }

  /**
   * `validate_no_special_chars`: rejects a value containing any special
   * character, reporting the first one in the list's order that occurs,
   * which need not be the first one by position in the value.
   */
  function ValidateNoSpecialChars(value: string): (r: Result<(), ValidationError>)
    ensures r.Ok? <==> forall c :: c in SPECIAL_CHARS ==> c !in value
    ensures r.Err? ==> r.error.InvalidChar? && r.error.special in SPECIAL_CHARS && r.error.special in value
  {
    match FirstOccurring(SPECIAL_CHARS, value)
    case None => Ok(())
    case Some(c) => Err(InvalidChar(c))
  }

  /** A title with both '?' and, later, '<' is reported for '<', which comes first in the list. */
  lemma SpecialCharReportedInListOrder()
    ensures ValidateNoSpecialChars("Why? <b>") == Err(InvalidChar('<'))
  {
    assert '<' in "Why? <b>" by { assert "Why? <b>"[5] == '<'; }
  }

  // ---------------------------------------------------- prompt variables

  /** The first index at or after `i` holding `c`. */
  function IndexFrom(s: string, c: char, i: nat): (r: Option<nat>)
    requires i <= |s|
    ensures r.Some? ==> i <= r.value < |s| && s[r.value] == c
    ensures r.Some? ==> forall k :: i <= k < r.value ==> s[k] != c
    ensures r.None? ==> forall k :: i <= k < |s| ==> s[k] != c
    decreases |s| - i
  {
    if i == |s| then None
    else if s[i] == c then Some(i)
    else IndexFrom(s, c, i + 1)
  }

  /** A text the pattern `\[[^\]]*\]` matches: brackets around text without ']'. */
  predicate IsVariable(v: string) {
    && |v| >= 2
    && v[0] == '[' && v[|v| - 1] == ']'
    && forall k :: 0 <= k < |v| - 1 ==> v[k] != ']'
  }

  /**
   * `re.findall(r"\[[^\]]*\]", s[i:])`: scanning left to right, a '[' with a
   * later ']' yields the text up to the first such ']' and the scan resumes
   * after it; a '[' with no later ']' matches nothing and the scan moves on.
   */
  function VariablesFrom(s: string, i: nat): (r: seq<string>)
    requires i <= |s|
    ensures forall k :: 0 <= k < |r| ==> IsVariable(r[k]) && Contains(s, r[k])
    decreases |s| - i
  {
    if i == |s| then []
    else if s[i] != '[' then VariablesFrom(s, i + 1)
    else
      match IndexFrom(s, ']', i + 1)
      case None => VariablesFrom(s, i + 1)
      case Some(j) =>
        var v := s[i..j + 1];
        assert OccursAt(s, v, i);
        [v] + VariablesFrom(s, j + 1)
  }

  function Variables(s: string): seq<string> {
    VariablesFrom(s, 0)
  }

  /** A text without any ']' has no variables. */
  lemma {:induction false} NoVariablesWithoutClosingBracket(s: string, i: nat)
    requires i <= |s|
    requires forall k :: i <= k < |s| ==> s[k] != ']'
    ensures VariablesFrom(s, i) == []
    decreases |s| - i
  {
    if i < |s| {
      NoVariablesWithoutClosingBracket(s, i + 1);
    }
  }

  /** Each variable that is found occurs in the text and has the bracket shape; a closed "[x]" in a text is found. */
  lemma SingleVariableFound(a: string, x: string, b: string)
    requires '[' !in a && ']' !in x && '[' !in b && ']' !in b
    ensures Variables(a + "[" + x + "]" + b) == ["[" + x + "]"]
  {
    var s := a + "[" + x + "]" + b;
    var j := |a| + 1 + |x|;
    BracketedShape(a, x, b);
    SkipsPlainText(s, 0, |a|);
    IndexFromFinds(s, ']', |a| + 1, j);
    VariableAt(s, |a|, j);
    NoVariablesWithoutClosingBracket(s, j + 1);
  }

  /** Where the pieces of `a + "[" + x + "]" + b` sit. */
  lemma BracketedShape(a: string, x: string, b: string)
    ensures var s := a + "[" + x + "]" + b;
      && |s| == |a| + |x| + |b| + 2
      && (forall k :: 0 <= k < |a| ==> s[k] == a[k])
      && s[|a|] == '['
      && (forall k :: |a| < k < |a| + 1 + |x| ==> s[k] == x[k - |a| - 1])
      && s[|a| + 1 + |x|] == ']'
      && (forall k :: |a| + 1 + |x| < k < |s| ==> s[k] == b[k - |a| - 2 - |x|])
      && s[|a|..|a| + 2 + |x|] == "[" + x + "]"
  {
  }

  /** A '[' at `i` whose first later ']' is at `j` yields `s[i..j + 1]`, and the scan resumes after `j`. */
  lemma VariableAt(s: string, i: nat, j: nat)
    requires i < j < |s| && s[i] == '['
    requires IndexFrom(s, ']', i + 1) == Some(j)
    ensures VariablesFrom(s, i) == [s[i..j + 1]] + VariablesFrom(s, j + 1)
  {
  }

  lemma {:induction false} SkipsPlainText(s: string, i: nat, n: nat)
    requires i <= n <= |s|
    requires forall k :: i <= k < n ==> s[k] != '['
    ensures VariablesFrom(s, i) == VariablesFrom(s, n)
    decreases n - i
  {
    if i < n {
      SkipsPlainText(s, i + 1, n);
    }
  }

  lemma {:induction false} IndexFromFinds(s: string, c: char, i: nat, j: nat)
    requires i <= j < |s| && s[j] == c
    requires forall k :: i <= k < j ==> s[k] != c
    ensures IndexFrom(s, c, i) == Some(j)
    decreases j - i
  {
    if i < j {
      IndexFromFinds(s, c, i + 1, j);
    }
  }

  /** `v` ends with `t`. */
  predicate EndsWith(v: string, t: string) {
    |t| <= |v| && v[|v| - |t|..] == t
  }

  /**
   * A scan started at or before a '[' at `p` whose first later ']' is at `q`
   * finds a variable ending with `s[p..q + 1]`: the pair itself, or a longer
   * match that began at an earlier '[' and runs to the same ']'.
   */
  lemma {:induction false} ScanReachesClosedPair(s: string, i: nat, p: nat, q: nat)
    requires i <= p < q < |s| && s[p] == '[' && s[q] == ']'
    requires forall k :: p < k < q ==> s[k] != ']'
    ensures exists k :: 0 <= k < |VariablesFrom(s, i)| && EndsWith(VariablesFrom(s, i)[k], s[p..q + 1])
    decreases p - i, 2
  {
    var r := VariablesFrom(s, i);
    if i == p {
      IndexFromFinds(s, ']', p + 1, q);
      assert r == [s[p..q + 1]] + VariablesFrom(s, q + 1);
      assert EndsWith(r[0], s[p..q + 1]);
    } else if s[i] != '[' {
      ScanReachesClosedPair(s, i + 1, p, q);
      assert r == VariablesFrom(s, i + 1);
    } else {
      ScanPastOpening(s, i, p, q);
    }
  }

  /** The step of `ScanReachesClosedPair` at an earlier '['. */
  lemma {:induction false} ScanPastOpening(s: string, i: nat, p: nat, q: nat)
    requires i < p < q < |s| && s[p] == '[' && s[q] == ']' && s[i] == '['
    requires forall k :: p < k < q ==> s[k] != ']'
    ensures exists k :: 0 <= k < |VariablesFrom(s, i)| && EndsWith(VariablesFrom(s, i)[k], s[p..q + 1])
    decreases p - i, 1
  {
    var j := OpeningMatch(s, i, q);
    if j < p {
      ScanPastEarlierMatch(s, i, j, p, q);
    } else {
      assert j == q;
      MatchRunsToPair(s, i, p, q);
    }
  }

  /** A '[' with a ']' at or after `q` is matched by the first ']' after it. */
  lemma OpeningMatch(s: string, i: nat, q: nat) returns (j: nat)
    requires i < q < |s| && s[i] == '[' && s[q] == ']'
    ensures i < j <= q && s[j] == ']'
    ensures VariablesFrom(s, i) == [s[i..j + 1]] + VariablesFrom(s, j + 1)
  {
    var found := IndexFrom(s, ']', i + 1);
    assert found.Some?;
    j := found.value;
    VariableAt(s, i, j);
  }

  /** A match that closes before `p` leaves the pair to the rest of the scan. */
  lemma ScanPastEarlierMatch(s: string, i: nat, j: nat, p: nat, q: nat)
    requires i < j < p < q < |s| && s[p] == '[' && s[q] == ']'
    requires forall k :: p < k < q ==> s[k] != ']'
    requires VariablesFrom(s, i) == [s[i..j + 1]] + VariablesFrom(s, j + 1)
    ensures exists k :: 0 <= k < |VariablesFrom(s, i)| && EndsWith(VariablesFrom(s, i)[k], s[p..q + 1])
    decreases p - i, 0
  {
    ScanReachesClosedPair(s, j + 1, p, q);
    WitnessBehindHead(s[i..j + 1], VariablesFrom(s, j + 1), s[p..q + 1]);
  }

  /** A variable ending with `t` in `rest` is still there behind one more. */
  lemma WitnessBehindHead(v: string, rest: seq<string>, t: string)
    requires exists k :: 0 <= k < |rest| && EndsWith(rest[k], t)
    ensures exists k :: 0 <= k < |[v] + rest| && EndsWith(([v] + rest)[k], t)
  {
    var k :| 0 <= k < |rest| && EndsWith(rest[k], t);
    assert ([v] + rest)[k + 1] == rest[k];
  }

  /** A match from an earlier '[' that runs to `q` ends with the pair. */
  lemma MatchRunsToPair(s: string, i: nat, p: nat, q: nat)
    requires i < p < q < |s|
    requires VariablesFrom(s, i) == [s[i..q + 1]] + VariablesFrom(s, q + 1)
    ensures exists k :: 0 <= k < |VariablesFrom(s, i)| && EndsWith(VariablesFrom(s, i)[k], s[p..q + 1])
  {
    var r := VariablesFrom(s, i);
    assert r[0][|r[0]| - (q + 1 - p)..] == s[p..q + 1];
    assert EndsWith(r[0], s[p..q + 1]);
  }

  /**
   * The scan misses no closed pair: wherever "[x]" (with no ']' in `x`)
   * occurs, some variable found ends with it.
   */
  lemma VariablesComplete(a: string, x: string, b: string)
    requires ']' !in x
    ensures var vs := Variables(a + "[" + x + "]" + b);
      exists k :: 0 <= k < |vs| && EndsWith(vs[k], "[" + x + "]")
  {
    var s := a + "[" + x + "]" + b;
    var q := |a| + 1 + |x|;
    BracketedShape(a, x, b);
    forall k | |a| < k < q
      ensures s[k] != ']'
    {
      assert s[k] == x[k - |a| - 1];
    }
    ScanReachesClosedPair(s, 0, |a|, q);
    var k :| 0 <= k < |Variables(s)| && EndsWith(Variables(s)[k], s[|a|..q + 1]);
    assert s[|a|..q + 1] == "[" + x + "]";
    assert EndsWith(Variables(s)[k], "[" + x + "]");
  }

  /** Content holding "[x]" with a name of more than 48 characters is refused, wherever its match begins. */
  lemma LongVariableRefused(a: string, x: string, b: string)
    requires ']' !in x && |x| > 48
    ensures ValidatePromptVariables(a + "[" + x + "]" + b).Err?
  {
    VariablesComplete(a, x, b);
  }

  /** Content whose first '[' opens "[]" is refused for that empty variable. */
  lemma EmptyVariableRefused(a: string, b: string)
    requires '[' !in a
    ensures ValidatePromptVariables(a + "[]" + b) == Err(VariableTooShort("[]"))
  {
    var s := a + "[]" + b;
    assert s == a + "[" + "" + "]" + b;
    BracketedShape(a, "", b);
    SkipsPlainText(s, 0, |a|);
    IndexFromFinds(s, ']', |a| + 1, |a| + 1);
    VariableAt(s, |a|, |a| + 1);
    assert Variables(s)[0] == "[]";
  }

  /** The variable rule: at least 3 characters ("[]" is too short), at most 50. */
  function CheckVariable(v: string): (r: Result<(), ValidationError>)
    ensures r.Ok? <==> 3 <= |v| <= 50
    ensures r.Err? ==> r.error == (if |v| < 3 then VariableTooShort(v) else VariableTooLong(v))
  {
    if |v| < 3 then Err(VariableTooShort(v))
    else if |v| > 50 then Err(VariableTooLong(v))
    else Ok(())
  }

  function CheckVariables(vs: seq<string>): (r: Result<(), ValidationError>)
    ensures r.Ok? <==> forall k :: 0 <= k < |vs| ==> 3 <= |vs[k]| <= 50
    ensures r.Err? ==> exists k :: 0 <= k < |vs| && CheckVariable(vs[k]) == Err(r.error)
                          && forall m :: 0 <= m < k ==> CheckVariable(vs[m]).Ok?
  {
    if |vs| == 0 then Ok(())
    else match CheckVariable(vs[0])
      case Err(e) => Err(e)
      case Ok(_) =>
        var r := CheckVariables(vs[1..]);
        if r.Err? then
          var k :| 0 <= k < |vs[1..]| && CheckVariable(vs[1..][k]) == Err(r.error)
                     && forall m :: 0 <= m < k ==> CheckVariable(vs[1..][m]).Ok?;
          assert CheckVariable(vs[k + 1]) == Err(r.error);
          r
        else r
  }

  /**
   * `validate_prompt_variables`: the variables are checked in order and
   * the first one out of bounds is reported; a too-short variable is
   * exactly "[]".
   */
  function ValidatePromptVariables(s: string): (r: Result<(), ValidationError>)
    ensures r.Ok? <==> forall v :: v in Variables(s) ==> 3 <= |v| <= 50
    ensures r.Err? && r.error.VariableTooShort? ==> r.error.variable == "[]" && r.error.variable in Variables(s)
    ensures r.Err? && r.error.VariableTooLong? ==> |r.error.variable| > 50 && r.error.variable in Variables(s)
    ensures r.Err? ==> r.error.VariableTooShort? || r.error.VariableTooLong?
  {
    CheckVariablesErrorShape(Variables(s));
    CheckVariables(Variables(s))
  }

  /** The error a list of variables raises names one of them, and a too-short one is "[]". */
  lemma CheckVariablesErrorShape(vs: seq<string>)
    requires forall k :: 0 <= k < |vs| ==> IsVariable(vs[k])
    ensures var r := CheckVariables(vs);
      r.Err? ==>
        && r.error.variable in vs
        && ((r.error.VariableTooShort? && r.error.variable == "[]")
            || (r.error.VariableTooLong? && |r.error.variable| > 50))
  {
    var r := CheckVariables(vs);
    if r.Err? {
      var k :| 0 <= k < |vs| && CheckVariable(vs[k]) == Err(r.error)
                 && forall m :: 0 <= m < k ==> CheckVariable(vs[m]).Ok?;
      var v := vs[k];
      assert v in vs;
      if |v| < 3 {
        ShortVariableIsEmpty(v);
      }
    }
  }

  /** The only variable shorter than 3 characters is "[]". */
  lemma ShortVariableIsEmpty(v: string)
    requires IsVariable(v) && |v| < 3
    ensures v == "[]"
  {
    assert v == [v[0], v[1]];
  }

  /** Text with no closed bracket passes the variable check. */
  lemma NoClosedBracketPasses(s: string)
    requires ']' !in s
    ensures ValidatePromptVariables(s).Ok?
  {
    NoVariablesWithoutClosingBracket(s, 0);
  }

  // -------------------------------------------------------------- tags

  /** A JSONField value. Numbers are kept integral: no floats are modelled. */
  datatype Json =
    | JNull
    | JBool(b: bool)
    | JNumber(n: int)
    | JString(s: string)
    | JList(items: seq<Json>)
    | JObject(entries: seq<(string, Json)>)

  /** `type(x).__name__` of the Python value a JSON value loads as. */
  function TypeName(j: Json): string {
    match j
    case JNull => "NoneType"
    case JBool(_) => "bool"
    case JNumber(_) => "int"
    case JString(_) => "str"
    case JList(_) => "list"
    case JObject(_) => "dict"
  }

  const MAX_TAGS := 10
  const MIN_TAG_LENGTH := 2
  const MAX_TAG_LENGTH := 20

  /** A tag that passes: a string whose stripped length is 2 to 20. */
  predicate GoodTag(j: Json) {
    j.JString? && MIN_TAG_LENGTH <= |Strip(j.s)| <= MAX_TAG_LENGTH
  }

  /** The error a tag at index `i` raises, if any: type first, then the lower bound, then the upper one. */
  function CheckTag(j: Json, i: nat): (r: Result<(), ValidationError>)
    ensures r.Ok? <==> GoodTag(j)
    ensures !j.JString? ==> r == Err(InvalidTagType(i + 1, TypeName(j)))
    ensures j.JString? && |Strip(j.s)| < 2 ==> r == Err(TagTooShort(Strip(j.s)))
    ensures j.JString? && |Strip(j.s)| > 20 ==> r == Err(TagTooLong(Strip(j.s)))
  {
    if !j.JString? then Err(InvalidTagType(i + 1, TypeName(j)))
    else
      var tag := Strip(j.s);
      if |tag| < MIN_TAG_LENGTH then Err(TagTooShort(tag))
      else if |tag| > MAX_TAG_LENGTH then Err(TagTooLong(tag))
      else Ok(())
  }

  /** `items[k]` is the first bad tag from index `i` on. */
  predicate FirstBadTag(items: seq<Json>, i: nat, k: nat)
    requires i <= k < |items|
  {
    !GoodTag(items[k]) && forall m :: i <= m < k ==> GoodTag(items[m])
  }

  /** Every tag from index `i` on passes. */
  predicate GoodFrom(items: seq<Json>, i: nat) {
    forall k :: i <= k < |items| ==> GoodTag(items[k])
  }

  /** `e` is the error of the first bad tag from index `i` on. */
  predicate ReportsFirstBad(items: seq<Json>, i: nat, e: ValidationError) {
    exists k :: i <= k < |items| && FirstBadTag(items, i, k) && CheckTag(items[k], k) == Err(e)
  }

  /** The tags from index `i` on, in order; the first bad one is reported. */
  function CheckTagsFrom(items: seq<Json>, i: nat): (r: Result<(), ValidationError>)
    requires i <= |items|
    ensures r.Ok? <==> GoodFrom(items, i)
    ensures r.Err? ==> ReportsFirstBad(items, i, r.error)
    decreases |items| - i
  {
    if i == |items| then Ok(())
    else
      match CheckTag(items[i], i)
      case Err(e) =>
        assert FirstBadTag(items, i, i);
        Err(e)
      case Ok(_) =>
        var r := CheckTagsFrom(items, i + 1);
        GoodStep(items, i, r);
        r
  }

  /** A good tag at `i` passes the verdict on the tags after it through unchanged. */
  lemma GoodStep(items: seq<Json>, i: nat, r: Result<(), ValidationError>)
    requires i < |items| && GoodTag(items[i])
    requires r.Ok? <==> GoodFrom(items, i + 1)
    requires r.Err? ==> ReportsFirstBad(items, i + 1, r.error)
    ensures r.Ok? <==> GoodFrom(items, i)
    ensures r.Err? ==> ReportsFirstBad(items, i, r.error)
  {
    if r.Err? {
      var k :| i + 1 <= k < |items| && FirstBadTag(items, i + 1, k) && CheckTag(items[k], k) == Err(r.error);
      assert FirstBadTag(items, i, k);
    }
  }

  /**
   * `validate_tags_list`: null passes; anything but a list is the wrong
   * type; more than 10 tags is rejected before any tag is looked at;
   * otherwise every tag must be a string whose stripped length is 2 to 20.
   */
  function ValidateTagsList(value: Json): (r: Result<(), ValidationError>)
    ensures value.JNull? ==> r.Ok?
    ensures !value.JNull? && !value.JList? ==> r == Err(InvalidType)
    ensures value.JList? && |value.items| > 10 ==> r == Err(TooManyTags(|value.items|))
    ensures value.JList? ==>
      (r.Ok? <==> |value.items| <= 10 && forall k :: 0 <= k < |value.items| ==> GoodTag(value.items[k]))
  {
    match value
    case JNull => Ok(())
    case JList(items) =>
      if |items| > MAX_TAGS then Err(TooManyTags(|items|))
      else CheckTagsFrom(items, 0)
    case _ => Err(InvalidType)
  }

  /** Ten good tags pass and an eleventh is refused whatever it is. */
  lemma TagCountBoundary(tags: seq<Json>, extra: Json)
    requires |tags| == 10
    requires forall k :: 0 <= k < 10 ==> GoodTag(tags[k])
    ensures ValidateTagsList(JList(tags)).Ok?
    ensures ValidateTagsList(JList(tags + [extra])) == Err(TooManyTags(11))
  {
  }

  // ------------------------------------------------------ unique title

  /**
   * `validate_unique_title`, with the titles already stored passed in: a
   * title is refused exactly when some stored prompt has it.
   */
  function ValidateUniqueTitle(stored: seq<string>, value: string): (r: Result<(), ValidationError>)
    ensures r.Ok? <==> forall k :: 0 <= k < |stored| ==> stored[k] != value
    ensures r.Err? ==> r.error == DuplicateTitle
  {
    if value in stored then Err(DuplicateTitle) else Ok(())
  }

  /**
   * Used as a field validator, the check refuses a saved prompt's own
   * title, so an edit that keeps the title fails; a title used nowhere
   * else passes once the prompt's own row is left out.
   */
  lemma UniqueTitleRefusesOwnTitle(before: seq<string>, own: string, after: seq<string>)
    requires own !in before && own !in after
    ensures ValidateUniqueTitle(before + [own] + after, own) == Err(DuplicateTitle)
    ensures ValidateUniqueTitle(before + after, own).Ok?
  {
    assert (before + [own] + after)[|before|] == own;
  }

  // ---------------------------------------------------- composed lists

  const TITLE_MIN := 5
  const TITLE_MAX := 200
  const CONTENT_MIN := 50

  function ErrorOf(r: Result<(), ValidationError>): seq<ValidationError> {
    if r.Err? then [r.error] else []
  }

  /**
   * The errors a model field's `clean` collects for the title. The title is
   * not `blank=True`, so "" gets Django's blank error alone and no validator
   * runs on it. Any other title gets the three validators' errors in list
   * order, then the one `CharField(max_length=200)` appends of its own, with
   * the same limit and another message.
   */
  function TitleErrors(title: string): (r: seq<ValidationError>)
    ensures r == [] <==> TITLE_MIN <= |title| <= TITLE_MAX && forall c :: c in SPECIAL_CHARS ==> c !in title
    ensures title == "" <==> r == [Blank]
    ensures Blank in r <==> title == ""
    ensures MinLength(5) in r <==> 0 < |title| < 5
    ensures MaxLength(200) in r <==> |title| > 200
    ensures |title| > TITLE_MAX ==> |r| >= 2 && r[0] == MaxLength(TITLE_MAX) && r[|r| - 1] == MaxLength(TITLE_MAX)
  {
    if title == "" then [Blank]
    else
      var errors :=
        (if |title| < TITLE_MIN then [MinLength(TITLE_MIN)] else [])
        + (if |title| > TITLE_MAX then [MaxLength(TITLE_MAX)] else [])
        + ErrorOf(ValidateNoSpecialChars(title))
        + (if |title| > TITLE_MAX then [MaxLength(TITLE_MAX)] else []);
      assert Blank !in errors;
      errors
  }

  /**
   * The errors collected for the content: "" gets the blank error alone;
   * other content gets at least 50 characters, then the variable check.
   */
  function ContentErrors(content: string): (r: seq<ValidationError>)
    ensures r == [] <==> |content| >= CONTENT_MIN && forall v :: v in Variables(content) ==> 3 <= |v| <= 50
    ensures content == "" <==> r == [Blank]
    ensures Blank in r <==> content == ""
    ensures MinLength(50) in r <==> 0 < |content| < 50
  {
    if content == "" then [Blank]
    else
      var errors :=
        (if |content| < CONTENT_MIN then [MinLength(CONTENT_MIN)] else [])
        + ErrorOf(ValidatePromptVariables(content));
      assert Blank !in errors;
      errors
  }

  /** Django's empty values (`None`, "", `[]`, `{}`) as JSON values. */
  predicate EmptyValue(j: Json) {
    j == JNull || j == JString("") || j == JList([]) || j == JObject([])
  }

  /**
   * The errors collected for the tags. The field is `blank=True`, so an
   * empty value is skipped before any validator runs; any other value gets
   * the tags-list error, if there is one.
   */
  function TagsErrors(tags: Json): (r: seq<ValidationError>)
    ensures r == [] <==> EmptyValue(tags) || ValidateTagsList(tags).Ok?
    ensures r != [] ==> r == [ValidateTagsList(tags).error]
  {
    if EmptyValue(tags) then [] else ErrorOf(ValidateTagsList(tags))
  }

  /** The empty object and the empty text pass only because the empty-value skip comes first. */
  lemma EmptyTagsSkipped()
    ensures TagsErrors(JObject([])) == [] && ValidateTagsList(JObject([])) == Err(InvalidType)
    ensures TagsErrors(JString("")) == [] && ValidateTagsList(JString("")) == Err(InvalidType)
  {
  }
}

=== FILE: roleplay_models.dfy ===
/**
 * The two database tables of the roleplay app (roleplay/models.py): chat
 * sessions and chat messages, their field defaults, their `__str__`
 * renderings, the message role choices and the default orderings.
 */
module RoleplayModels {
  import opened Wrappers
  import opened Text
  import Decimal
  import opened ChatCore

  // --------------------------------------------------------- ChatSession

  const DEFAULT_MODEL := "gpt-4o"
  const DEFAULT_TEMPERATURE: real := 1.0
  const DEFAULT_MAX_TOKENS := 1000

  /** A `ChatSession` row. Timestamps are clock readings. */
  datatype ChatSessionRow = ChatSessionRow(
    pk: nat,
    user: Option<nat>,
    title: string,
    instruction: string,
    createdAt: int,
    updatedAt: int,
    isActive: bool,
    model: string,
    temperature: real,
    maxTokens: int)

  /**
   * The row `ChatSession.objects.create(...)` stores when only the user and
   * the instruction are given: every other field takes its declared default.
   */
  function NewSessionRow(pk: nat, user: Option<nat>, instruction: string, now: int): (r: ChatSessionRow)
    ensures r.pk == pk && r.user == user && r.instruction == instruction
    ensures r.title == "" && r.isActive
    ensures r.model == "gpt-4o" && r.temperature == 1.0 && r.maxTokens == 1000
    ensures r.createdAt == now && r.updatedAt == now
  {
    ChatSessionRow(pk, user, "", instruction, now, now, true, DEFAULT_MODEL, DEFAULT_TEMPERATURE, DEFAULT_MAX_TOKENS)
  }

  /** `ChatSession.__str__`: the title, or "Session #<id>" when the title is empty. */
  function SessionText(title: string, id: Option<int>): string {
    if title != "" then title
    else "Session #" + (match id case Some(n) => Decimal.IntToString(n) case None => "None")
  }

  /**
   * A session is shown by its title when it has one; an untitled session is
   * shown as "Session #" followed by a number that reads back as its id.
   */
  lemma SessionTextNamesSession(title: string, id: int)
    ensures title != "" ==> SessionText(title, Some(id)) == title
    ensures title == "" ==>
      && StartsWith(SessionText(title, Some(id)), "Session #")
      && Decimal.ParseInt(SessionText(title, Some(id))[9..]) == Some(id)
  {
    if title == "" {
      var s := SessionText(title, Some(id));
      assert s[9..] == Decimal.IntToString(id);
      Decimal.ParseIntToString(id);
    }
  }

  // --------------------------------------------------------- ChatMessage

  /** `ChatMessage.RoleChoices` values: the stored text of each role. */
  function RoleValue(r: Role): string {
    RoleName(r)
  }

  /** `ChatMessage.RoleChoices` labels. */
  function RoleLabel(r: Role): string {
    match r
    case User => "User"
    case Assistant => "Assistant"
    case System => "System"
  }

  /** The choice a stored role text denotes, if any. */
  function RoleFromValue(s: string): (r: Option<Role>)
    ensures r.Some? ==> RoleValue(r.value) == s
  {
    if s == "user" then Some(User)
    else if s == "assistant" then Some(Assistant)
    else if s == "system" then Some(System)
    else None
  }

  /** The role choices are exactly "user", "assistant" and "system", one per role. */
  lemma RoleChoicesExact(s: string, r: Role)
    ensures RoleFromValue(s).Some? <==> s == "user" || s == "assistant" || s == "system"
    ensures RoleFromValue(RoleValue(r)) == Some(r)
  {
  }

  /** A `ChatMessage` row. */
  datatype ChatMessageRow = ChatMessageRow(pk: nat, session: nat, role: Role, content: string, createdAt: int)

  const PREVIEW_LENGTH := 50

  /** `ChatMessage.__str__`: role, ": ", and the content cut to 50 characters plus "..." when longer. */
  function MessageText(role: Role, content: string): (r: string)
    ensures StartsWith(r, RoleValue(role) + ": ")
    ensures var body := r[|RoleValue(role)| + 2..];
      && (|content| <= 50 ==> body == content)
      && (|content| > 50 ==> |body| == 53 && StartsWith(content, body[..50]) && body[50..] == "...")
  {
    var preview := if |content| > PREVIEW_LENGTH then content[..PREVIEW_LENGTH] + "..." else content;
    var r := RoleValue(role) + ": " + preview;
    assert r[|RoleValue(role)| + 2..] == preview;
    r
  }

  // ------------------------------------------------------------ ordering

  predicate PkAscending(rows: seq<ChatMessageRow>) {
    forall i, j :: 0 <= i < j < |rows| ==> rows[i].pk < rows[j].pk
  }

  predicate SessionPkAscending(rows: seq<ChatSessionRow>) {
    forall i, j :: 0 <= i < j < |rows| ==> rows[i].pk < rows[j].pk
  }

  predicate SessionPkDescending(rows: seq<ChatSessionRow>) {
    forall i, j :: 0 <= i < j < |rows| ==> rows[i].pk > rows[j].pk
  }

  function Reverse<T>(xs: seq<T>): (r: seq<T>)
    ensures |r| == |xs|
    ensures forall i :: 0 <= i < |xs| ==> r[i] == xs[|xs| - 1 - i]
  {
    if |xs| == 0 then [] else [xs[|xs| - 1]] + Reverse(xs[..|xs| - 1])
  }

  /**
   * `ChatSession.objects.all()` under `ordering = ["-pk"]`: the table, kept in
   * insertion (ascending pk) order, listed newest first.
   */
  function SessionListing(table: seq<ChatSessionRow>): (r: seq<ChatSessionRow>)
    requires SessionPkAscending(table)
    ensures SessionPkDescending(r)
    ensures multiset(r) == multiset(table)
  {
    var r := Reverse(table);
    assert multiset(r) == multiset(table) by {
      ReverseMultiset(table);
    }
    r
  }

  lemma {:induction false} ReverseMultiset<T>(xs: seq<T>)
    ensures multiset(Reverse(xs)) == multiset(xs)
    decreases |xs|
  {
    if |xs| > 0 {
      ReverseMultiset(xs[..|xs| - 1]);
      assert xs == xs[..|xs| - 1] + [xs[|xs| - 1]];
    }
  }
}

=== FILE: streaming_html.dfy ===
/**
 * The pure parts of the `streaming-html` HTMX extension
 * (roleplay/static/htmx-ext/streaming-html.js): which method and URL an
 * element requests, the GET URL with its query, the fetch options, the
 * per-element abort controllers, and the events and swaps one streamed
 * response produces. The fetch itself, the stream reader and the DOM are
 * inputs: a response is given as its decoded chunks.
 */
module StreamingHtml {
  import opened Wrappers
  import opened Text
  import Decimal

  const EXTENSION_NAME: string := "streaming-html"
  const HTTP_METHODS: seq<string> := ["get", "post", "put", "delete", "patch"]

  /** An element: its `action` property (absent on non-forms) and its attributes. */
  datatype Element = Element(id: nat, action: Option<string>, attributes: map<string, string>)

  predicate HasAttribute(e: Element, name: string) {
    name in e.attributes
  }

  /** `getAttribute(name)` is truthy: present and non-empty. */
  predicate AttributeSet(e: Element, name: string) {
    name in e.attributes && e.attributes[name] != ""
  }

  /** `hx-<method>` names a URL. */
  predicate MethodSet(e: Element, m: string) {
    AttributeSet(e, "hx-" + m)
  }

  datatype Target = Target(verb: string, url: string)

  /** The loop over `methods`: the first whose attribute is set. */
  function FirstMethodFrom(e: Element, methods: seq<string>): (r: Option<Target>)
    ensures r.None? <==> forall i :: 0 <= i < |methods| ==> !MethodSet(e, methods[i])
    ensures r.Some? ==> exists i :: 0 <= i < |methods| && FirstSetAt(e, methods, i) && r.value == Target(methods[i], e.attributes["hx-" + methods[i]])
  {
    if |methods| == 0 then None
    else if MethodSet(e, methods[0]) then
      assert FirstSetAt(e, methods, 0);
      Some(Target(methods[0], e.attributes["hx-" + methods[0]]))
    else
      var r := FirstMethodFrom(e, methods[1..]);
      if r.Some? then
        var i :| 0 <= i < |methods[1..]| && FirstSetAt(e, methods[1..], i) && r.value == Target(methods[1..][i], e.attributes["hx-" + methods[1..][i]]);
        assert FirstSetAt(e, methods, i + 1);
        r
      else r
  }

  /** `methods[i]` is set and no method before it is. */
  predicate FirstSetAt(e: Element, methods: seq<string>, i: nat)
    requires i < |methods|
  {
    MethodSet(e, methods[i]) && forall j :: 0 <= j < i ==> !MethodSet(e, methods[j])
  }

  /**
   * `extractHttpMethodAndUrl`: the first of get, post, put, delete, patch
   * whose `hx-*` attribute is non-empty, with that URL; otherwise a GET of
   * the element's action, or of "" when it has none.
   */
  function ExtractHttpMethodAndUrl(e: Element): (r: Target)
    ensures r.verb in HTTP_METHODS
    ensures (forall i :: 0 <= i < |HTTP_METHODS| ==> !MethodSet(e, HTTP_METHODS[i])) ==> r == Target("get", e.action.GetOr(""))
    ensures forall i :: 0 <= i < |HTTP_METHODS| && FirstSetAt(e, HTTP_METHODS, i) ==>
      r == Target(HTTP_METHODS[i], e.attributes["hx-" + HTTP_METHODS[i]])
  {
    match FirstMethodFrom(e, HTTP_METHODS)
    case None => Target("get", e.action.GetOr(""))
    case Some(t) =>
      FirstSetUnique(e, HTTP_METHODS);
      t
  }

  lemma FirstSetUnique(e: Element, methods: seq<string>)
    ensures forall i, j :: 0 <= i < |methods| && 0 <= j < |methods| && FirstSetAt(e, methods, i) && FirstSetAt(e, methods, j) ==> i == j
  {
  }

  /** A form with both `hx-post` and `hx-get` set is fetched with GET, since get comes first. */
  lemma GetWinsOverPost(e: Element)
    requires AttributeSet(e, "hx-get") && AttributeSet(e, "hx-post")
    ensures ExtractHttpMethodAndUrl(e) == Target("get", e.attributes["hx-get"])
  {
    assert "hx-" + "get" == "hx-get";
    assert FirstSetAt(e, HTTP_METHODS, 0);
  }

  /** An empty `hx-get` does not count: the next set method is used. */
  lemma EmptyAttributeSkipped(e: Element, url: string)
    requires e.attributes == map["hx-get" := "", "hx-post" := url] && url != ""
    ensures ExtractHttpMethodAndUrl(e) == Target("post", url)
  {
    assert "hx-" + "get" == "hx-get" && "hx-" + "post" == "hx-post";
    assert FirstSetAt(e, HTTP_METHODS, 1);
  }

  // ------------------------------------------------------------- GET URL

  /**
   * `buildGetUrl`: the URL, "&" when it already has a query and "?"
   * otherwise, then the encoded form data.
   */
  function BuildGetUrl(url: string, query: string): (r: string)
    ensures |r| == |url| + 1 + |query|
    ensures r[..|url|] == url && r[|url| + 1..] == query
    ensures r[|url|] == if '?' in url then '&' else '?'
  {
    url + [if '?' in url then '&' else '?'] + query
  }

  /** The built URL always has a query part. */
  lemma BuildGetUrlHasQuery(url: string, query: string)
    ensures '?' in BuildGetUrl(url, query)
  {
    var r := BuildGetUrl(url, query);
    if '?' !in url {
      assert r[|url|] == '?';
    } else {
      var k :| 0 <= k < |url| && url[k] == '?';
      assert r[k] == url[k];
    }
  }

  /** Without a query in the URL, cutting the result at its first "?" gives back the URL and the query. */
  lemma BuildGetUrlRoundTrip(url: string, query: string)
    requires '?' !in url
    ensures CutAt(BuildGetUrl(url, query), '?') == Some((url, query))
  {
    CutAtFirst(url, '?', query);
  }

  /** With a query already in the URL, the form data extends that query after one "&". */
  lemma BuildGetUrlExtendsQuery(path: string, existing: string, query: string)
    requires '?' !in path
    ensures CutAt(BuildGetUrl(path + "?" + existing, query), '?') == Some((path, existing + "&" + query))
  {
    var url := path + "?" + existing;
    assert url[|path|] == '?';
    assert BuildGetUrl(url, query) == path + ['?'] + (existing + "&" + query);
    CutAtFirst(path, '?', existing + "&" + query);
  }

  /** The URL fetched: GET carries the form data in the query; other methods use the URL as it is. */
  function RequestUrl(verb: string, baseUrl: string, query: string): (r: string)
    ensures verb == "get" ==> StartsWith(r, baseUrl) && |r| == |baseUrl| + 1 + |query|
    ensures verb != "get" ==> r == baseUrl
  {
    if verb == "get" then BuildGetUrl(baseUrl, query) else baseUrl
  }

  // --------------------------------------------------------- fetch options

  const DEFAULT_HEADERS: map<string, string> := map["HX-Request" := "true"]

  /** The form's entries, as `FormData` holds them. */
  type FormData = seq<(string, string)>

  datatype FetchOptions = FetchOptions(verb: string, headers: map<string, string>, signal: nat, body: Option<FormData>)

  /** `buildFetchOptions`: a copy of the default headers, the signal, and the form data as body unless GET. */
  function BuildFetchOptions(verb: string, formData: FormData, signal: nat): (r: FetchOptions)
    ensures r.verb == verb && r.signal == signal
    ensures "HX-Request" in r.headers && r.headers["HX-Request"] == "true"
    ensures r.headers == DEFAULT_HEADERS
    ensures r.body.Some? <==> verb != "get"
    ensures r.body.Some? ==> r.body.value == formData
  {
    FetchOptions(verb, DEFAULT_HEADERS, signal, if verb != "get" then Some(formData) else None)
  }

  /** The form data travels once: in the query of a GET, in the body of anything else. */
  lemma FormDataSentOnce(verb: string, baseUrl: string, query: string, formData: FormData, signal: nat)
    ensures var url := RequestUrl(verb, baseUrl, query);
      var options := BuildFetchOptions(verb, formData, signal);
      && (verb == "get" ==> options.body.None? && url[|baseUrl| + 1..] == query)
      && (verb != "get" ==> options.body == Some(formData) && url == baseUrl)
  {
  }

  // ------------------------------------------------------ active requests

  /**
   * The `activeRequests` map from element to abort controller, with the
   * controllers aborted so far; controllers are numbered as created.
   */
  datatype Registry = Registry(active: map<nat, nat>, aborted: set<nat>, next: nat)

  /** Every registered controller was created, is still live, and belongs to one element. */
  predicate Valid(reg: Registry) {
    && (forall c :: c in reg.aborted ==> c < reg.next)
    && (forall el :: el in reg.active ==> reg.active[el] < reg.next && reg.active[el] !in reg.aborted)
    && (forall el1, el2 :: el1 in reg.active && el2 in reg.active && el1 != el2 ==> reg.active[el1] != reg.active[el2])
  }

  /**
   * The start of `startStreaming`: an existing controller for the element
   * is aborted, then a fresh one is registered in its place.
   */
  function Register(reg: Registry, el: nat): (r: (Registry, nat))
    requires Valid(reg)
    ensures Valid(r.0)
    ensures r.0.active.Keys == reg.active.Keys + {el}
    ensures r.0.active[el] == r.1 && r.1 !in reg.aborted
    ensures forall other :: other in reg.active ==> reg.active[other] != r.1
    ensures el in reg.active ==> r.0.aborted == reg.aborted + {reg.active[el]}
    ensures el !in reg.active ==> r.0.aborted == reg.aborted
    ensures forall other :: other in reg.active && other != el ==> r.0.active[other] == reg.active[other]
  {
    var aborted := if el in reg.active then reg.aborted + {reg.active[el]} else reg.aborted;
    var c := reg.next;
    RegisterKeepsValid(reg, el);
    (Registry(reg.active[el := c], aborted, reg.next + 1), c)
  }

  lemma RegisterKeepsValid(reg: Registry, el: nat)
    requires Valid(reg)
    ensures var aborted := if el in reg.active then reg.aborted + {reg.active[el]} else reg.aborted;
      Valid(Registry(reg.active[el := reg.next], aborted, reg.next + 1))
  {
    var aborted := if el in reg.active then reg.aborted + {reg.active[el]} else reg.aborted;
    var active := reg.active[el := reg.next];
    forall other | other in active
      ensures active[other] < reg.next + 1 && active[other] !in aborted
    {
      if other != el && el in reg.active {
        assert reg.active[other] != reg.active[el];
      }
    }
  }

  /** `cleanupRequest`: the element's entry is removed, whichever controller it holds. */
  function Cleanup(reg: Registry, el: nat): (r: Registry)
    requires Valid(reg)
    ensures Valid(r)
    ensures r.active.Keys == reg.active.Keys - {el}
    ensures forall other :: other in r.active ==> r.active[other] == reg.active[other]
    ensures r.aborted == reg.aborted
  {
    reg.(active := map other | other in reg.active && other != el :: reg.active[other])
  }

  /**
   * `cleanupRequest` as intended: a request drops the element's entry only
   * while the entry still holds its own controller, so a request that was
   * superseded leaves its successor registered.
   */
  function CleanupOwn(reg: Registry, el: nat, c: nat): (r: Registry)
    requires Valid(reg)
    ensures Valid(r)
    ensures r.aborted == reg.aborted
    ensures forall other :: other in r.active ==> other in reg.active && r.active[other] == reg.active[other]
    ensures el in r.active <==> el in reg.active && reg.active[el] != c
    ensures forall other :: other in reg.active && other != el ==> other in r.active
  {
    if el in reg.active && reg.active[el] == c then Cleanup(reg, el) else reg
  }

  /**
   * Overlapping requests with the cleanup as written: the first request's
   * `finally` runs after the second one registered and removes the second
   * one's entry, so a third request on the element no longer aborts the
   * second, which is still streaming.
   */
  lemma StaleCleanupAsWritten(reg: Registry, el: nat)
    requires Valid(reg)
    ensures var (r1, c1) := Register(reg, el);
      var (r2, c2) := Register(r1, el);
      var r3 := Cleanup(r2, el);
      var (r4, c3) := Register(r3, el);
      c1 in r4.aborted && c2 !in r4.aborted && c3 != c2 && r4.active[el] == c3
  {
  }

  /**
   * The same interleaving with the intended cleanup: the superseded first
   * request leaves the second one registered, and the third aborts it.
   */
  lemma StaleCleanupCorrected(reg: Registry, el: nat)
    requires Valid(reg)
    ensures var (r1, c1) := Register(reg, el);
      var (r2, c2) := Register(r1, el);
      var r3 := CleanupOwn(r2, el, c1);
      var (r4, c3) := Register(r3, el);
      r3 == r2 && c1 in r4.aborted && c2 in r4.aborted && r4.active[el] == c3
  {
  }

  /** Starting a second request on an element aborts the first one's controller. */
  lemma SecondRequestAbortsFirst(reg: Registry, el: nat)
    requires Valid(reg)
    ensures var (r1, c1) := Register(reg, el);
      var (r2, c2) := Register(r1, el);
      c1 in r2.aborted && c2 !in r2.aborted && c1 != c2 && r2.active[el] == c2
  {
  }

  // --------------------------------------------------------------- stream

  datatype Detail = NoDetail | ChunkCount(count: nat) | TotalChunks(total: nat) | ErrorMessage(message: string)

  /** What the extension does to the page: a swap of decoded HTML, or an `htmx.trigger` on the element. */
  datatype Action = Swap(html: string) | Trigger(name: string, detail: Detail)

  /** The reading loop over a response body already decoded into chunks. */
  method StreamChunks(e: Element, chunks: seq<string>) returns (actions: seq<Action>)
    ensures var done := if HasAttribute(e, "hx-streaming-complete-event") then 1 else 0;
      |actions| == 2 * |chunks| + done
    ensures forall k :: 0 <= k < |chunks| ==> actions[2 * k] == Swap(chunks[k]) && actions[2 * k + 1] == Trigger("chunk", ChunkCount(k))
    ensures HasAttribute(e, "hx-streaming-complete-event") ==>
      actions[2 * |chunks|] == Trigger("streaming-complete", TotalChunks(|chunks|))
  {
    var chunkCount: nat := 0;
    var i := 0;
    actions := [];
    while i < |chunks|
      invariant 0 <= i <= |chunks| && chunkCount == i
      invariant |actions| == 2 * i
      invariant forall k :: 0 <= k < i ==> actions[2 * k] == Swap(chunks[k]) && actions[2 * k + 1] == Trigger("chunk", ChunkCount(k))
    {
      actions := actions + [Swap(chunks[i]), Trigger("chunk", ChunkCount(chunkCount))];
      chunkCount := chunkCount + 1;
      i := i + 1;
    }
    if HasAttribute(e, "hx-streaming-complete-event") {
      actions := actions + [Trigger("streaming-complete", TotalChunks(chunkCount))];
    }
  }

  /**
   * What `fetch` gives: a response with its status and decoded chunks, or
   * a thrown error by name and message.
   */
  datatype FetchOutcome = Responded(status: int, chunks: seq<string>) | Threw(name: string, message: string)

  /** `response.ok`: the status is in the 200s (the Fetch standard's ok status). */
  predicate OkStatus(status: int) {
    200 <= status <= 299
  }

  /** A status whose response has a null `body` (the Fetch standard's null body status). */
  predicate NullBodyStatus(status: int) {
    status == 101 || status == 103 || status == 204 || status == 205 || status == 304
  }

  /** The TypeError `new FormData(element)` throws for an element that is not a form, in Chromium's wording. */
  const NOT_A_FORM_MESSAGE: string := "Failed to construct 'FormData': parameter 1 is not of type 'HTMLFormElement'."

  /** The TypeError `response.body.getReader()` throws when the body is null, in Chromium's wording. */
  const NULL_BODY_MESSAGE: string := "Cannot read properties of null (reading 'getReader')"

  /** The error event, when the element asks for it; an abort is never reported. */
  function ErrorActions(e: Element, name: string, message: string): (r: seq<Action>)
    ensures r != [] <==> name != "AbortError" && HasAttribute(e, "hx-streaming-error-event")
    ensures r != [] ==> r == [Trigger("streaming-error", ErrorMessage(message))]
  {
    if name != "AbortError" && HasAttribute(e, "hx-streaming-error-event") then
      [Trigger("streaming-error", ErrorMessage(message))]
    else []
  }

  /** The optional `streaming-start` event, sent before the fetch. */
  function StartActions(e: Element): (r: seq<Action>)
    ensures r != [] <==> HasAttribute(e, "hx-streaming-start-event")
    ensures r != [] ==> r == [Trigger("streaming-start", NoDetail)]
  {
    if HasAttribute(e, "hx-streaming-start-event") then [Trigger("streaming-start", NoDetail)] else []
  }

  /**
   * After the fetch: the error report of a thrown error or a non-ok
   * status; for an ok status with a null body, the TypeError of
   * `getReader()`; otherwise the streamed chunks.
   */
  method ResponseActions(e: Element, outcome: FetchOutcome) returns (actions: seq<Action>)
    ensures outcome.Threw? ==> actions == ErrorActions(e, outcome.name, outcome.message)
    ensures outcome.Responded? && !OkStatus(outcome.status) ==>
      actions == ErrorActions(e, "Error", "HTTP error! status: " + Decimal.IntToString(outcome.status))
    ensures outcome.Responded? && OkStatus(outcome.status) && NullBodyStatus(outcome.status) ==>
      actions == ErrorActions(e, "TypeError", NULL_BODY_MESSAGE)
    ensures outcome.Responded? && OkStatus(outcome.status) && !NullBodyStatus(outcome.status) ==>
      var done := if HasAttribute(e, "hx-streaming-complete-event") then 1 else 0;
      && |actions| == 2 * |outcome.chunks| + done
      && (forall k :: 0 <= k < |outcome.chunks| ==>
            actions[2 * k] == Swap(outcome.chunks[k]) && actions[2 * k + 1] == Trigger("chunk", ChunkCount(k)))
      && (done == 1 ==> actions[2 * |outcome.chunks|] == Trigger("streaming-complete", TotalChunks(|outcome.chunks|)))
  {
    match outcome {
      case Threw(name, message) =>
        actions := ErrorActions(e, name, message);
      case Responded(status, chunks) =>
        if !OkStatus(status) {
          actions := ErrorActions(e, "Error", "HTTP error! status: " + Decimal.IntToString(status));
        } else if NullBodyStatus(status) {
          actions := ErrorActions(e, "TypeError", NULL_BODY_MESSAGE);
        } else {
          actions := StreamChunks(e, chunks);
        }
    }
  }

  /** The request `startStreaming` sends: its URL and fetch options. */
  datatype Request = Request(url: string, options: FetchOptions)

  datatype Streamed = Streamed(registry: Registry, request: Option<Request>, actions: seq<Action>)

  /**
   * `startStreaming` for one element, given the encoded form data and
   * what the fetch produced: register a controller, build the request,
   * announce the start if asked, then stream the chunks or report the
   * error, and finally drop the element's entry with `cleanupRequest` as
   * written. An element that is not a form (no `action`) makes
   * `new FormData` throw inside the `try`, so nothing is sent and only
   * the error is reported. The run is taken as uninterrupted, so the
   * entry dropped is this request's own; `StaleCleanupAsWritten` shows
   * what happens when a second request starts in between.
   */
  method StartStreaming(reg: Registry, e: Element, formData: FormData, query: string, outcome: FetchOutcome)
    returns (r: Streamed)
    requires Valid(reg)
    ensures Valid(r.registry) && e.id !in r.registry.active
    ensures e.id in reg.active ==> reg.active[e.id] in r.registry.aborted
    ensures r.request.None? <==> e.action.None?
    ensures e.action.None? ==> r.actions == ErrorActions(e, "TypeError", NOT_A_FORM_MESSAGE)
    ensures e.action.Some? ==> var t := ExtractHttpMethodAndUrl(e);
      r.request == Some(Request(RequestUrl(t.verb, t.url, query), BuildFetchOptions(t.verb, formData, reg.next)))
    ensures e.action.Some? ==> |r.actions| >= |StartActions(e)| && r.actions[..|StartActions(e)|] == StartActions(e)
    ensures e.action.Some? && outcome.Threw? ==> r.actions[|StartActions(e)|..] == ErrorActions(e, outcome.name, outcome.message)
    ensures e.action.Some? && outcome.Responded? && NullBodyStatus(outcome.status) ==>
      r.actions[|StartActions(e)|..] == if OkStatus(outcome.status) then ErrorActions(e, "TypeError", NULL_BODY_MESSAGE)
                                        else ErrorActions(e, "Error", "HTTP error! status: " + Decimal.IntToString(outcome.status))
    ensures outcome.Responded? && (!OkStatus(outcome.status) || NullBodyStatus(outcome.status)) ==>
      forall k :: 0 <= k < |r.actions| ==> !r.actions[k].Swap?
    ensures e.action.Some? && outcome.Responded? && OkStatus(outcome.status) && !NullBodyStatus(outcome.status) ==>
      var rest := r.actions[|StartActions(e)|..];
      && |rest| == 2 * |outcome.chunks| + (if HasAttribute(e, "hx-streaming-complete-event") then 1 else 0)
      && forall k :: 0 <= k < |outcome.chunks| ==>
           rest[2 * k] == Swap(outcome.chunks[k]) && rest[2 * k + 1] == Trigger("chunk", ChunkCount(k))
  {
    var (registered, controller) := Register(reg, e.id);
    if e.action.None? {
      r := Streamed(Cleanup(registered, e.id), None, ErrorActions(e, "TypeError", NOT_A_FORM_MESSAGE));
    } else {
      var t := ExtractHttpMethodAndUrl(e);
      var url := RequestUrl(t.verb, t.url, query);
      var options := BuildFetchOptions(t.verb, formData, controller);
      var start := StartActions(e);
      var rest := ResponseActions(e, outcome);
      var actions := start + rest;
      assert actions[..|start|] == start && actions[|start|..] == rest;
      r := Streamed(Cleanup(registered, e.id), Some(Request(url, options)), actions);
    }
  }

  /** The ok responses that have no body to read are exactly 204 No Content and 205 Reset Content. */
  lemma OkWithoutBody(status: int)
    ensures OkStatus(status) && NullBodyStatus(status) <==> status == 204 || status == 205
  {
  }

  // ----------------------------------------------------------- dispatch

  /** `onEvent` starts streaming only for `htmx:beforeRequest` on an element whose `hx-ext` is exactly this extension. */
  predicate Handles(eventName: string, e: Element) {
    eventName == "htmx:beforeRequest" && "hx-ext" in e.attributes && e.attributes["hx-ext"] == EXTENSION_NAME
  }

  /** An element listing several extensions in `hx-ext` is left to HTMX's own request. */
  lemma ExtensionListNotHandled(e: Element)
    requires "hx-ext" in e.attributes && e.attributes["hx-ext"] == "streaming-html, json-enc"
    ensures !Handles("htmx:beforeRequest", e)
  {
    assert |e.attributes["hx-ext"]| != |EXTENSION_NAME|;
  }
}

=== FILE: text.dfy ===
/**
 * The handful of Python `str` operations the modelled code relies on:
 * `strip()`, `split(sep)`, `sep.join(...)`, `t in s` and `s * n`.
 */
module Text {
  import opened Wrappers

  /** Python's `str.isspace` for one character: the characters `strip()` removes. */
  predicate IsSpace(c: char) {
    || c == ' ' || c == '\t' || c == '\n' || c == '\r' || c == '\U{B}' || c == '\U{C}'
    || ('\U{1C}' <= c <= '\U{1F}') || c == '\U{85}' || c == '\U{A0}' || c == '\U{1680}'
    || ('\U{2000}' <= c <= '\U{200A}') || c == '\U{2028}' || c == '\U{2029}' || c == '\U{202F}'
    || c == '\U{205F}' || c == '\U{3000}'
  }

  predicate AllSpace(s: string) {
    forall i :: 0 <= i < |s| ==> IsSpace(s[i])
  }

  /** True when `strip()` leaves `s` as it is. */
  predicate IsStripped(s: string) {
    s == [] || (!IsSpace(s[0]) && !IsSpace(s[|s| - 1]))
  }

  /** `s.lstrip()`: drops the leading whitespace. */
  function LStrip(s: string): (r: string)
    ensures |r| <= |s|
    ensures r == [] || !IsSpace(r[0])
    decreases |s|
  {
    if |s| > 0 && IsSpace(s[0]) then LStrip(s[1..]) else s
  }

  /** `lstrip()` removes a whitespace prefix and nothing else. */
  lemma {:induction false} LStripShape(s: string)
    ensures LStrip(s) == s[|s| - |LStrip(s)|..]
    ensures AllSpace(s[..|s| - |LStrip(s)|])
    decreases |s|
  {
    if |s| > 0 && IsSpace(s[0]) {
      LStripShape(s[1..]);
      LStripStep(s, LStrip(s[1..]));
    } else {
      assert s[..0] == [];
    }
  }

  lemma LStripStep(s: string, r: string)
    requires |s| > 0 && IsSpace(s[0])
    requires |r| <= |s| - 1 && r == s[1..][|s| - 1 - |r|..]
    requires AllSpace(s[1..][..|s| - 1 - |r|])
    ensures r == s[|s| - |r|..]
    ensures AllSpace(s[..|s| - |r|])
  {
    var k := |s| - |r|;
    assert s[1..][k - 1..] == s[k..];
    forall i | 0 <= i < k
      ensures IsSpace(s[..k][i])
    {
      if i > 0 {
        assert s[..k][i] == s[1..][..k - 1][i - 1];
      }
    }
  }

  /** `s.rstrip()`: drops the trailing whitespace. */
  function RStrip(s: string): (r: string)
    ensures |r| <= |s|
    ensures r == [] || !IsSpace(r[|r| - 1])
    decreases |s|
  {
    if |s| > 0 && IsSpace(s[|s| - 1]) then RStrip(s[..|s| - 1]) else s
  }

  /** `rstrip()` removes a whitespace suffix and nothing else. */
  lemma {:induction false} RStripShape(s: string)
    ensures RStrip(s) == s[..|RStrip(s)|]
    ensures AllSpace(s[|RStrip(s)|..])
    decreases |s|
  {
    if |s| > 0 && IsSpace(s[|s| - 1]) {
      RStripShape(s[..|s| - 1]);
      RStripStep(s, RStrip(s[..|s| - 1]));
    } else {
      assert s[|s|..] == [];
    }
  }

  lemma RStripStep(s: string, r: string)
    requires |s| > 0 && IsSpace(s[|s| - 1])
    requires |r| <= |s| - 1 && r == s[..|s| - 1][..|r|]
    requires AllSpace(s[..|s| - 1][|r|..])
    ensures r == s[..|r|]
    ensures AllSpace(s[|r|..])
  {
    var k := |r|;
    assert s[..|s| - 1][..k] == s[..k];
    forall i | 0 <= i < |s| - k
      ensures IsSpace(s[k..][i])
    {
      if i < |s| - 1 - k {
        assert s[k..][i] == s[..|s| - 1][k..][i];
      }
    }
  }

  /** `s.strip()`. */
  function Strip(s: string): (r: string)
    ensures IsStripped(r)
    ensures |r| <= |s|
  {
    var l := LStrip(s);
    RStripShape(l);
    RStrip(l)
  }

  /** Stripping only removes characters: whatever is left came from the text. */
  lemma StripKeepsInner(s: string)
    ensures forall i :: 0 <= i < |Strip(s)| ==> Strip(s)[i] in s
  {
    var l := LStrip(s);
    var r := RStrip(l);
    LStripShape(s);
    RStripShape(l);
    var off := |s| - |l|;
    forall i | 0 <= i < |r|
      ensures r[i] in s
    {
      assert r[i] == l[i] == s[off + i];
    }
  }

  lemma {:induction false} LStripSkipsLeadingSpace(w: string, t: string)
    requires AllSpace(w)
    ensures LStrip(w + t) == LStrip(t)
    decreases |w|
  {
    if w != [] {
      var s := w + t;
      assert s[0] == w[0];
      assert LStrip(s) == LStrip(s[1..]);
      assert s[1..] == w[1..] + t;
      LStripSkipsLeadingSpace(w[1..], t);
    } else {
      assert w + t == t;
    }
  }

  /** Whitespace in front of the text does not change what `strip()` returns. */
  lemma StripSkipsLeadingSpace(w: string, t: string)
    requires AllSpace(w)
    ensures Strip(w + t) == Strip(t)
  {
    LStripSkipsLeadingSpace(w, t);
  }

  /** A stripped text is its own `strip()`. */
  lemma StripOfStripped(s: string)
    requires IsStripped(s)
    ensures Strip(s) == s
  {
    assert LStrip(s) == s;
  }

  /** `strip()` yields the empty text exactly for whitespace-only input. */
  lemma StripEmptyIffAllSpace(s: string)
    ensures Strip(s) == [] <==> AllSpace(s)
  {
    var l := LStrip(s);
    var r := RStrip(l);
    LStripShape(s);
    RStripShape(l);
    if l != [] {
      assert r != [];
      assert !AllSpace(s) by {
        assert s[|s| - |l|] == l[0];
      }
    } else {
      assert s[..|s|] == s;
    }
  }

  /** `s.split(sep)` for a one-character separator: the pieces between separators. */
  function Split(s: string, sep: char): (r: seq<string>)
    ensures |r| >= 1
    ensures forall k :: 0 <= k < |r| ==> sep !in r[k]
    decreases |s|
  {
    if |s| == 0 then [""]
    else if s[0] == sep then [""] + Split(s[1..], sep)
    else
      var rest := Split(s[1..], sep);
      [[s[0]] + rest[0]] + rest[1..]
  }

  /** `sep.join(xs)`. */
  function Join(xs: seq<string>, sep: string): string
    decreases |xs|
  {
    if |xs| == 0 then ""
    else if |xs| == 1 then xs[0]
    else xs[0] + sep + Join(xs[1..], sep)
  }

  /** Joining the pieces of a split with the same separator gives the text back. */
  lemma {:induction false} JoinSplit(s: string, sep: char)
    ensures Join(Split(s, sep), [sep]) == s
    decreases |s|
  {
    if |s| == 0 {
    } else if s[0] == sep {
      JoinSplit(s[1..], sep);
      JoinBlankHead(Split(s[1..], sep), [sep]);
      assert s == [sep] + s[1..];
    } else {
      JoinSplit(s[1..], sep);
      JoinExtendHead(s[0], Split(s[1..], sep), [sep]);
      assert s == [s[0]] + s[1..];
    }
  }

  /** A leading empty piece contributes just a separator. */
  lemma JoinBlankHead(rest: seq<string>, sep: string)
    requires |rest| >= 1
    ensures Join([""] + rest, sep) == sep + Join(rest, sep)
  {
    assert ([""] + rest)[1..] == rest;
  }

  /** Extending the first piece by one character extends the joined text by it. */
  lemma JoinExtendHead(c: char, rest: seq<string>, sep: string)
    requires |rest| >= 1
    ensures Join([[c] + rest[0]] + rest[1..], sep) == [c] + Join(rest, sep)
  {
    var r := [[c] + rest[0]] + rest[1..];
    assert r[1..] == rest[1..];
    if |rest| > 1 {
      assert [c] + rest[0] + sep + Join(rest[1..], sep) == [c] + (rest[0] + sep + Join(rest[1..], sep));
    }
  }

  lemma {:induction false} SplitWithoutSep(a: string, sep: char)
    requires sep !in a
    ensures Split(a, sep) == [a]
    decreases |a|
  {
    if |a| > 0 {
      SplitWithoutSep(a[1..], sep);
      assert a == [a[0]] + a[1..];
    }
  }

  lemma {:induction false} SplitAtFirstSep(a: string, sep: char, b: string)
    requires sep !in a
    ensures Split(a + [sep] + b, sep) == [a] + Split(b, sep)
    decreases |a|
  {
    var s := a + [sep] + b;
    if |a| == 0 {
      assert s[0] == sep && s[1..] == b;
    } else {
      assert s[0] == a[0];
      assert s[1..] == a[1..] + [sep] + b;
      SplitAtFirstSep(a[1..], sep, b);
      assert a == [a[0]] + a[1..];
    }
  }

  /** Splitting a join whose parts avoid the separator gives the parts back. */
  lemma {:induction false} SplitJoin(xs: seq<string>, sep: char)
    requires |xs| >= 1
    requires forall k :: 0 <= k < |xs| ==> sep !in xs[k]
    ensures Split(Join(xs, [sep]), sep) == xs
    decreases |xs|
  {
    if |xs| == 1 {
      SplitWithoutSep(xs[0], sep);
    } else {
      SplitJoin(xs[1..], sep);
      SplitAtFirstSep(xs[0], sep, Join(xs[1..], [sep]));
      assert xs == [xs[0]] + xs[1..];
    }
  }

  /** `t in s` for texts: `t` occurs as a contiguous part of `s`. */
  predicate Contains(s: string, t: string) {
    exists i :: 0 <= i <= |s| - |t| && OccursAt(s, t, i)
  }

  predicate OccursAt(s: string, t: string, i: int)
    requires 0 <= i <= |s| - |t|
  {
    s[i..i + |t|] == t
  }

  /** A text occurs in any text built around it. */
  lemma ContainsMiddle(a: string, t: string, b: string)
    ensures Contains(a + t + b, t)
  {
    var s := a + t + b;
    assert OccursAt(s, t, |a|);
  }

  /** A text occurs at the start of any text it begins. */
  lemma ContainsPrefix(t: string, b: string)
    ensures Contains(t + b, t)
  {
    assert OccursAt(t + b, t, 0);
  }

  /** Text in front of an occurrence keeps it an occurrence. */
  lemma ContainsAfter(a: string, s: string, t: string)
    requires Contains(s, t)
    ensures Contains(a + s, t)
  {
    var i :| 0 <= i <= |s| - |t| && OccursAt(s, t, i);
    assert (a + s)[|a| + i..|a| + i + |t|] == s[i..i + |t|];
    assert OccursAt(a + s, t, |a| + i);
  }

  /** Text around an occurrence keeps it an occurrence. */
  lemma ContainsWithin(a: string, s: string, b: string, t: string)
    requires Contains(s, t)
    ensures Contains(a + s + b, t)
  {
    var i :| 0 <= i <= |s| - |t| && OccursAt(s, t, i);
    var whole := a + s + b;
    assert whole[|a| + i..|a| + i + |t|] == s[i..i + |t|];
    assert OccursAt(whole, t, |a| + i);
  }

  /**
   * The part of `s` before its first `c` and the part after it, or `None`
   * when `c` does not occur.
   */
  function CutAt(s: string, c: char): (r: Option<(string, string)>)
    ensures r.None? <==> c !in s
    ensures r.Some? ==> c !in r.value.0 && s == r.value.0 + [c] + r.value.1
    decreases |s|
  {
    if |s| == 0 then None
    else if s[0] == c then Some(([], s[1..]))
    else
      match CutAt(s[1..], c)
      case None => None
      case Some((before, after)) => Some(([s[0]] + before, after))
  }

  /** The cut is at the first occurrence: text without `c` in front is the first part. */
  lemma {:induction false} CutAtFirst(a: string, c: char, b: string)
    requires c !in a
    ensures CutAt(a + [c] + b, c) == Some((a, b))
    decreases |a|
  {
    var s := a + [c] + b;
    if |a| == 0 {
      assert s[0] == c && s[1..] == b;
    } else {
      assert s[0] == a[0] && s[1..] == a[1..] + [c] + b;
      CutAtFirst(a[1..], c, b);
      assert a == [a[0]] + a[1..];
    }
  }

  predicate StartsWith(s: string, p: string) {
    |p| <= |s| && s[..|p|] == p
  }

  /** `s * n`. */
  function Repeat(s: string, n: nat): (r: string)
    ensures |r| == |s| * n
  {
    if n == 0 then "" else s + Repeat(s, n - 1)
  }
}

=== FILE: todo_models.dfy ===
/**
 * The `Todo` model (todo/models.py): a title, a completion flag that starts
 * false, a creation time, newest-first ordering, and `toggle`, which flips
 * the flag and saves the whole row.
 */
module TodoModels {

  datatype Todo = Todo(pk: nat, title: string, completed: bool, createdAt: int)

  /** A freshly created todo: not completed, stamped with the creation time. */
  function NewTodo(pk: nat, title: string, now: int): (t: Todo)
    ensures !t.completed
    ensures t.pk == pk && t.title == title && t.createdAt == now
  {
    Todo(pk, title, false, now)
  }

  /** `__str__`. */
  function TodoText(t: Todo): string
  {
    t.title
  }

  /** The todo table, by primary key. */
  type TodoTable = map<nat, Todo>

  /** What `toggle` leaves behind: the instance, the saved table and the returned value. */
  datatype Toggled = Toggled(todo: Todo, table: TodoTable, result: bool)

  /**
   * `toggle`: negates `completed`, saves every field of the instance, and
   * returns the new value.
   */
  function Toggle(table: TodoTable, t: Todo): (r: Toggled)
    ensures r.result == !t.completed
    ensures r.todo.completed == r.result
    ensures r.todo.pk == t.pk && r.todo.title == t.title && r.todo.createdAt == t.createdAt
    ensures r.table.Keys == table.Keys + {t.pk}
    ensures r.table[t.pk] == r.todo
    ensures forall k :: k in table && k != t.pk ==> r.table[k] == table[k]
  {
    var t' := t.(completed := !t.completed);
    Toggled(t', table[t.pk := t'], t'.completed)
  }

  /** Toggling twice gives back the instance, and the table as it was once the instance is saved. */
  lemma ToggleTwice(table: TodoTable, t: Todo)
    ensures var once := Toggle(table, t);
      var twice := Toggle(once.table, once.todo);
      twice.todo == t && twice.table == table[t.pk := t] && twice.result == t.completed
  {
  }

  /** Toggling a todo that is saved as it stands, twice, leaves the table unchanged. */
  lemma ToggleTwiceRestoresTable(table: TodoTable, t: Todo)
    requires t.pk in table && table[t.pk] == t
    ensures var once := Toggle(table, t);
      Toggle(once.table, once.todo).table == table
  {
    ToggleTwice(table, t);
  }

  // ------------------------------------------------------------ ordering

  /** `ordering = ['-created_at']`. */
  predicate NewestFirst(ts: seq<Todo>) {
    forall i, j :: 0 <= i < j < |ts| ==> ts[i].createdAt >= ts[j].createdAt
  }

  /** Inserts `t` into a newest-first sequence, ahead of the first todo no newer than it. */
  function Insert(t: Todo, ts: seq<Todo>): (r: seq<Todo>)
    requires NewestFirst(ts)
    ensures NewestFirst(r)
    ensures multiset(r) == multiset(ts) + multiset{t}
  {
    if |ts| == 0 then [t]
    else if ts[0].createdAt <= t.createdAt then [t] + ts
    else
      var rest := Insert(t, ts[1..]);
      InsertBehind(t, ts, rest);
      [ts[0]] + rest
  }

  lemma InsertBehind(t: Todo, ts: seq<Todo>, rest: seq<Todo>)
    requires NewestFirst(ts) && |ts| > 0 && ts[0].createdAt > t.createdAt
    requires NewestFirst(rest) && multiset(rest) == multiset(ts[1..]) + multiset{t}
    ensures NewestFirst([ts[0]] + rest)
    ensures multiset([ts[0]] + rest) == multiset(ts) + multiset{t}
  {
    assert ts == [ts[0]] + ts[1..];
    var r := [ts[0]] + rest;
    forall j | 0 <= j < |rest|
      ensures rest[j].createdAt <= ts[0].createdAt
    {
      assert rest[j] in multiset(rest);
      if rest[j] != t {
        assert rest[j] in multiset(ts[1..]);
        var m :| 0 <= m < |ts[1..]| && ts[1..][m] == rest[j];
        assert ts[m + 1] == rest[j];
      }
    }
    forall i, j | 0 <= i < j < |r|
      ensures r[i].createdAt >= r[j].createdAt
    {
      assert r[j] == rest[j - 1];
      if i > 0 {
        assert r[i] == rest[i - 1];
      }
    }
  }

  /** `Todo.objects.all()`: every row, newest first. */
  function Listing(ts: seq<Todo>): (r: seq<Todo>)
    ensures NewestFirst(r)
    ensures multiset(r) == multiset(ts)
  {
    if |ts| == 0 then []
    else
      assert ts == ts[..|ts| - 1] + [ts[|ts| - 1]];
      Insert(ts[|ts| - 1], Listing(ts[..|ts| - 1]))
  }

  /** A todo created after every other one is listed first. */
  lemma NewestListedFirst(ts: seq<Todo>, t: Todo)
    requires forall k :: 0 <= k < |ts| ==> ts[k].createdAt < t.createdAt
    ensures Listing(ts + [t])[0] == t
  {
    var r := Listing(ts + [t]);
    assert t in multiset(ts + [t]);
    assert t in multiset(r);
    var m :| 0 <= m < |r| && r[m] == t;
    assert r[0].createdAt >= t.createdAt;
    assert r[0] in multiset(ts + [t]);
  }
}

=== FILE: wrappers.dfy ===
/** Failure-carrying values shared by every module of the model. */
module Wrappers {

  /** A value that may be absent (Python's `None`). */
  datatype Option<+T> = None | Some(value: T) {
    function GetOr(default: T): T {
      match this
      case Some(v) => v
      case None => default
    }
  }

  /** Either a value or the error the source would raise instead. */
  datatype Result<+T, +E> = Ok(value: T) | Err(error: E) {
    predicate IsFailure() {
      Err?
    }

    function PropagateFailure<U>(): Result<U, E>
      requires Err?
    {
      Err(error)
    }

    function Extract(): T
      requires Ok?
    {
      value
    }
  }
}
